=== FILE: README.md ===
# Substrate core, modelled in Dafny

Substrate matches what one person needs with what another can offer, and it
explains every decision it makes. This project models that core as pure
Dafny functions and proves properties of them:

- **Lexical matcher** (`CapabilityMatcher`, module `Matching`):
  - an inverted index under type, tag and name-token keys;
  - candidate retrieval with de-duplication;
  - scoring from similarity, complementarity, feasibility penalties and a history boost;
  - filter, stable sort and truncate;
  - learning from outcomes.
- **Semantic matcher without embeddings** (`SemanticMatcher`, module `Semantic`):
  - keyword fallback similarity;
  - the simpler feasibility rule;
  - the four-factor confidence;
  - memory-store retrieval;
  - ranking.

  The embedding model and the vector store are parameters.
- **Transparency engine** (module `Transparency`):
  - score and confidence bands;
  - step listings, key factors, alternative counts and summaries;
  - the confidence interval;
  - verification protocols;
  - the assembled match explanation.
- **Shared data model** (`core.py`, module `Models`):
  - the enums and their lowercase values;
  - the append-only provenance graph;
  - the privacy projections;
  - the summary and explanation of a match.
- **Local reasoning helpers** (module `Reasoning`):
  - domain classification;
  - concept extraction;
  - capability-type inference;
  - priority and constraints;
  - need naming;
  - capability de-duplication;
  - profile confidence;
  - recommendation bands.
- **Authentication** (module `Authentication`):
  - registration;
  - login with lockout, a sliding-window rate limit and TOTP;
  - session verification, logout and the re-authentication rule.
- **Access control, audit log and anonymization** (module `Security`).

Shared pieces:
- `Base` holds option/result types, dynamic values and Python truthiness.
- `Text` holds ASCII lower-casing and `str.split`/`join`.
- `Scoring` holds the Jaccard and complementarity formulas used by both matchers.
- `Ranking` holds the filter / stable descending sort / Python slice pipeline.

Scores are `real`. Nothing in the source depends on IEEE rounding. Time is a whole number of seconds passed in by the caller. The following are all parameters:
- hashing, password checks and random identifiers;
- the iteration order of a Python set;
- `:.2f` number formatting.

## Model

| member | source | states |
|---|---|---|
| Models.PrivacyLevel.FromValue | substrate/shared/models/core.py:15-20 | looking a privacy level up by its string succeeds exactly for the value of a level, and returns that level |
| Models.CapabilityType.FromValue | substrate/shared/models/core.py:23-30 | constructing a capability type from a string inverts `.value`, and fails on every other string |
| Models.ProblemDomain.FromValue | substrate/shared/models/core.py:33-44 | constructing a problem domain from a string inverts `.value`, and fails on every other string |
| Models.EnumValuesLowercaseAndDistinct | substrate/shared/models/core.py:15-44 | every enum value string is lowercase, and two members of one enum never share a value |
| Models.ProvenanceGraph.AddStep | substrate/shared/models/core.py:165-167 | adding a step puts it last, keeps every earlier step where it was, and keeps the decision type |
| Models.AddStepsAppends | substrate/shared/models/core.py:165-167 | adding steps one by one appends them in order after the existing steps, changes nothing earlier and keeps the decision type |
| Models.ShareableDict | substrate/shared/models/core.py:61-72 | PRIVATE and CONFIDENTIAL capabilities share nothing; others share exactly type (decodable back to the kind), name, description, proficiency and tags |
| Models.NeedToDict | substrate/shared/models/core.py:89-101 | a need's dictionary has exactly ten keys; type and domain decode back to the need's enums; every other field is copied verbatim |
| Models.NonPrivate | substrate/shared/models/core.py:122 | a capability survives the profile filter iff it belongs to the profile and is not PRIVATE |
| Models.ToShareableProfile | substrate/shared/models/core.py:118-128 | the shared profile projects each non-PRIVATE capability in order, every need in order, and the domains by value; it keeps user id, region and timezone |
| Models.NonPrivateCounts | substrate/shared/models/core.py:122 | filtering removes exactly the PRIVATE capabilities and keeps every CONFIDENTIAL one |
| Models.SharedProfileRespectsPrivacy | substrate/shared/models/core.py:118-128 | the shared list is as long as the non-PRIVATE capabilities; every non-empty entry is the projection of a PUBLIC or NETWORK capability of the profile |
| Models.SummaryBlocks | substrate/shared/models/core.py:182-188 | the summary has one block per step, in step order, numbered consecutively |
| Models.SummaryLines | substrate/shared/models/core.py:178-189 | the summary opens with the decision type, the step count and a blank line, and has four lines per step plus one for each step with alternatives |
| Models.SummaryBlockShape | substrate/shared/models/core.py:178-189 | block i starts with number i+1 and the step's operation, then its reasoning and confidence; it has the "Alternatives considered" line exactly when the step has alternatives |
| Models.GetExplanation | substrate/shared/models/core.py:220-239 | the explanation carries the match's id, score, confidence, evidence, uncertainties, verification methods, complementarity, feasibility and past matches unchanged; its reasoning is the provenance summary, whose second line counts the steps |
| Scoring.Jaccard | substrate/cloud/matching/engine.py:294-308 | similarity lies in [0,1]; it is 0 when either side is empty; it is positive iff the sides share an element; it is 1 iff the sides are equal and non-empty |
| Scoring.JaccardSymmetric | substrate/cloud/matching/engine.py:305-308 | similarity does not depend on which side is the need |
| Scoring.KeywordSimilarity | substrate/cloud/matching/semantic_engine.py:438-452 | keyword similarity of a need and a capability (words of name and description plus tags) lies in [0,1]; it is positive iff they share a term; it is 1 iff their term sets coincide |
| Scoring.ComplementarityOfRatio | substrate/cloud/matching/engine.py:333-341 | the complementarity curve lies in [0,1] and reaches 1 exactly at the 20 % overlap target |
| Scoring.OverlapRatio | substrate/cloud/matching/engine.py:322-334 | the overlap ratio lies in [0,1] and is 0 iff the two users' (type, name) sets are disjoint |
| Scoring.Complementarity | substrate/cloud/matching/engine.py:310-341 | complementarity of two profiles lies in [0,1]; it is 0.5 when neither has capabilities; it is 1 iff the overlap ratio hits the target |
| Scoring.DisjointComplementarity | substrate/cloud/matching/engine.py:322-341 | two profiles with disjoint, not both empty, (type, name) sets score exactly 0.6, including when one side is empty |
| Scoring.ComplementarityHalf | substrate/cloud/matching/engine.py:322-341 | the score is 0.5 iff both sides are empty or the overlap ratio is exactly 9/20, so 0.5 does not single out the empty case |
| Scoring.ComplementarityUnimodal | substrate/cloud/matching/engine.py:333-341 | the curve rises up to the 20 % target and falls after it, so the target is the maximum |
| Ranking.AtLeastKeeps | substrate/cloud/matching/engine.py:107-108 | the score filter keeps exactly the items scoring at least the minimum, in their original relative order |
| Ranking.SortDescCorrect | substrate/cloud/matching/engine.py:111 | the sort is a permutation of its input and is ordered by descending score, ties by original position |
| Ranking.SliceTo | substrate/cloud/matching/engine.py:114 | a Python slice `[:n]` keeps min(n, len) items for n >= 0 and drops \|n\| from the end for negative n; it is always a prefix |
| Ranking.EffectiveLimit | substrate/cloud/matching/engine.py:113 | a missing or zero `max_results` falls back to the configured default; any other value is used as given |
| Ranking.FilterRankTruncate | substrate/cloud/matching/engine.py:107-114 | for a non-negative limit, the result has min(limit, qualifying count) items |
| Ranking.FilterRankTruncateIsTop | substrate/cloud/matching/engine.py:107-114 | the result is sorted, holds only qualifying input items, and precedes every qualifying item it leaves out |
| Ranking.TiesKeepOriginalOrder | substrate/cloud/matching/engine.py:111 | equal scores keep their input order (the sort is stable) |
| Ranking.Enumerate | substrate/cloud/matching/engine.py:98-108 | ranking entries pair every item with its score and input position, in increasing position |
| Matching.NewMatcher | substrate/cloud/matching/engine.py:46-55 | a new matcher uses the given configuration or the defaults, and starts with an empty index, history and pattern table |
| Matching.LongTokens | substrate/cloud/matching/engine.py:73-77 | exactly the words longer than three characters are indexed as tokens, in order |
| Matching.IndexCapability | substrate/cloud/matching/engine.py:63-76 | indexing a capability appends one entry per occurrence of each of its keys and leaves every other key's postings as they were |
| Matching.IndexCapabilitiesAppends | substrate/cloud/matching/engine.py:61-77 | indexing a profile appends its contribution at the end of each key's postings |
| Matching.IndexProfile | substrate/cloud/matching/engine.py:57-77 | indexing changes only the index, never the configuration, history or learned patterns |
| Matching.ReindexingDuplicates | substrate/cloud/matching/engine.py:57-77 | indexing the same profile twice lists each of its capabilities under its type key strictly more often than indexing it once |
| Matching.NeedKeys | substrate/cloud/matching/engine.py:135-151 | lookup keys are the need's type, then every tag, then every name token |
| Matching.Dedup | substrate/cloud/matching/engine.py:153-160 | de-duplication leaves no two entries with the same (user, capability) pair and loses no pair |
| Matching.DedupIsFirsts | substrate/cloud/matching/engine.py:153-160 | de-duplication keeps exactly the first occurrence of each pair, in gathering order |
| Matching.NotOwnedBy | substrate/cloud/matching/engine.py:162-166 | the self filter drops exactly the requester's own entries |
| Matching.Retrieve | substrate/cloud/matching/engine.py:121-182 | candidates never belong to the requester, never repeat a (user, capability) pair, and cover every pair found under any lookup key |
| Matching.RetrieveIsFirstOccurrences | substrate/cloud/matching/engine.py:133-160 | retrieval order is first-occurrence order across the type, tag and token lookups |
| Matching.IndexedCapabilityIsRetrievable | substrate/cloud/matching/engine.py:57-166 | another user's indexed capability of the needed type is always among the candidates |
| Matching.RetrievalStep | substrate/cloud/matching/engine.py:168-180 | the retrieval step reports the candidate count with confidence 0.9 |
| Matching.Feasibility | substrate/cloud/matching/engine.py:343-387 | feasibility lies between 0.8·0.9·0.95·0.9 and 1; it is 1 iff no penalty applies and minimal iff all do; differing timezones cap it at 0.8 |
| Matching.Similar | substrate/cloud/matching/engine.py:400-403 | the similar list holds a past match iff its need and capability types equal the current ones, and nothing when no past match qualifies |
| Matching.SimilarAppend | substrate/cloud/matching/engine.py:400-403 | a match added to the history joins the end of the similar list exactly when it qualifies, so history order and repeats are kept |
| Matching.HistoricalBoost | substrate/cloud/matching/engine.py:389-413 | no similar past match gives a boost of 0; otherwise the boost is (mean similar score − 0.5)·0.2, positive iff that mean exceeds 0.5 |
| Matching.HistoricalBoostBounded | substrate/cloud/matching/engine.py:389-413 | with past scores in [0,1] the boost stays within ±0.1 |
| Matching.HistoricalBoostCanExceedTenth | substrate/cloud/matching/engine.py:389-413 | a past score of 1.3, which the unclamped scorer can produce, gives a boost of 0.16, beyond ±0.1 |
| Matching.GatherEvidence | substrate/cloud/matching/engine.py:446-468 | evidence has at most three items; each item appears iff its condition holds (both descriptions present, shared tags, proficiency >= 0.7) |
| Matching.Uncertainties | substrate/cloud/matching/engine.py:470-499 | each of the five uncertainty notes appears iff its condition holds: few capabilities on either side, no history, an unknown timezone on either side |
| Matching.MatchConfidence | substrate/cloud/matching/engine.py:415-444 | for a score in [0,1] confidence lies in [0.45, 0.875]; the top is reached with evidence, history and a perfect score, the bottom with none of them |
| Matching.ScoringSteps | substrate/cloud/matching/engine.py:206-253 | scoring records exactly four steps in order (similarity, complementarity, feasibility, history) carrying the computed parts; the history step's confidence depends on whether history exists |
| Matching.Assemble | substrate/cloud/matching/engine.py:184-284 | a scored match carries its parts, the combined score, confidence computed with empty evidence, the evidence, uncertainties and verification methods |
| Matching.ScoreMatch | substrate/cloud/matching/engine.py:184-284 | a scored match links the need, the capability and both users, and its provenance has the four scoring steps in order |
| Matching.ScoreMatchRecords | substrate/cloud/matching/engine.py:207-282 | each sub-score is stored both in its field and in its provenance step; the evidence, uncertainties and verification methods are the helpers' results; the confidence is computed from the score as if there were no evidence |
| Matching.ScoreMatchWeighs | substrate/cloud/matching/engine.py:256-263 | the score is 0.3·similarity plus the configured weights times complementarity, proficiency and feasibility, plus a tenth of the historical boost, with no clamp |
| Matching.ScoreMatchRange | substrate/cloud/matching/engine.py:256-262 | with default weights and inputs in [0,1], the score lies in [0.17468, 1.31] and is not clamped to 1 |
| Matching.ScoreCanExceedOne | substrate/cloud/matching/engine.py:256-262 | perfect parts, proficiency and history give a score of exactly 1.31 |
| Matching.ConfidenceIgnoresEvidence | substrate/cloud/matching/engine.py:266-269 | the stored confidence is the one for empty evidence, whatever evidence is attached afterwards |
| Matching.RankMatchesIsTop | substrate/cloud/matching/engine.py:107-114 | ranked matches are ordered by descending score, come from the scored list, meet the minimum, and precede every qualifying match left out |
| Matching.TopMatchesRanked | substrate/cloud/matching/engine.py:107-114 | the returned matches are sorted by descending score, all meet the minimum, and number at most the limit |
| Matching.TopMatchesComplete | substrate/cloud/matching/engine.py:107-114 | under a limit exactly min(limit, qualifying) matches are returned, and a qualifying match left out scores no higher than any returned one |
| Matching.TopMatchesFromCandidates | substrate/cloud/matching/engine.py:95-114 | every returned match pairs the need's owner with a candidate that is not theirs, and no two returned matches share a (user, capability) pair |
| Matching.RankingStep | substrate/cloud/matching/engine.py:501-523 | the ranking step reports the number of returned matches with confidence 0.85 |
| Matching.FindTopSound | substrate/cloud/matching/engine.py:95-114 | from distinct candidates not owned by the requester, the top matches are sorted, qualifying, distinct, and none is the requester's |
| Matching.FindMatches | substrate/cloud/matching/engine.py:79-119 | matching retrieves, then ranks; its provenance has a retrieval step counting candidates, then a ranking step only when something is returned |
| Matching.FindMatchesSound | substrate/cloud/matching/engine.py:79-119 | a search never returns the requester's own capability or the same capability twice, returns at most the effective limit, and orders by descending score |
| Matching.LearnFromOutcome | substrate/cloud/matching/engine.py:525-547 | learning appends the outcome to the history, touches one pattern only, and sets a new pattern to the score on success and 0 on failure |
| Matching.LearningMovesTowardObservation | substrate/cloud/matching/engine.py:540-545 | a known pattern moves to 0.3·observation + 0.7·old, so it lies between old and observation |
| Matching.LearningKeepsPatternsInUnit | substrate/cloud/matching/engine.py:533-545 | with scores in [0,1], learned patterns stay in [0,1] |
| Matching.FailureStillCountsAsHistory | substrate/cloud/matching/engine.py:533-535 | a failed outcome is appended to the history that later scoring reads, just like a success |
| Semantic.NewMatcher | substrate/cloud/matching/semantic_engine.py:65-100 | a new semantic matcher uses the given configuration or the defaults, and records whether embeddings are available, with empty memory and history |
| Semantic.IndexProfile | substrate/cloud/matching/semantic_engine.py:102-138 | indexing stores a profile's capabilities in memory only when embeddings are available, and otherwise changes nothing |
| Semantic.LearnFromOutcome | substrate/cloud/matching/semantic_engine.py:522-525 | learning only appends the outcome to the history |
| Semantic.StorageStaysEmptyWithoutEmbeddings | substrate/cloud/matching/semantic_engine.py:137-138 | without embeddings the memory store stays empty through every operation |
| Semantic.KeywordQuery | substrate/cloud/matching/semantic_engine.py:327-336 | fallback retrieval returns only stored entries that are not the requester's and that share the need's type or a tag |
| Semantic.KeywordQueryExact | substrate/cloud/matching/semantic_engine.py:327-336 | an entry is returned iff it is stored, is not the requester's, and has the need's type or a shared tag |
| Semantic.EmbeddingQuery | substrate/cloud/matching/semantic_engine.py:314-325 | the similarity branch returns only stored entries that are not the requester's |
| Semantic.QueryMemory | substrate/cloud/matching/semantic_engine.py:303-345 | the memory query never returns the requester's entries, and returns nothing from an empty store |
| Semantic.Feasibility | substrate/cloud/matching/semantic_engine.py:475-493 | feasibility is 1, 0.9 or 0.81; it is 1 iff the need is not urgent and the timezones do not differ (both set and unequal), and 0.81 iff both penalties apply |
| Semantic.FeasibilityIgnoresAvailabilityAndBudget | substrate/cloud/matching/semantic_engine.py:475-493 | availability and budget constraints have no effect on semantic feasibility |
| Semantic.LexicalFeasibilityNoHigher | substrate/cloud/matching/semantic_engine.py:475-493 | the lexical matcher's feasibility never exceeds the semantic one for the same inputs |
| Semantic.WeightedScore | substrate/cloud/matching/semantic_engine.py:404-409 | with convex weights and parts in [0,1] the weighted score lies in [0,1] |
| Semantic.DefaultWeightsAreConvex | substrate/cloud/matching/semantic_engine.py:51-54 | the default weights are non-negative and sum to 1 |
| Semantic.Confidence | substrate/cloud/matching/semantic_engine.py:495-520 | for a score in [0,1] confidence lies in [0.4, 0.875]; both ends are reached |
| Semantic.Uncertainties | substrate/cloud/matching/semantic_engine.py:429-434 | the no-embeddings note appears iff requested and the limited-history note iff fewer than 10 past matches |
| Semantic.ScoreMatch | substrate/cloud/matching/semantic_engine.py:351-436 | a scored match links the need, the capability and both users |
| Semantic.ScoreMatchProvenance | substrate/cloud/matching/semantic_engine.py:367-386 | scoring records one similarity step, 0.9 confident with an embedding and 0.6 without, carrying the similarity used |
| Semantic.ScoreMatchScore | substrate/cloud/matching/semantic_engine.py:370-412 | the score is the weighted sum of keyword or embedding similarity, complementarity, proficiency and feasibility; confidence is computed before evidence |
| Semantic.ScoreMatchNotes | substrate/cloud/matching/semantic_engine.py:412-434 | the confidence counts the evidence as missing; the four evidence notes give the similarity actually used, complementarity, proficiency and feasibility in that order; the no-embeddings note appears exactly when no need embedding was given, and the limited-history note exactly under ten past matches |
| Semantic.ScoreMatchInUnit | substrate/cloud/matching/semantic_engine.py:404-409 | with default weights and inputs in [0,1] the score lies in [0,1] |
| Semantic.TenPastMatchesFallBetweenThresholds | substrate/cloud/matching/semantic_engine.py:433 | with exactly 10 past matches, confidence uses the sparse-history factor and the "limited history" note is absent |
| Semantic.ArrayTruth | substrate/cloud/matching/semantic_engine.py:431 | the truth value of a NumPy array raises for more than one element and is false for an empty one (NumPy before 2.2) |
| Semantic.ScoreMatchAsWritten | substrate/cloud/matching/semantic_engine.py:351-436 | as written, scoring without an embedding succeeds, and with a multi-element embedding it raises |
| Semantic.ScoreMatchAsWrittenRaises | substrate/cloud/matching/semantic_engine.py:431 | scoring as written fails for every real embedding of more than one dimension |
| Semantic.FindMatches | substrate/cloud/matching/semantic_engine.py:140-206 | the result is the top matches among the scored memory candidates; the search records an embedding step (0.95 or 0.3 confident), a memory-query step, and a ranking step only when something is returned |
| Semantic.FindMatchesSound | substrate/cloud/matching/semantic_engine.py:140-206 | returned matches are sorted by descending score, meet the minimum, number at most the limit, and never pair the requester with their own capability |
| Semantic.FindMatchesComplete | substrate/cloud/matching/semantic_engine.py:184-191 | under a limit exactly min(limit, qualifying) matches are returned, and a qualifying scored candidate left out scores no higher than any returned match |
| Semantic.NoEmbeddingsNoMatches | substrate/cloud/matching/semantic_engine.py:137-171 | without embeddings every search returns nothing and records just two steps |
| Transparency.InterpretScore | substrate/cloud/transparency/engine.py:284-293 | the score bands are excellent from 0.8, good from 0.6, moderate from 0.4, and weak below |
| Transparency.InterpretScoreMonotone | substrate/cloud/transparency/engine.py:284-293 | a higher score never gets a worse band |
| Transparency.InterpretConfidence | substrate/cloud/transparency/engine.py:253-263 | the five confidence bands split at 0.9, 0.7, 0.5 and 0.3 |
| Transparency.Suggestions | substrate/cloud/transparency/engine.py:450-459 | there is at most one suggestion per factor, and none at all iff no factor mentions data, evidence or past cases |
| Transparency.ConfidenceImprovements | substrate/cloud/transparency/engine.py:450-460 | there is always at least one improvement; the generic pair is returned exactly when no factor matched, and otherwise the per-factor suggestions are |
| Transparency.SuggestionsAreSpecific | substrate/cloud/transparency/engine.py:450-459 | every suggestion is one of the three specific ones and is the advice of some factor in the list |
| Transparency.SuggestionsAppend | substrate/cloud/transparency/engine.py:450-459 | a factor added at the end adds its own advice at the end, or nothing when it mentions none of data, evidence or past: one suggestion per matching factor, in factor order |
| Transparency.SuggestionsOfOne | substrate/cloud/transparency/engine.py:452-458 | a single factor mentioning data is advised to gather data, else evidence to seek evidence, else past to look for past cases, else nothing |
| Transparency.ExplainConfidence | substrate/cloud/transparency/engine.py:244-272 | the explanation keeps score and factors, bands the score, and always suggests at least one improvement |
| Transparency.FormatProvenance | substrate/cloud/transparency/engine.py:295-305 | one entry per step, numbered 1..n in order, with operation, reasoning and confidence copied |
| Transparency.KeyFactorsSound | substrate/cloud/transparency/engine.py:307-313 | every key factor renders a step with confidence at least 0.8 |
| Transparency.ExtractKeyFactors | substrate/cloud/transparency/engine.py:307-313 | the key factors are at most one per step, each is "operation: reasoning" of a step held with confidence at least 0.8, and every such step is rendered |
| Transparency.KeyFactorsAppend | substrate/cloud/transparency/engine.py:307-313 | key factors of concatenated steps are the concatenated key factors, so order is kept |
| Transparency.KeyFactorsComplete | substrate/cloud/transparency/engine.py:307-313 | every step with confidence at least 0.8 yields a key factor |
| Transparency.KeyFactorsAfterAddStep | substrate/cloud/transparency/engine.py:307-313 | adding a step adds its factor at the end iff it is a key step |
| Transparency.CountAlternatives | substrate/cloud/transparency/engine.py:315-320 | the alternative count is zero exactly when no step records an alternative |
| Transparency.SumAlternativesAppend | substrate/cloud/transparency/engine.py:315-320 | the alternative count is additive over concatenated step lists |
| Transparency.NoAlternativesCounted | substrate/cloud/transparency/engine.py:315-320 | the count is zero iff no step has alternatives |
| Transparency.MostAlternatives | substrate/cloud/transparency/engine.py:325-329 | the chosen step has the most alternatives, and is the first such step |
| Transparency.ExplainChoice | substrate/cloud/transparency/engine.py:322-332 | the fixed fallback appears exactly when there are no steps; otherwise the reasoning of the first step with the most alternatives |
| Transparency.StepSummaries | substrate/cloud/transparency/engine.py:338-343 | each step contributes its first min(3, n) alternatives, summarised in order |
| Transparency.GetAlternativeSummaries | substrate/cloud/transparency/engine.py:334-344 | the summaries are the first min(5, capped total) of all per-step summaries |
| Transparency.AllSummariesSound | substrate/cloud/transparency/engine.py:334-344 | every summary summarises one of the first three alternatives of some step |
| Transparency.CappedCountBound | substrate/cloud/transparency/engine.py:315-344 | the capped total never exceeds the alternative count |
| Transparency.AlternativeSummariesSound | substrate/cloud/transparency/engine.py:334-344 | there are at most five summaries, no more than the alternatives counted, each from a step's first three |
| Transparency.ConfidenceInterval | substrate/cloud/transparency/engine.py:370-378 | the interval's ends are clipped to 0 below and 1 above |
| Transparency.IntervalMargin | substrate/cloud/transparency/engine.py:370-378 | away from the clips each end lies score·(1 − confidence)·0.3 from the score; a clipped end is exactly 0 or 1 |
| Transparency.LowerConfidenceWidens | substrate/cloud/transparency/engine.py:370-378 | for a non-negative score, lower confidence gives an interval containing the one for higher confidence |
| Transparency.IntervalBracketsScore | substrate/cloud/transparency/engine.py:370-378 | for a score in [0,1] and confidence at most 1 the interval contains the score |
| Transparency.IntervalInvertsAboveOne | substrate/cloud/transparency/engine.py:370-378 | for score 1.31 with confidence 0.8525, the pair the lexical matcher gives its perfect candidate, the lower end exceeds the upper end |
| Transparency.VerificationProtocol | substrate/cloud/transparency/engine.py:158-242 | the protocol has 5 steps for a match and 4 for a team, numbered from 1, and is empty for any other decision type |
| Transparency.ProtocolIgnoresDecision | substrate/cloud/transparency/engine.py:158-242 | the protocol depends on the decision type only, never on the decision |
| Transparency.VerificationSteps | substrate/cloud/transparency/engine.py:346-359 | the steps are 2 to 4: evidence and past match first when present, then the two fixed checks |
| Transparency.MatchSummary | substrate/cloud/transparency/engine.py:276-282 | the one-line summary opens with "Match score: " and the rendered score, followed by the rendered confidence and then " | Complementarity: " with the rendered complementarity, and nothing after it |
| Transparency.ExplainMatch | substrate/cloud/transparency/engine.py:41-100 | reasoning, alternatives and verification appear iff their flags are set; scores, bands and uncertainty always appear and match the match |
| Transparency.ExplainMatchSections | substrate/cloud/transparency/engine.py:73-92 | a full explanation lists the provenance, key factors, evidence, alternative count and summaries, and verification consistent with the match |
| Reasoning.UniqueFromComplete | substrate/local/reasoning/engine.py:336 | de-duplication keeps every element not seen before, without repeats |
| Reasoning.UniqueFromOrdered | substrate/local/reasoning/engine.py:336 | de-duplication keeps elements in order of first occurrence |
| Reasoning.UniqueSpec | substrate/local/reasoning/engine.py:336 | `dict.fromkeys` keeps each element once, every element, in first-occurrence order |
| Reasoning.ClassifyDomain | substrate/local/reasoning/engine.py:283-321 | the domain is OTHER iff no keyword occurs; otherwise it has the highest hit count, earliest on ties; the step's confidence is 0.7 or 0.3 |
| Reasoning.ExtractConcepts | substrate/local/reasoning/engine.py:323-349 | at most ten distinct concepts, each a word of the text that is long and not a stopword |
| Reasoning.ConceptsAreTheFirstTen | substrate/local/reasoning/engine.py:334-340 | a concept word is missing only when ten distinct concepts precede its first occurrence |
| Reasoning.Collect | substrate/local/reasoning/engine.py:359-375 | the inferred types are never empty; each appears iff its keywords fired, and SKILL also as the default |
| Reasoning.CollectInRuleOrder | substrate/local/reasoning/engine.py:359-375 | the types come in rule order SKILL, RESOURCE, KNOWLEDGE, FUNDING, without repeats |
| Reasoning.RequiredCapabilities | substrate/local/reasoning/engine.py:351-384 | inferred types form a non-empty subsequence of the rule order; each appears iff its keywords occur, SKILL also when nothing else does |
| Reasoning.AssessPriority | substrate/local/reasoning/engine.py:386-414 | urgency and importance are each 0.9 iff their keywords occur and 0.5 otherwise |
| Reasoning.CriticalIsUrgentAndImportant | substrate/local/reasoning/engine.py:394-405 | a description mentioning "critical" is both urgent and important |
| Reasoning.ExtractConstraints | substrate/local/reasoning/engine.py:416-449 | only budget, deadline and location are ever set; budget and deadline are copied when given; a "remote" description forces location to "remote" |
| Reasoning.NeedName | substrate/local/reasoning/engine.py:451-455 | splitting the name gives back the description's words when there are at most five, and otherwise the first five with "..." glued to the fifth |
| Reasoning.Strongest | substrate/local/reasoning/engine.py:589 | the chosen capability has the highest proficiency in its group, the first such on ties |
| Reasoning.MergeGroup | substrate/local/reasoning/engine.py:584-594 | a lone capability is kept as it is; a real merge is the strongest member, first on ties, with every other field kept, the evidence of the whole group in order, and the group's mean confidence |
| Reasoning.MergedConfidenceInUnit | substrate/local/reasoning/engine.py:593 | the mean confidence of a group with confidences in [0,1] lies in [0,1] |
| Reasoning.MergeGroupAsWritten | substrate/local/reasoning/engine.py:584-594 | as written, the merge agrees with the intended one except for evidence: where the intended list is the evidence before the winner, the winner's, then the rest, the written one repeats the evidence before the winner in place of the winner's |
| Reasoning.MergeGroupAsWrittenLosesEvidence | substrate/local/reasoning/engine.py:589-592 | as written, a concrete two-member group merges to ["a", "a"] where the intended merge keeps ["a", "b"] |
| Reasoning.Deduplicate | substrate/local/reasoning/engine.py:566-594 | the entries' lowered names are the input's distinct lowered names in first-occurrence order, so there are never more entries than inputs; each entry is at least as proficient as every same-named input, carries all their evidence, has their mean confidence when there were several, and is an input itself when there was one; each entry is exactly the merge of its group |
| Reasoning.DeduplicateAsWritten | substrate/local/reasoning/engine.py:566-594 | as written, de-duplication yields the same entries as the intended version except for their evidence lists |
| Reasoning.AnalyzeProblem | substrate/local/reasoning/engine.py:64-115 | the need keeps the given id, description and serialized context; its type is the first inferred type; its tags are the set of the first five concepts, so at most five; its domain is Other iff no keyword hits and otherwise the first domain with the most hits; priority, constraints and name are the helpers' |
| Reasoning.ProfileConfidence | substrate/local/reasoning/engine.py:656-686 | profile confidence lies in [0,1]; it is 1 iff there are at least ten capabilities and all four fields are filled; it is 0 iff none is filled |
| Reasoning.Recommendation | substrate/local/reasoning/engine.py:747-774 | the four bands are decided by the average score; the top band also needs no concerns |
| Reasoning.ConcernsCostOneBand | substrate/local/reasoning/engine.py:758-761 | an excellent average with concerns falls to "Recommended", never lower |
| Authentication.NewSystem | substrate/shared/security/authentication.py:64-73 | a new system has no users, sessions or recorded attempts |
| Authentication.FindByEmail | substrate/shared/security/authentication.py:203 | lookup finds the first user with the email, and fails iff none has it |
| Authentication.PutUserThenFind | substrate/shared/security/authentication.py:170 | storing a user under its id keeps ids unique and makes that id find exactly that user, others unchanged |
| Authentication.RegisterUser | substrate/shared/security/authentication.py:124-172 | registration fails iff the email is taken; otherwise the new user has the email, the hash, the generated TOTP secret iff MFA was required (so MFA then gates login), and no failures, and sessions are untouched |
| Authentication.RegisterKeepsUsersUnique | substrate/shared/security/authentication.py:148-170 | registration keeps user ids and emails unique |
| Authentication.CountRecent | substrate/shared/security/authentication.py:346-349 | the recent count never exceeds the recorded attempts; it is 0 iff no attempt falls in the last 15 minutes and equals their number iff all do |
| Authentication.RateLimitAllows | substrate/shared/security/authentication.py:339-351 | an email with no record is allowed; otherwise it is allowed iff fewer than five attempts fall in the last 15 minutes |
| Authentication.RecordAttempt | substrate/shared/security/authentication.py:353-366 | recording adds now, keeps only attempts newer than an hour, and leaves other emails alone |
| Authentication.AttemptsAccumulate | substrate/shared/security/authentication.py:353-366 | each recorded attempt adds exactly one to the current window |
| Authentication.VerifyTotp | substrate/shared/security/authentication.py:327-337 | a code is accepted iff it has exactly six characters, all digits |
| Authentication.FailedLogin | substrate/shared/security/authentication.py:221-230 | a wrong password adds one failure to that user only, locks the account for 15 minutes once there are five, changes no other field of any user, keeps sessions, and records the attempt |
| Authentication.NewSession | substrate/shared/security/authentication.py:246-272 | a new session carries the given id, belongs to the user, starts now, expires one session timeout later, keeps IP and user-agent digests of at most 16 characters, and is MFA-verified iff a code was sent |
| Authentication.SucceededLogin | substrate/shared/security/authentication.py:241-249 | a success clears failures and lock for that user only, records the login time, stores the session under its id, and records the attempt |
| Authentication.LoginWith | substrate/shared/security/authentication.py:174-251 | a session is returned iff the email is known, the account is not locked, the rate limit allows, the password verifies and the MFA gate passes; it belongs to that user and starts now; without a session the sessions are untouched |
| Authentication.Login | substrate/shared/security/authentication.py:174-251 | a session from login was created and last active at the login time |
| Authentication.RejectionsChangeNothing | substrate/shared/security/authentication.py:203-239 | unknown email, active lock, exhausted rate limit, or missing or bad TOTP after a right password return nothing and change nothing |
| Authentication.WrongPasswordCounts | substrate/shared/security/authentication.py:221-230 | a wrong password adds exactly one failure, opens no session, and from the fifth failure locks for 15 minutes |
| Authentication.SuccessResets | substrate/shared/security/authentication.py:241-251 | success resets failures and lock, records the login time, adds only the new session, and marks MFA verified iff a code was sent |
| Authentication.MfaFlagWithoutSecret | substrate/shared/security/authentication.py:233-247 | without a TOTP secret any non-empty code yields a session marked MFA-verified |
| Authentication.LockoutHolds | substrate/shared/security/authentication.py:210-228 | after the fifth failure even the right password is refused for 15 minutes |
| Authentication.RateLimitRefuses | substrate/shared/security/authentication.py:213-215 | five attempts in the window refuse the next login and change nothing |
| Authentication.VerifySession | substrate/shared/security/authentication.py:275-296 | unknown sessions yield nothing; expired ones are deleted and yield nothing; live ones get their last activity set to now, with every other field and every other session unchanged, and yield their user |
| Authentication.Logout | substrate/shared/security/authentication.py:298-301 | logout removes exactly that session and keeps users and attempts |
| Authentication.RequireReauthentication | substrate/shared/security/authentication.py:303-325 | re-authentication is required iff there is no session, it has been idle over 5 minutes, or MFA was not verified |
| Authentication.LogoutEndsSession | substrate/shared/security/authentication.py:298-325 | after logout the session verifies to nothing and requires re-authentication |
| Authentication.VerifiedSessionIsFresh | substrate/shared/security/authentication.py:292-325 | a live MFA-verified session needs no re-authentication for 5 minutes after it is verified |
| Authentication.FreshMfaSessionNeedsNoReauthentication | substrate/shared/security/authentication.py:241-325 | right after an MFA login, sensitive operations need no re-authentication |
| Authentication.LoginAsWritten | substrate/shared/security/authentication.py:49 | as written, a new session's last activity is the time the class was loaded |
| Authentication.FreshMfaSessionNeedsReauthenticationAsWritten | substrate/shared/security/authentication.py:49 | as written, once the process has run over 5 minutes, a fresh MFA session already requires re-authentication |
| Authentication.LastActivityCounterexample | substrate/shared/security/authentication.py:49 | a concrete MFA login 1000 seconds after load requires re-authentication at once as written, and not with the intended default |
| Security.LogAccess | substrate/shared/security/encryption.py:450-491 | logging appends one entry with hashed user and resource, the given type, operation, result and reason, the call's timestamp and log id, and, iff an IP was given, the hash of that IP rather than the IP itself |
| Security.EntriesFor | substrate/shared/security/encryption.py:493-505 | a user's audit view holds only that user's entries, and all of them |
| Security.UserAuditLog | substrate/shared/security/encryption.py:493-505 | a user's audit log holds only entries logged under that user's hash, and every one of them |
| Security.EntriesForAppend | substrate/shared/security/encryption.py:502-505 | the audit view is in append order: an appended entry shows at the end of its user's view only |
| Security.CanAccess | substrate/shared/security/encryption.py:536-598 | access is allowed iff the requester owns the resource or it is a match; every call appends one entry recording success iff allowed, with the reason |
| Security.AuditLogIsAppendOnly | substrate/shared/security/encryption.py:489 | any number of access checks grow the log by exactly one entry each and never change earlier entries |
| Security.AccessShowsInOwnLog | substrate/shared/security/encryption.py:493-598 | an access check appears at the end of the requester's audit view and in no other user's view |
| Security.AnyoneMayAccessAMatch | substrate/shared/security/encryption.py:573-586 | any user may access any match, whoever owns it |
| Security.GeneralizeDescription | substrate/shared/security/encryption.py:425-435 | the generalized description is the marker, the first 100 characters, and an ellipsis |
| Security.ShortDescriptionsSurvive | substrate/shared/security/encryption.py:425-435 | a description of at most 100 characters survives verbatim inside its generalized form |
| Security.SanitizeCapability | substrate/shared/security/encryption.py:389-423 | exactly the four identifying fields are removed, every other field is kept unchanged, and a description is generalized |
| Security.SanitizeTwiceStacksMarkers | substrate/shared/security/encryption.py:389-435 | sanitizing twice stacks the marker, so sanitization is not idempotent |

## Left out

- Embeddings and vector search: the sentence-embedding model, ChromaDB, `_embed_*`, `_query_chromadb` and `_cosine_similarity`. The embedding of a need and the cosine similarity are parameters of the semantic matcher (`vector`, `cosine`).
- `BatchMatcher` in the lexical matcher: it is a stub that delegates to `find_matches`.
- `explain_team_composition` and its helpers (`_interpret_probability`, `_explain_team_selection`, `_identify_synergies`, `_suggest_mitigations`, `_suggest_monitoring`, `_timeline_sensitivity`), the `Team` and `CollaborationOutcome` classes, and `ExplanationFormatter`. They are presentation of teams, which no matching operation uses.
- `_load_templates` in the transparency engine: it is unused.
- `_suggest_external_validation` and `_identify_sensitivity`: these are fixed lists, modelled only as the constants that `ExplainMatch` places in its result.
- The reasoning engine's LLM-facing operations are left out: `identify_user_capabilities`, `generate_shareable_profile`, `assess_match_quality`, the capability extractors, `_apply_privacy_filters`, `_anonymize_profile`, `_assess_alignment`, `_assess_local_feasibility` and `_identify_concerns`. They are placeholders around a language model. The provenance steps recorded by the helpers are modelled only for domain classification.
- Cryptography: `EncryptionEngine`, `SecureStorage`, `create_anonymous_identity`, `hash_password` and `verify_password`. They are modelled only as parameters: the password check `verify`, the digest `sha`/`digest`, and the ids and secrets handed in.
- `PasskeyAuth`: it is a credential store with no checks.
- `verify_log_integrity`: it always returns true.
- The SQLite persistence layer and the web API: both are I/O.
- Clocks are integer seconds supplied by the caller. The session sleep on an unknown email has no observable effect and is not modelled.
- Text handling is ASCII only. Lower-casing and `isdigit` follow Python on ASCII input, and whitespace splitting uses Python's ASCII whitespace, including the separators `\x1c`-`\x1f`. Unicode whitespace such as `\x85` or `\xa0` and Unicode case mapping are not modelled.
- Timestamps, UUIDs and `secrets` tokens are parameters.
- String rendering with `:.2f` is a parameter `fmt`, and rendering of evidence items is a parameter `show`.
- `User.created_at` has the same import-time default as `Session.last_activity`. It is modelled as a `loadTime` parameter of registration but has no property attached.
- Matching.Retrieve: a Python set's iteration order decides the order of tag lookups. It is the parameter `tagOrder`, which must enumerate the need's tags.
- Security.SanitizeCapability: a description that is not a string makes Python raise or, for a list, slice it. The model returns an error for every non-string description.
- Semantic.FindMatches: the ChromaDB branch of retrieval is not modelled. With embeddings, retrieval is the memory-store branch.
- Semantic.FindMatches: scoring uses the corrected `is None` test for the no-embedding note. As written, a search with an embedding and at least one candidate raises at `semantic_engine.py:431`; that behaviour is `Semantic.ScoreMatchAsWritten` (see Findings).
- Authentication.RegisterUser: the TOTP secret is a parameter standing for `base64.b32encode(secrets.token_bytes(20)).decode()` (`authentication.py:161`), which is always 32 characters long; the model requires it non-empty when MFA is required and says nothing about an empty one.
- Authentication.Login: a new session's last activity is the login time. As written it is the time the class was loaded (`authentication.py:49`); that behaviour is `Authentication.LoginAsWritten` (see Findings).
- Reasoning.Deduplicate: merging keeps every member's evidence. As written, `engine.py:589-592` doubles the evidence gathered before the winner and drops the winner's own; that behaviour is `Reasoning.DeduplicateAsWritten` (see Findings).
- Matching.FindMatches: the provenance graph that `find_matches` builds is discarded by the source. The model returns it so its steps can be stated.
- Models.GetExplanation: the `reasoning` entry is the summary's lines rather than the single joined string.

## Findings

| source | as written | input that shows it | evidently intended | confidence | as-written member | corrected member |
|---|---|---|---|---|---|---|
| substrate/local/reasoning/engine.py:589-592 | the strongest capability's evidence list is cleared, then every group member's evidence, including the cleared list itself, is appended to it | capabilities "ROS" with evidence ["a"] at proficiency 0.5 and "ros" with ["b"] at proficiency 0.9: the merge yields ["a", "a"], losing "b" | the merged capability carries the evidence of every member of its group, in order | not executed | Reasoning.MergeGroupAsWrittenLosesEvidence | Reasoning.MergeGroup |
| substrate/shared/security/authentication.py:49 | `last_activity` defaults to `datetime.utcnow()` evaluated once, when the class is defined, so every session starts as last active at import time | a user with MFA logs in with the right password and code "123456" 1000 seconds after the module was loaded: `require_reauthentication` is true immediately | a new session is last active when it is created, so a fresh MFA login needs no re-authentication for 5 minutes | not executed | Authentication.LastActivityCounterexample | Authentication.FreshMfaSessionNeedsNoReauthentication |
| substrate/cloud/matching/semantic_engine.py:431 | `if not need_embedding:` takes the truth value of a NumPy vector, which raises for any vector of more than one element | any need embedding of dimension 384, as the sentence model produces | the note is added exactly when no embedding is available (`need_embedding is None`) | not executed | Semantic.ScoreMatchAsWrittenRaises | Semantic.ScoreMatchNotes |

=== FILE: authentication.dfy ===
/** The account and session state machine of `AuthenticationSystem`:
    registration, login with lockout, a sliding-window rate limit and TOTP,
    session verification and expiry, logout, and the re-authentication rule
    for sensitive operations. Time is a whole number of seconds passed in by
    the caller; password hashing, the password check, the digest of client
    data and every random identifier are parameters. */
module Authentication {

  import opened Base
  import opened Text

  const MaxLoginAttempts: nat := 5
  /** 15 minutes: the lockout and the rate-limit window. */
  const LockoutDuration: int := 900
  /** 4 hours. */
  const SessionTimeout: int := 14400
  /** 5 minutes. */
  const MfaTimeout: int := 300
  /** 1 hour: how long a recorded attempt is kept. */
  const AttemptRetention: int := 3600
  const CodeLength: nat := 6
  /** The digest of client data keeps this many characters. */
  const DigestLength: nat := 16
  const UserExists: string := "User already exists"

  datatype User = User(
    userId: string,
    email: string,
    passwordHash: string,
    totpSecret: Option<string>,
    createdAt: int,
    lastLogin: Option<int>,
    failedLoginAttempts: nat,
    lockedUntil: Option<int>)

  datatype Session = Session(
    sessionId: string,
    userId: string,
    createdAt: int,
    expiresAt: int,
    ipAddress: string,
    userAgent: string,
    mfaVerified: bool,
    lastActivity: int)

  /** The users in insertion order (a dictionary keyed by user id), the live
      sessions, and the recorded login times per email. */
  datatype AuthSystem = AuthSystem(
    users: seq<User>,
    sessions: map<string, Session>,
    loginAttempts: map<string, seq<int>>)

  /** What a login call is given besides the clock. */
  datatype LoginRequest = LoginRequest(
    email: string,
    password: string,
    totpCode: Option<string>,
    ipAddress: string,
    userAgent: string)

  function NewSystem(): (s: AuthSystem)
    ensures s.users == [] && s.sessions == map[] && s.loginAttempts == map[]
  {
    AuthSystem([], map[], map[])
  }

  // ---------------------------------------------------------------------
  // Users

  predicate UniqueIds(users: seq<User>)
  {
    forall i, j :: 0 <= i < j < |users| ==> users[i].userId != users[j].userId
  }

  predicate UniqueEmails(users: seq<User>)
  {
    forall i, j :: 0 <= i < j < |users| ==> users[i].email != users[j].email
  }

  predicate EmailRegistered(users: seq<User>, email: string)
  {
    exists i :: 0 <= i < |users| && users[i].email == email
  }

  /** The first user with this email (`next(...)` over the users in order). */
  function FindByEmail(users: seq<User>, email: string): (r: Option<nat>)
    ensures r.Some? ==> r.value < |users| && users[r.value].email == email
    ensures r.Some? ==> forall j :: 0 <= j < r.value ==> users[j].email != email
    ensures r.None? <==> !EmailRegistered(users, email)
  {
    if |users| == 0 then None
    else if users[0].email == email then Some(0)
    else
      var rest := FindByEmail(users[1..], email);
      assert forall j :: 0 <= j < |users[1..]| ==> users[1..][j] == users[j + 1];
      if rest.None? then None else Some(rest.value + 1)
  }

  /** `users.get(user_id)` */
  function FindById(users: seq<User>, userId: string): (r: Option<User>)
    ensures r.Some? ==> r.value in users && r.value.userId == userId
    ensures r.None? <==> forall i :: 0 <= i < |users| ==> users[i].userId != userId
  {
    if |users| == 0 then None
    else if users[0].userId == userId then Some(users[0])
    else FindById(users[1..], userId)
  }

  /** `users[user_id] = user`: replaced in place when the id is taken,
      appended otherwise. */
  function PutUser(users: seq<User>, u: User): (r: seq<User>)
    ensures |r| == |users| || |r| == |users| + 1
    ensures forall i :: 0 <= i < |users| && users[i].userId != u.userId ==> r[i] == users[i]
    ensures forall i :: 0 <= i < |r| ==> r[i] == u || (i < |users| && r[i] == users[i])
  {
    if |users| == 0 then [u]
    else if users[0].userId == u.userId then [u] + users[1..]
    else [users[0]] + PutUser(users[1..], u)
  }

  /** After storing a user, looking its id up finds it, and every other id
      finds what it found before. */
  lemma {:induction false} PutUserThenFind(users: seq<User>, u: User, id: string)
    requires UniqueIds(users)
    ensures UniqueIds(PutUser(users, u))
    ensures FindById(PutUser(users, u), id) == if id == u.userId then Some(u) else FindById(users, id)
    decreases |users|
  {
    if |users| > 0 {
      var tail := users[1..];
      assert forall i :: 0 <= i < |tail| ==> tail[i] == users[i + 1];
      if users[0].userId != u.userId {
        PutUserThenFind(tail, u, id);
        var r := PutUser(users, u);
        assert r[1..] == PutUser(tail, u);
        forall i, j | 0 <= i < j < |r| ensures r[i].userId != r[j].userId {
          if i == 0 {
            assert r[j] == u || r[j] == tail[j - 1];
          }
        }
      } else {
        assert FindById(tail, u.userId).None?;
      }
    }
  }

  /** `register_user`: rejected when the email is taken; otherwise the new
      user, with a TOTP secret exactly when MFA is required, is stored under
      its id. `loadTime` is the moment the class was defined, which is what
      the `created_at` default evaluates to. `secret` is the generated base32
      secret, never empty. */
  function RegisterUser(sys: AuthSystem, email: string, passwordHash: string, requireMfa: bool,
                        userId: string, secret: string, loadTime: int): (r: Result<(AuthSystem, User)>)
    requires requireMfa ==> |secret| > 0
    ensures r.Err? <==> EmailRegistered(sys.users, email)
    ensures r.Ok? ==> var u := r.value.1;
                      && u.userId == userId && u.email == email && u.passwordHash == passwordHash
                      && (u.totpSecret.Some? <==> requireMfa)
                      && (Present(u.totpSecret) <==> requireMfa)
                      && (requireMfa ==> u.totpSecret == Some(secret))
                      && u.failedLoginAttempts == 0 && u.lockedUntil.None? && u.lastLogin.None?
    ensures r.Ok? ==> r.value.0.sessions == sys.sessions && r.value.0.loginAttempts == sys.loginAttempts
  {
    if FindByEmail(sys.users, email).Some? then Err(UserExists)
    else
      var u := User(userId, email, passwordHash, if requireMfa then Some(secret) else None,
                    loadTime, None, 0, None);
      Ok((sys.(users := PutUser(sys.users, u)), u))
  }

  /** Registration keeps ids and emails unique and makes the new user
      findable by both. */
  lemma RegisterKeepsUsersUnique(sys: AuthSystem, email: string, passwordHash: string, requireMfa: bool,
                                 userId: string, secret: string, loadTime: int)
    requires UniqueIds(sys.users) && UniqueEmails(sys.users)
    requires requireMfa ==> |secret| > 0
    requires RegisterUser(sys, email, passwordHash, requireMfa, userId, secret, loadTime).Ok?
    ensures var r := RegisterUser(sys, email, passwordHash, requireMfa, userId, secret, loadTime).value;
            && UniqueIds(r.0.users) && UniqueEmails(r.0.users)
            && FindById(r.0.users, userId) == Some(r.1)
            && FindByEmail(r.0.users, email).Some?
  {
    var r := RegisterUser(sys, email, passwordHash, requireMfa, userId, secret, loadTime).value;
    var u := r.1;
    PutUserThenFind(sys.users, u, userId);
    var us := r.0.users;
    assert us == PutUser(sys.users, u);
    forall i, j | 0 <= i < j < |us| ensures us[i].email != us[j].email {
      if us[i] == u {
        assert us[j] in sys.users;
      } else if us[j] == u {
        assert us[i] in sys.users;
      } else {
        assert us[i] == sys.users[i] && us[j] == sys.users[j];
      }
    }
    assert u in us;
  }

  // ---------------------------------------------------------------------
  // Rate limit

  /** The number of recorded times within the lockout window before `now`. */
  function CountRecent(times: seq<int>, now: int): (n: nat)
    ensures n <= |times|
    ensures n == 0 <==> forall i :: 0 <= i < |times| ==> now - times[i] >= LockoutDuration
    ensures n == |times| <==> forall i :: 0 <= i < |times| ==> now - times[i] < LockoutDuration
    decreases |times|
  {
    if |times| == 0 then 0
    else
      assert forall i :: 0 <= i < |times[1..]| ==> times[1..][i] == times[i + 1];
      (if now - times[0] < LockoutDuration then 1 else 0) + CountRecent(times[1..], now)
  }

  /** `_check_rate_limit`: fewer than five attempts in the last 15 minutes. */
  function RateLimitAllows(attempts: map<string, seq<int>>, email: string, now: int): (ok: bool)
    ensures email !in attempts ==> ok
    ensures email in attempts ==> (ok <==> CountRecent(attempts[email], now) < MaxLoginAttempts)
  {
    email !in attempts || CountRecent(attempts[email], now) < MaxLoginAttempts
  }

  /** The recorded times later than `cutoff`, in order. */
  function Newer(times: seq<int>, cutoff: int): (r: seq<int>)
    ensures |r| <= |times|
    ensures forall t :: t in r <==> t in times && t > cutoff
  {
    if |times| == 0 then []
    else (if times[0] > cutoff then [times[0]] else []) + Newer(times[1..], cutoff)
  }

  /** `_record_login_attempt`: append `now`, then forget attempts older than
      an hour; other emails are untouched. */
  function RecordAttempt(attempts: map<string, seq<int>>, email: string, now: int): (r: map<string, seq<int>>)
    ensures email in r && now in r[email]
    ensures forall t :: t in r[email] <==> t > now - AttemptRetention && (t == now || (email in attempts && t in attempts[email]))
    ensures forall e :: e != email ==> (e in r <==> e in attempts)
    ensures forall e :: e != email && e in attempts ==> r[e] == attempts[e]
  {
    var before := if email in attempts then attempts[email] else [];
    attempts[email := Newer(before + [now], now - AttemptRetention)]
  }

  /** An attempt recorded now counts against the window now. */
  lemma {:induction false} CountRecentAppend(times: seq<int>, now: int)
    ensures CountRecent(times + [now], now) == CountRecent(times, now) + 1
    decreases |times|
  {
    if |times| == 0 {
      assert [now][1..] == [];
    } else {
      assert (times + [now])[1..] == times[1..] + [now];
      CountRecentAppend(times[1..], now);
    }
  }

  // ---------------------------------------------------------------------
  // Login

  /** `_verify_totp`: any six-digit code is accepted; the secret is not consulted. */
  function VerifyTotp(code: string): (ok: bool)
    ensures ok <==> |code| == CodeLength && forall i :: 0 <= i < |code| ==> IsDigit(code[i])
  {
    |code| == CodeLength && forall i :: 0 <= i < |code| ==> IsDigit(code[i])
  }

  predicate IsLocked(u: User, now: int)
  {
    u.lockedUntil.Some? && now < u.lockedUntil.value
  }

  /** The MFA gate: passes when the user has no secret, or a code was given
      and has the accepted shape. */
  predicate MfaPasses(u: User, code: Option<string>)
  {
    !Present(u.totpSecret) || (Present(code) && VerifyTotp(code.value))
  }

  /** A wrong password: one more failure, locked for 15 minutes once there
      are five, and the attempt recorded. */
  function FailedLogin(sys: AuthSystem, i: nat, email: string, now: int): (r: AuthSystem)
    requires i < |sys.users|
    ensures |r.users| == |sys.users| && r.sessions == sys.sessions
    ensures forall j :: 0 <= j < |sys.users| && j != i ==> r.users[j] == sys.users[j]
    ensures r.users[i].failedLoginAttempts == sys.users[i].failedLoginAttempts + 1
    ensures r.users[i].failedLoginAttempts >= MaxLoginAttempts ==> r.users[i].lockedUntil == Some(now + LockoutDuration)
    ensures r.users[i].failedLoginAttempts < MaxLoginAttempts ==> r.users[i].lockedUntil == sys.users[i].lockedUntil
    ensures r.users[i].userId == sys.users[i].userId && r.users[i].email == sys.users[i].email
    ensures r.users[i] == sys.users[i].(failedLoginAttempts := r.users[i].failedLoginAttempts,
                                        lockedUntil := r.users[i].lockedUntil)
    ensures r.loginAttempts == RecordAttempt(sys.loginAttempts, email, now)
  {
    var u := sys.users[i];
    var failures := u.failedLoginAttempts + 1;
    var u' := u.(failedLoginAttempts := failures,
                 lockedUntil := if failures >= MaxLoginAttempts then Some(now + LockoutDuration) else u.lockedUntil);
    sys.(users := sys.users[i := u'], loginAttempts := RecordAttempt(sys.loginAttempts, email, now))
  }

  /** `_create_session` plus the MFA flag `login` sets afterwards. The new
      session's last activity is `activity`. */
  function NewSession(sessionId: string, u: User, req: LoginRequest, digest: string -> string,
                      now: int, activity: int): (s: Session)
    ensures s.sessionId == sessionId && s.userId == u.userId
    ensures s.createdAt == now && s.expiresAt == now + SessionTimeout
    ensures s.mfaVerified <==> Present(req.totpCode)
    ensures s.lastActivity == activity
    ensures |s.ipAddress| <= DigestLength && |s.userAgent| <= DigestLength
  {
    Session(sessionId, u.userId, now, now + SessionTimeout,
            Prefix(digest(req.ipAddress), DigestLength), Prefix(digest(req.userAgent), DigestLength),
            Present(req.totpCode), activity)
  }

  /** A successful login: failures reset, lock cleared, login time set, the
      session stored and the attempt recorded. */
  function SucceededLogin(sys: AuthSystem, i: nat, email: string, s: Session, now: int): (r: AuthSystem)
    requires i < |sys.users|
    ensures |r.users| == |sys.users|
    ensures forall j :: 0 <= j < |sys.users| && j != i ==> r.users[j] == sys.users[j]
    ensures r.users[i] == sys.users[i].(failedLoginAttempts := 0, lockedUntil := None, lastLogin := Some(now))
    ensures r.sessions == sys.sessions[s.sessionId := s]
    ensures r.loginAttempts == RecordAttempt(sys.loginAttempts, email, now)
  {
    var u' := sys.users[i].(failedLoginAttempts := 0, lockedUntil := None, lastLogin := Some(now));
    sys.(users := sys.users[i := u'], sessions := sys.sessions[s.sessionId := s],
         loginAttempts := RecordAttempt(sys.loginAttempts, email, now))
  }

  /** `login`, with the new session's last-activity time as a parameter:
      an unknown email, an active lock or an exhausted rate limit changes
      nothing; a wrong password counts a failure; a missing or malformed TOTP
      code changes nothing; otherwise a session is opened. `verify` stands
      for the password check against the stored hash and `digest` for the
      hash of client data. */
  function LoginWith(sys: AuthSystem, req: LoginRequest, now: int, sessionId: string,
                     verify: (string, string) -> bool, digest: string -> string, activity: int)
    : (r: (AuthSystem, Option<Session>))
    ensures r.1.Some? <==>
              var found := FindByEmail(sys.users, req.email);
              && found.Some?
              && !IsLocked(sys.users[found.value], now)
              && RateLimitAllows(sys.loginAttempts, req.email, now)
              && verify(req.password, sys.users[found.value].passwordHash)
              && MfaPasses(sys.users[found.value], req.totpCode)
    ensures r.1.Some? ==> r.1.value.sessionId == sessionId && r.1.value.lastActivity == activity
                          && r.1.value.userId == sys.users[FindByEmail(sys.users, req.email).value].userId
                          && r.1.value.createdAt == now && r.1.value.expiresAt == now + SessionTimeout
    ensures r.1.None? ==> r.0.sessions == sys.sessions
    ensures |r.0.users| == |sys.users|
  {
    var found := FindByEmail(sys.users, req.email);
    if found.None? then (sys, None)
    else
      var u := sys.users[found.value];
      if IsLocked(u, now) then (sys, None)
      else if !RateLimitAllows(sys.loginAttempts, req.email, now) then (sys, None)
      else if !verify(req.password, u.passwordHash) then (FailedLogin(sys, found.value, req.email, now), None)
      else if !MfaPasses(u, req.totpCode) then (sys, None)
      else
        var s := NewSession(sessionId, u, req, digest, now, activity);
        (SucceededLogin(sys, found.value, req.email, s, now), Some(s))
  }

  /** `login` as written: a new session's `last_activity` is the dataclass
      default, which Python evaluates once, when the class is defined
      (`loadTime`), not when the session is created. */
  function LoginAsWritten(sys: AuthSystem, req: LoginRequest, now: int, sessionId: string,
                          verify: (string, string) -> bool, digest: string -> string, loadTime: int)
    : (r: (AuthSystem, Option<Session>))
    ensures r.1.Some? ==> r.1.value.lastActivity == loadTime
  {
    LoginWith(sys, req, now, sessionId, verify, digest, loadTime)
  }

  /** `login` as intended: a new session was last active when it was created. */
  function Login(sys: AuthSystem, req: LoginRequest, now: int, sessionId: string,
                 verify: (string, string) -> bool, digest: string -> string)
    : (r: (AuthSystem, Option<Session>))
    ensures r.1.Some? ==> r.1.value.lastActivity == now && r.1.value.createdAt == now
  {
    LoginWith(sys, req, now, sessionId, verify, digest, now)
  }

  /** The rejections that do not count as failures leave the whole state as
      it was: unknown email, active lock, exhausted rate limit, missing or
      malformed TOTP code. */
  lemma RejectionsChangeNothing(sys: AuthSystem, req: LoginRequest, now: int, sessionId: string,
                                verify: (string, string) -> bool, digest: string -> string, activity: int)
    ensures var found := FindByEmail(sys.users, req.email);
            (|| found.None?
             || IsLocked(sys.users[found.value], now)
             || !RateLimitAllows(sys.loginAttempts, req.email, now)
             || (verify(req.password, sys.users[found.value].passwordHash)
                 && !MfaPasses(sys.users[found.value], req.totpCode)))
            ==> LoginWith(sys, req, now, sessionId, verify, digest, activity) == (sys, None)
  {
  }

  /** A wrong password for an unlocked, not rate-limited account raises its
      failure count by exactly one, locks it for 15 minutes from the fifth
      failure on, and opens no session. */
  lemma WrongPasswordCounts(sys: AuthSystem, req: LoginRequest, now: int, sessionId: string,
                            verify: (string, string) -> bool, digest: string -> string, activity: int)
    requires FindByEmail(sys.users, req.email).Some?
    requires var u := sys.users[FindByEmail(sys.users, req.email).value];
             !IsLocked(u, now) && !verify(req.password, u.passwordHash)
    requires RateLimitAllows(sys.loginAttempts, req.email, now)
    ensures var i := FindByEmail(sys.users, req.email).value;
            var r := LoginWith(sys, req, now, sessionId, verify, digest, activity);
            && r.1.None? && r.0.sessions == sys.sessions
            && r.0.users[i].failedLoginAttempts == sys.users[i].failedLoginAttempts + 1
            && (sys.users[i].failedLoginAttempts + 1 >= MaxLoginAttempts ==>
                  r.0.users[i].lockedUntil == Some(now + LockoutDuration))
  {
  }

  /** A successful login resets the failure count, clears the lock, and
      marks the session MFA-verified exactly when a code was supplied; only
      the session it returns is added. */
  lemma SuccessResets(sys: AuthSystem, req: LoginRequest, now: int, sessionId: string,
                      verify: (string, string) -> bool, digest: string -> string, activity: int)
    requires LoginWith(sys, req, now, sessionId, verify, digest, activity).1.Some?
    ensures var i := FindByEmail(sys.users, req.email).value;
            var r := LoginWith(sys, req, now, sessionId, verify, digest, activity);
            && r.0.users[i].failedLoginAttempts == 0 && r.0.users[i].lockedUntil.None?
            && r.0.users[i].lastLogin == Some(now)
            && (r.1.value.mfaVerified <==> Present(req.totpCode))
            && r.1.value.userId == sys.users[i].userId
            && r.0.sessions == sys.sessions[sessionId := r.1.value]
  {
  }

  /** A user without a TOTP secret who sends any non-empty code gets a
      session marked MFA-verified: the flag records that a code was sent,
      not that one was checked. */
  lemma MfaFlagWithoutSecret(sys: AuthSystem, req: LoginRequest, now: int, sessionId: string,
                             verify: (string, string) -> bool, digest: string -> string)
    requires FindByEmail(sys.users, req.email).Some?
    requires var u := sys.users[FindByEmail(sys.users, req.email).value];
             !IsLocked(u, now) && verify(req.password, u.passwordHash) && u.totpSecret.None?
    requires RateLimitAllows(sys.loginAttempts, req.email, now)
    requires Present(req.totpCode)
    ensures Login(sys, req, now, sessionId, verify, digest).1.Some?
    ensures Login(sys, req, now, sessionId, verify, digest).1.value.mfaVerified
  {
  }

  /** Five failures lock the account: once the fifth wrong password is
      counted, even the right password is refused for the next 15 minutes. */
  lemma LockoutHolds(sys: AuthSystem, req: LoginRequest, now: int, later: int, sessionId: string,
                     verify: (string, string) -> bool, digest: string -> string, activity: int,
                     retry: LoginRequest)
    requires FindByEmail(sys.users, req.email).Some?
    requires var u := sys.users[FindByEmail(sys.users, req.email).value];
             !IsLocked(u, now) && !verify(req.password, u.passwordHash)
             && u.failedLoginAttempts + 1 >= MaxLoginAttempts
    requires RateLimitAllows(sys.loginAttempts, req.email, now)
    requires retry.email == req.email && now <= later < now + LockoutDuration
    ensures var after := LoginWith(sys, req, now, sessionId, verify, digest, activity).0;
            LoginWith(after, retry, later, sessionId, verify, digest, activity) == (after, None)
  {
    var i := FindByEmail(sys.users, req.email).value;
    var after := LoginWith(sys, req, now, sessionId, verify, digest, activity).0;
    assert after == FailedLogin(sys, i, req.email, now);
    assert FindByEmail(after.users, req.email) == Some(i) by {
      forall j | 0 <= j < i ensures after.users[j].email != req.email {
        assert after.users[j] == sys.users[j];
      }
      FindByEmailUnique(after.users, req.email, i);
    }
  }

  /** The first index with an email is the one whose email matches and
      before which none does. */
  lemma FindByEmailUnique(users: seq<User>, email: string, i: nat)
    requires i < |users| && users[i].email == email
    requires forall j :: 0 <= j < i ==> users[j].email != email
    ensures FindByEmail(users, email) == Some(i)
  {
    assert EmailRegistered(users, email);
  }

  /** Five attempts recorded within the window refuse the next login, even
      with the right password. */
  lemma RateLimitRefuses(sys: AuthSystem, req: LoginRequest, now: int, sessionId: string,
                         verify: (string, string) -> bool, digest: string -> string, activity: int)
    requires req.email in sys.loginAttempts
    requires CountRecent(sys.loginAttempts[req.email], now) >= MaxLoginAttempts
    ensures LoginWith(sys, req, now, sessionId, verify, digest, activity) == (sys, None)
  {
  }

  /** A login attempt that gets as far as the password check, successful or
      not, adds one attempt to the current window. */
  lemma AttemptsAccumulate(attempts: map<string, seq<int>>, email: string, now: int)
    ensures CountRecent(RecordAttempt(attempts, email, now)[email], now)
            == (if email in attempts then CountRecent(Newer(attempts[email], now - AttemptRetention), now) else 0) + 1
  {
    var before := if email in attempts then attempts[email] else [];
    NewerAppend(before, now, now - AttemptRetention);
    CountRecentAppend(Newer(before, now - AttemptRetention), now);
  }

  lemma {:induction false} NewerAppend(times: seq<int>, t: int, cutoff: int)
    requires t > cutoff
    ensures Newer(times + [t], cutoff) == Newer(times, cutoff) + [t]
    decreases |times|
  {
    if |times| == 0 {
      assert [t][1..] == [];
    } else {
      assert (times + [t])[1..] == times[1..] + [t];
      NewerAppend(times[1..], t, cutoff);
    }
  }

  // ---------------------------------------------------------------------
  // Sessions

  /** `verify_session`: unknown ids are rejected; an expired session is
      deleted and rejected; a live one has its activity refreshed and yields
      its user, if that user still exists. */
  function VerifySession(sys: AuthSystem, sessionId: string, now: int): (r: (AuthSystem, Option<User>))
    ensures sessionId !in sys.sessions ==> r == (sys, None)
    ensures sessionId in sys.sessions && now > sys.sessions[sessionId].expiresAt ==>
              r.1.None? && r.0 == sys.(sessions := sys.sessions - {sessionId})
    ensures sessionId in sys.sessions && now <= sys.sessions[sessionId].expiresAt ==>
              && r.1 == FindById(sys.users, sys.sessions[sessionId].userId)
              && r.0.users == sys.users && r.0.loginAttempts == sys.loginAttempts
              && sessionId in r.0.sessions && r.0.sessions[sessionId].lastActivity == now
              && r.0.sessions[sessionId].mfaVerified == sys.sessions[sessionId].mfaVerified
              && r.0.sessions.Keys == sys.sessions.Keys
              && r.0.sessions[sessionId] == sys.sessions[sessionId].(lastActivity := now)
              && (forall k :: k in sys.sessions && k != sessionId ==> r.0.sessions[k] == sys.sessions[k])
  {
    if sessionId !in sys.sessions then (sys, None)
    else
      var s := sys.sessions[sessionId];
      if now > s.expiresAt then (sys.(sessions := sys.sessions - {sessionId}), None)
      else (sys.(sessions := sys.sessions[sessionId := s.(lastActivity := now)]), FindById(sys.users, s.userId))
  }

  /** `logout`: the session is gone, everything else stays. */
  function Logout(sys: AuthSystem, sessionId: string): (r: AuthSystem)
    ensures sessionId !in r.sessions
    ensures forall k :: k != sessionId ==> (k in r.sessions <==> k in sys.sessions)
    ensures forall k :: k != sessionId && k in sys.sessions ==> r.sessions[k] == sys.sessions[k]
    ensures r.users == sys.users && r.loginAttempts == sys.loginAttempts
  {
    sys.(sessions := sys.sessions - {sessionId})
  }

  /** `require_reauthentication`: needed when there is no such session, it
      has been idle for more than 5 minutes, or MFA was not verified. */
  function RequireReauthentication(sys: AuthSystem, sessionId: string, now: int): (b: bool)
    ensures b <==> sessionId !in sys.sessions
                   || now - sys.sessions[sessionId].lastActivity > MfaTimeout
                   || !sys.sessions[sessionId].mfaVerified
  {
    if sessionId !in sys.sessions then true
    else
      var s := sys.sessions[sessionId];
      now - s.lastActivity > MfaTimeout || !s.mfaVerified
  }

  /** After logout the session neither verifies nor spares re-authentication. */
  lemma LogoutEndsSession(sys: AuthSystem, sessionId: string, now: int)
    ensures VerifySession(Logout(sys, sessionId), sessionId, now).1.None?
    ensures RequireReauthentication(Logout(sys, sessionId), sessionId, now)
  {
  }

  /** Verifying an MFA-verified, unexpired session spares re-authentication
      for the next five minutes. */
  lemma VerifiedSessionIsFresh(sys: AuthSystem, sessionId: string, now: int, later: int)
    requires sessionId in sys.sessions && sys.sessions[sessionId].mfaVerified
    requires now <= sys.sessions[sessionId].expiresAt
    requires now <= later <= now + MfaTimeout
    ensures !RequireReauthentication(VerifySession(sys, sessionId, now).0, sessionId, later)
  {
  }

  /** With the intended default, a session opened with a valid TOTP code
      needs no re-authentication at once. */
  lemma FreshMfaSessionNeedsNoReauthentication(sys: AuthSystem, req: LoginRequest, now: int, sessionId: string,
                                               verify: (string, string) -> bool, digest: string -> string)
    requires Login(sys, req, now, sessionId, verify, digest).1.Some?
    requires Present(req.totpCode)
    ensures !RequireReauthentication(Login(sys, req, now, sessionId, verify, digest).0, sessionId, now)
  {
    SuccessResets(sys, req, now, sessionId, verify, digest, now);
  }

  /** As written, the same session demands re-authentication as soon as the
      process has been up for more than five minutes: its last activity is
      the time the class was loaded. */
  lemma FreshMfaSessionNeedsReauthenticationAsWritten(sys: AuthSystem, req: LoginRequest, now: int,
                                                      sessionId: string, verify: (string, string) -> bool,
                                                      digest: string -> string, loadTime: int)
    requires LoginAsWritten(sys, req, now, sessionId, verify, digest, loadTime).1.Some?
    requires now - loadTime > MfaTimeout
    ensures RequireReauthentication(LoginAsWritten(sys, req, now, sessionId, verify, digest, loadTime).0,
                                    sessionId, now)
  {
    SuccessResets(sys, req, now, sessionId, verify, digest, loadTime);
  }

  /** A concrete run: a user with MFA logs in with the right password and
      code 123456 at second 1000 of a process started at second 0; the
      as-written session already needs re-authentication, the intended one
      does not. */
  lemma LastActivityCounterexample(verify: (string, string) -> bool, digest: string -> string)
    requires verify("pw", "h")
    ensures var u := User("u1", "a@b", "h", Some("S"), 0, None, 0, None);
            var sys := AuthSystem([u], map[], map[]);
            var req := LoginRequest("a@b", "pw", Some("123456"), "ip", "ua");
            && LoginAsWritten(sys, req, 1000, "s1", verify, digest, 0).1.Some?
            && RequireReauthentication(LoginAsWritten(sys, req, 1000, "s1", verify, digest, 0).0, "s1", 1000)
            && Login(sys, req, 1000, "s1", verify, digest).1.Some?
            && !RequireReauthentication(Login(sys, req, 1000, "s1", verify, digest).0, "s1", 1000)
  {
    var u := User("u1", "a@b", "h", Some("S"), 0, None, 0, None);
    var sys := AuthSystem([u], map[], map[]);
    var req := LoginRequest("a@b", "pw", Some("123456"), "ip", "ua");
    assert FindByEmail(sys.users, "a@b") == Some(0);
    assert VerifyTotp("123456");
    FreshMfaSessionNeedsReauthenticationAsWritten(sys, req, 1000, "s1", verify, digest, 0);
    FreshMfaSessionNeedsNoReauthentication(sys, req, 1000, "s1", verify, digest);
  }
}

=== FILE: base.dfy ===
/** Small datatypes shared by every part of the model: optional values, results
    that carry an error message, and the dynamically typed values that the
    system keeps in its string-keyed dictionaries. */
module Base {

  /** An optional value (Python's `Optional[T]`, `None` or a value). */
  datatype Option<T> = None | Some(value: T)

  /** The outcome of an operation that can be rejected with an error message. */
  datatype Result<T> = Ok(value: T) | Err(message: string)

  /** A value stored in one of the source's `Dict[str, Any]` maps
      (constraints, availability, metadata, provenance inputs and outputs).
      A Python set is kept as a set: its iteration order is not modelled. */
  datatype Value =
    | VNone
    | VBool(b: bool)
    | VInt(i: int)
    | VReal(r: real)
    | VStr(s: string)
    | VList(items: seq<Value>)
    | VStrSet(strs: set<string>)
    | VMap(entries: map<string, Value>)

  /** Python truthiness of a dictionary value (`if value:`). */
  predicate Truthy(v: Value)
  {
    match v
    case VNone => false
    case VBool(b) => b
    case VInt(i) => i != 0
    case VReal(r) => r != 0.0
    case VStr(s) => |s| > 0
    case VList(items) => |items| > 0
    case VStrSet(strs) => |strs| > 0
    case VMap(entries) => |entries| > 0
  }

  /** Python truthiness of an `Optional[str]`: present and non-empty. */
  predicate Present(s: Option<string>)
  {
    s.Some? && |s.value| > 0
  }

  /** `d.get(key)` followed by a truthiness test. */
  predicate TruthyAt(d: map<string, Value>, key: string)
  {
    key in d && Truthy(d[key])
  }

  /** `d.get(key, default)`. */
  function GetOr(d: map<string, Value>, key: string, default: Value): (v: Value)
    ensures key in d ==> v == d[key]
    ensures key !in d ==> v == default
  {
    if key in d then d[key] else default
  }

  function Min(a: int, b: int): int { if a <= b then a else b }

  function Max(a: int, b: int): int { if a <= b then b else a }

  function MinReal(a: real, b: real): real { if a <= b then a else b }

  function MaxReal(a: real, b: real): real { if a <= b then b else a }

  /** `max(lo, min(hi, x))`, the clamp the source writes out by hand. */
  function Clamp(x: real, lo: real, hi: real): (r: real)
    requires lo <= hi
    ensures lo <= r <= hi
    ensures lo <= x <= hi ==> r == x
  {
    MaxReal(lo, MinReal(hi, x))
  }

  function AbsReal(x: real): (r: real)
    ensures r >= 0.0
    ensures r == x || r == -x
  {
    if x < 0.0 then -x else x
  }

  /** The number of occurrences of `x` in `s`. */
  function Count<T(==)>(s: seq<T>, x: T): (n: nat)
    ensures n <= |s|
    ensures n > 0 <==> x in s
  {
    if |s| == 0 then 0
    else (if s[0] == x then 1 else 0) + Count(s[1..], x)
  }

  /** `n` copies of `x`. */
  function Repeat<T>(x: T, n: nat): (r: seq<T>)
    ensures |r| == n
    ensures forall i :: 0 <= i < n ==> r[i] == x
  {
    seq(n, _ => x)
  }

  /** Concatenation regroups freely; proved once here so that callers over
      large element types need not compare element by element. */
  lemma ConcatAssoc<T>(a: seq<T>, b: seq<T>, c: seq<T>)
    ensures a + b + c == a + (b + c)
  {
  }

  /** A sequence around one of its positions. */
  lemma SplitAround<T>(s: seq<T>, k: nat)
    requires k < |s|
    ensures s == s[..k] + ([s[k]] + s[k + 1..])
    ensures ([s[k]] + s[k + 1..])[0] == s[k] && ([s[k]] + s[k + 1..])[1..] == s[k + 1..]
  {
  }

  /** The set of a sequence's elements (Python's `set(list)`). */
  function Elements<T(!new)>(s: seq<T>): (r: set<T>)
    ensures forall x :: x in r <==> x in s
  {
    set x | x in s
  }

  /** True when the sequence lists the elements of the set, each exactly once:
      one possible iteration order of a Python set. */
  predicate Enumerates<T(==,!new)>(order: seq<T>, s: set<T>)
  {
    && (forall x :: x in order ==> x in s)
    && (forall x :: x in s ==> x in order)
    && (forall i, j :: 0 <= i < j < |order| ==> order[i] != order[j])
  }
}

=== FILE: matching.dfy ===
/** The lexical capability matcher (`CapabilityMatcher`): an inverted index
    from type, tag and name-token keys to the capabilities filed under them,
    candidate retrieval over that index, a four-part score with provenance,
    filter/rank/truncate, and learning from outcomes. */
module Matching {

  import opened Base
  import opened Text
  import opened Models
  import opened Scoring
  import opened Ranking

  // ---------------------------------------------------------------------
  // Names and messages the matcher writes into provenance and matches

  const KeyScore: string := "score"
  const KeyBoost: string := "boost"
  const ScoringGraph: string := "match_scoring"
  const MatchingGraph: string := "capability_match"
  const OpSimilarity: string := "semantic_similarity"
  const OpComplementarity: string := "complementarity_analysis"
  const OpFeasibility: string := "feasibility_assessment"
  const OpHistory: string := "historical_learning"
  const OpRetrieval: string := "candidate_retrieval"
  const OpRanking: string := "ranking"
  const KeyCandidatesFound: string := "candidates_found"
  const KeyTotalMatches: string := "total_matches"
  const KeyTopMatchScore: string := "top_match_score"
  const KeyScoreRange: string := "score_range"
  const KeyNeedType: string := "need_type"
  const KeyNeedTags: string := "need_tags"
  const KeyNeedName: string := "need_name"
  const KeyCapabilityName: string := "capability_name"
  const KeyBudget: string := "budget"
  const SimilarityReasoning: string := "Computed semantic similarity between need and capability"
  const ComplementarityReasoning: string := "Analyzed how well the users' capabilities complement each other"
  const FeasibilityReasoning: string := "Assessed practical feasibility (location, time, resources)"
  const HistoryReasoningHead: string := "Applied learning from "
  const HistoryReasoningTail: string := " past matches"
  const RetrievalReasoningHead: string := "Retrieved "
  const RetrievalReasoningTail: string := " candidates using type, tag, and semantic matching"
  const RankingReasoningHead: string := "Ranked "
  const CheckPastWorkHead: string := "Check "
  const CheckPastWorkTail: string := "'s past work in this domain"
  const VerifyDescription: string := "Verify the capability description aligns with the need"
  const ConsiderConstraints: string := "Consider if practical constraints are manageable"
  const RangeSeparator: string := " - "
  const RankingReasoningTail: string :=
    " matches by combined score of semantic similarity, complementarity, proficiency, and feasibility"

  // ---------------------------------------------------------------------
  // Configuration and state

  datatype Config = Config(
    minMatchScore: real,
    maxMatchesPerNeed: int,
    includeProvenance: bool,
    weightComplementarity: real,
    weightProficiency: real,
    weightFeasibility: real)

  /** `MatchingConfig()` */
  const DefaultConfig: Config := Config(0.4, 10, true, 0.4, 0.3, 0.3)

  /** A capability filed in the index together with the profile that owns it. */
  datatype Entry = Entry(profile: UserProfile, capability: Capability)
  {
    /** `(profile.user_id, cap.capability_id)`, the key retrieval deduplicates on. */
    function Key(): (string, string) { (profile.userId, capability.id) }
  }

  /** The index keys `type:<value>`, `tag:<tag>` and `token:<token>`. Their
      prefixes differ, so the three families never collide. */
  datatype IndexKey = TypeKey(kind: CapabilityType) | TagKey(tag: string) | TokenKey(token: string)

  type Index = map<IndexKey, seq<Entry>>

  /** Success patterns are keyed by `"<need type>:<capability type>"`; enum
      values contain no colon, so a pair of enum values is the same key. */
  type PatternKey = (CapabilityType, CapabilityType)

  datatype Matcher = Matcher(
    config: Config,
    index: Index,
    history: seq<Match>,
    patterns: map<PatternKey, real>)

  function NewMatcher(config: Option<Config>): (m: Matcher)
    ensures config.Some? ==> m.config == config.value
    ensures config.None? ==> m.config == DefaultConfig
    ensures m.index == map[] && m.history == [] && m.patterns == map[]
  {
    Matcher(if config.Some? then config.value else DefaultConfig, map[], [], map[])
  }

  // ---------------------------------------------------------------------
  // Indexing

  /** The name tokens worth indexing: words longer than three characters,
      in order, repeats included. */
  function LongTokens(ws: seq<string>): (r: seq<string>)
    ensures |r| <= |ws|
    ensures forall i :: 0 <= i < |r| ==> |r[i]| > 3 && r[i] in ws
    ensures forall w :: w in ws && |w| > 3 ==> w in r
  {
    if |ws| == 0 then []
    else if |ws[0]| > 3 then [ws[0]] + LongTokens(ws[1..])
    else LongTokens(ws[1..])
  }

  function NameTokens(name: string): seq<string>
  {
    LongTokens(Words(name))
  }

  /** `capability_index.get(key, [])` */
  function Postings(index: Index, k: IndexKey): seq<Entry>
  {
    if k in index then index[k] else []
  }

  /** How many times indexing `c` appends to key `k`: once under its type,
      once under each tag, and once per occurrence of each long name token. */
  function Occurrences(c: Capability, k: IndexKey): nat
  {
    match k
    case TypeKey(t) => if t == c.kind then 1 else 0
    case TagKey(t) => if t in c.tags then 1 else 0
    case TokenKey(t) => Count(NameTokens(c.name), t)
  }

  /** Every key indexing `c` appends to. */
  function KeysOf(c: Capability): set<IndexKey>
  {
    {TypeKey(c.kind)}
    + (set t | t in c.tags :: TagKey(t))
    + (set t | t in NameTokens(c.name) :: TokenKey(t))
  }

  lemma KeysOfCovers(c: Capability, k: IndexKey)
    ensures Occurrences(c, k) > 0 ==> k in KeysOf(c)
  {
    match k
    case TypeKey(t) =>
    case TagKey(t) =>
    case TokenKey(t) =>
      assert Count(NameTokens(c.name), t) > 0 ==> t in NameTokens(c.name);
  }

  /** The body of the loop in `index_user_profile` for one capability. The
      order in which a Python set yields the tags does not matter: every key
      receives the entry as often as the capability mentions it. */
  function IndexCapability(index: Index, p: UserProfile, c: Capability): (r: Index)
    ensures forall k :: Postings(r, k) == Postings(index, k) + Repeat(Entry(p, c), Occurrences(c, k))
  {
    var keys := index.Keys + KeysOf(c);
    var r := map k | k in keys :: Postings(index, k) + Repeat(Entry(p, c), Occurrences(c, k));
    assert forall k :: Postings(r, k) == Postings(index, k) + Repeat(Entry(p, c), Occurrences(c, k)) by {
      forall k ensures Postings(r, k) == Postings(index, k) + Repeat(Entry(p, c), Occurrences(c, k)) {
        if k !in keys {
          KeysOfCovers(c, k);
          assert Repeat(Entry(p, c), Occurrences(c, k)) == [];
        }
      }
    }
    r
  }

  function IndexCapabilities(index: Index, p: UserProfile, caps: seq<Capability>): Index
    decreases |caps|
  {
    if |caps| == 0 then index
    else IndexCapabilities(IndexCapability(index, p, caps[0]), p, caps[1..])
  }

  /** `index_user_profile` */
  function IndexProfile(m: Matcher, p: UserProfile): (r: Matcher)
    ensures r.config == m.config && r.history == m.history && r.patterns == m.patterns
  {
    m.(index := IndexCapabilities(m.index, p, p.capabilities))
  }

  /** What indexing the capabilities `caps` of `p` appends under key `k`. */
  function Contribution(p: UserProfile, caps: seq<Capability>, k: IndexKey): seq<Entry>
    decreases |caps|
  {
    if |caps| == 0 then []
    else Repeat(Entry(p, caps[0]), Occurrences(caps[0], k)) + Contribution(p, caps[1..], k)
  }

  /** Indexing only appends: each key's postings become the old postings
      followed by the entries for the profile's capabilities, in order. */
  lemma {:induction false} IndexCapabilitiesAppends(index: Index, p: UserProfile, caps: seq<Capability>, k: IndexKey)
    ensures Postings(IndexCapabilities(index, p, caps), k) == Postings(index, k) + Contribution(p, caps, k)
    decreases |caps|
  {
    if |caps| > 0 {
      var i1 := IndexCapability(index, p, caps[0]);
      var added := Repeat(Entry(p, caps[0]), Occurrences(caps[0], k));
      assert Postings(i1, k) == Postings(index, k) + added;
      IndexCapabilitiesAppends(i1, p, caps[1..], k);
      assert IndexCapabilities(index, p, caps) == IndexCapabilities(i1, p, caps[1..]);
      assert Contribution(p, caps, k) == added + Contribution(p, caps[1..], k);
      ConcatAssoc(Postings(index, k), added, Contribution(p, caps[1..], k));
    }
  }

  lemma {:induction false} ContributionHasType(p: UserProfile, caps: seq<Capability>, c: Capability)
    requires c in caps
    ensures Entry(p, c) in Contribution(p, caps, TypeKey(c.kind))
    decreases |caps|
  {
    if caps[0] == c {
      assert Repeat(Entry(p, c), 1)[0] == Entry(p, c);
    } else {
      ContributionHasType(p, caps[1..], c);
    }
  }

  /** Re-indexing a profile is not idempotent: it files every capability a
      second time, so the postings under its type key grow. */
  lemma ReindexingDuplicates(m: Matcher, p: UserProfile, c: Capability)
    requires c in p.capabilities
    ensures |Postings(IndexProfile(IndexProfile(m, p), p).index, TypeKey(c.kind))|
          > |Postings(IndexProfile(m, p).index, TypeKey(c.kind))|
  {
    var k := TypeKey(c.kind);
    var m1 := IndexProfile(m, p);
    IndexCapabilitiesAppends(m1.index, p, p.capabilities, k);
    ContributionHasType(p, p.capabilities, c);
  }

  // ---------------------------------------------------------------------
  // Candidate retrieval

  /** The keys looked up for a need: its type, then each tag in the order the
      tag set yields them, then each long token of its name. */
  function NeedKeys(need: Need, tagOrder: seq<string>): (ks: seq<IndexKey>)
    ensures |ks| == 1 + |tagOrder| + |NameTokens(need.name)|
    ensures ks[0] == TypeKey(need.kind)
    ensures forall i :: 0 <= i < |tagOrder| ==> ks[1 + i] == TagKey(tagOrder[i])
    ensures forall i :: 0 <= i < |NameTokens(need.name)| ==>
              ks[1 + |tagOrder| + i] == TokenKey(NameTokens(need.name)[i])
  {
    [TypeKey(need.kind)]
    + seq(|tagOrder|, i requires 0 <= i < |tagOrder| => TagKey(tagOrder[i]))
    + seq(|NameTokens(need.name)|, i requires 0 <= i < |NameTokens(need.name)| => TokenKey(NameTokens(need.name)[i]))
  }

  /** The concatenated lookups, before deduplication. */
  function Gather(index: Index, keys: seq<IndexKey>): (r: seq<Entry>)
    ensures |keys| > 0 ==> Postings(index, keys[0]) <= r
    decreases |keys|
  {
    if |keys| == 0 then [] else Postings(index, keys[0]) + Gather(index, keys[1..])
  }

  function KeySet(es: seq<Entry>): set<(string, string)>
  {
    set i | 0 <= i < |es| :: es[i].Key()
  }

  predicate DistinctKeys(es: seq<Entry>)
  {
    forall i, j :: 0 <= i < j < |es| ==> es[i].Key() != es[j].Key()
  }

  lemma KeySetCons(es: seq<Entry>)
    requires |es| > 0
    ensures KeySet(es) == {es[0].Key()} + KeySet(es[1..])
  {
    forall k | k in KeySet(es) ensures k in {es[0].Key()} + KeySet(es[1..]) {
      var i :| 0 <= i < |es| && es[i].Key() == k;
      if i > 0 {
        assert es[1..][i - 1] == es[i];
      }
    }
    forall k | k in KeySet(es[1..]) ensures k in KeySet(es) {
      var i :| 0 <= i < |es[1..]| && es[1..][i].Key() == k;
      assert es[i + 1] == es[1..][i];
    }
  }

  lemma DistinctTail(es: seq<Entry>)
    requires |es| > 0 && DistinctKeys(es)
    ensures DistinctKeys(es[1..])
    ensures es[0].Key() !in KeySet(es[1..])
  {
    forall i | 0 <= i < |es[1..]| ensures es[1..][i].Key() != es[0].Key() {
      assert es[1..][i] == es[i + 1];
    }
  }

  /** Deduplication with a `seen` set: keep an entry when its key has not
      been seen, and remember the key. */
  function DedupFrom(es: seq<Entry>, seen: set<(string, string)>): (r: seq<Entry>)
    ensures |r| <= |es|
    ensures forall i :: 0 <= i < |r| ==> r[i].Key() !in seen
    ensures DistinctKeys(r)
    ensures KeySet(r) == KeySet(es) - seen
    decreases |es|
  {
    if |es| == 0 then []
    else
      KeySetCons(es);
      if es[0].Key() in seen then DedupFrom(es[1..], seen)
      else
        var rest := DedupFrom(es[1..], seen + {es[0].Key()});
        var r := [es[0]] + rest;
        KeySetCons(r);
        assert r[1..] == rest;
        r
  }

  function Dedup(es: seq<Entry>): (r: seq<Entry>)
    ensures DistinctKeys(r)
    ensures KeySet(r) == KeySet(es)
  {
    DedupFrom(es, {})
  }

  /** Entry `i` is the first with its key. */
  predicate IsFirst(es: seq<Entry>, i: nat)
    requires i < |es|
  {
    forall j :: 0 <= j < i ==> es[j].Key() != es[i].Key()
  }

  /** Reference definition: the first occurrences from position `i` on, in order. */
  function FirstsFrom(es: seq<Entry>, i: nat): seq<Entry>
    requires i <= |es|
    decreases |es| - i
  {
    if i == |es| then []
    else (if IsFirst(es, i) then [es[i]] else []) + FirstsFrom(es, i + 1)
  }

  /** The keys of the first `i` entries. */
  function KeysBefore(es: seq<Entry>, i: nat): set<(string, string)>
    requires i <= |es|
  {
    set j | 0 <= j < i :: es[j].Key()
  }

  lemma KeysBeforeStep(es: seq<Entry>, i: nat)
    requires i < |es|
    ensures KeysBefore(es, i + 1) == KeysBefore(es, i) + {es[i].Key()}
    ensures es[i].Key() in KeysBefore(es, i) <==> !IsFirst(es, i)
  {
    assert es[i].Key() in KeysBefore(es, i + 1);
  }

  lemma {:induction false} DedupFromIsFirsts(es: seq<Entry>, i: nat)
    requires i <= |es|
    ensures DedupFrom(es[i..], KeysBefore(es, i)) == FirstsFrom(es, i)
    decreases |es| - i
  {
    if i < |es| {
      var tail := es[i..];
      assert tail[0] == es[i];
      assert tail[1..] == es[i + 1..];
      KeysBeforeStep(es, i);
      DedupFromIsFirsts(es, i + 1);
      var seen := KeysBefore(es, i);
      if IsFirst(es, i) {
        assert DedupFrom(tail, seen) == [es[i]] + DedupFrom(es[i + 1..], KeysBefore(es, i + 1));
      } else {
        assert seen == KeysBefore(es, i + 1);
        assert DedupFrom(tail, seen) == DedupFrom(es[i + 1..], KeysBefore(es, i + 1));
      }
    }
  }

  /** Deduplication keeps exactly the first occurrence of each key, in the
      order those first occurrences appear. */
  lemma DedupIsFirsts(es: seq<Entry>)
    ensures Dedup(es) == FirstsFrom(es, 0)
  {
    DedupFromIsFirsts(es, 0);
    assert es[0..] == es;
    assert KeysBefore(es, 0) == {};
  }

  /** The self-match filter. */
  function NotOwnedBy(es: seq<Entry>, userId: string): (r: seq<Entry>)
    ensures |r| <= |es|
    ensures forall i :: 0 <= i < |r| ==> r[i].profile.userId != userId
    ensures KeySet(r) == set k | k in KeySet(es) && k.0 != userId
    decreases |es|
  {
    if |es| == 0 then []
    else
      KeySetCons(es);
      var rest := NotOwnedBy(es[1..], userId);
      if es[0].profile.userId == userId then rest
      else
        var r := [es[0]] + rest;
        KeySetCons(r);
        assert r[1..] == rest;
        r
  }

  /** Filtering keeps keys distinct. */
  lemma {:induction false} NotOwnedByDistinct(es: seq<Entry>, userId: string)
    requires DistinctKeys(es)
    ensures DistinctKeys(NotOwnedBy(es, userId))
    decreases |es|
  {
    if |es| > 0 {
      DistinctTail(es);
      NotOwnedByDistinct(es[1..], userId);
      var rest := NotOwnedBy(es[1..], userId);
      if es[0].profile.userId != userId {
        var r := [es[0]] + rest;
        assert NotOwnedBy(es, userId) == r;
        forall i, j | 0 <= i < j < |r| ensures r[i].Key() != r[j].Key() {
          if i == 0 {
            assert r[j] == rest[j - 1];
            assert rest[j - 1].Key() in KeySet(rest);
          } else {
            assert r[i] == rest[i - 1] && r[j] == rest[j - 1];
          }
        }
      }
    }
  }

  /** `_retrieve_candidates` without its provenance step. `tagOrder` is the
      order in which the need's tag set is iterated. */
  function Retrieve(index: Index, need: Need, requester: UserProfile, tagOrder: seq<string>): (r: seq<Entry>)
    requires Enumerates(tagOrder, need.tags)
    ensures forall i :: 0 <= i < |r| ==> r[i].profile.userId != requester.userId
    ensures DistinctKeys(r)
    ensures KeySet(r) == set k | k in KeySet(Gather(index, NeedKeys(need, tagOrder))) && k.0 != requester.userId
  {
    NotOwnedByDistinct(Dedup(Gather(index, NeedKeys(need, tagOrder))), requester.userId);
    NotOwnedBy(Dedup(Gather(index, NeedKeys(need, tagOrder))), requester.userId)
  }

  /** Retrieval is first-occurrence deduplication of the type, tag and token
      lookups, in that order, minus the requester's own entries. */
  lemma RetrieveIsFirstOccurrences(index: Index, need: Need, requester: UserProfile, tagOrder: seq<string>)
    requires Enumerates(tagOrder, need.tags)
    ensures Retrieve(index, need, requester, tagOrder)
         == NotOwnedBy(FirstsFrom(Gather(index, NeedKeys(need, tagOrder)), 0), requester.userId)
  {
    DedupIsFirsts(Gather(index, NeedKeys(need, tagOrder)));
  }

  lemma InKeySet(es: seq<Entry>, e: Entry)
    requires e in es
    ensures e.Key() in KeySet(es)
  {
    var i :| 0 <= i < |es| && es[i] == e;
  }

  /** Once a profile is indexed, another user's need of the same type
      retrieves each of its capabilities of that type. */
  lemma IndexedCapabilityIsRetrievable(m: Matcher, p: UserProfile, c: Capability,
                                       need: Need, requester: UserProfile, tagOrder: seq<string>)
    requires c in p.capabilities
    requires c.kind == need.kind
    requires p.userId != requester.userId
    requires Enumerates(tagOrder, need.tags)
    ensures (p.userId, c.id) in KeySet(Retrieve(IndexProfile(m, p).index, need, requester, tagOrder))
  {
    var index := IndexProfile(m, p).index;
    var k := TypeKey(c.kind);
    IndexCapabilitiesAppends(m.index, p, p.capabilities, k);
    ContributionHasType(p, p.capabilities, c);
    var raw := Gather(index, NeedKeys(need, tagOrder));
    assert Postings(index, k) <= raw;
    assert Entry(p, c) in Postings(index, k);
    var j :| 0 <= j < |Postings(index, k)| && Postings(index, k)[j] == Entry(p, c);
    assert raw[j] == Entry(p, c);
    InKeySet(raw, Entry(p, c));
  }

  /** The `candidate_retrieval` provenance step. */
  function RetrievalStep(need: Need, tagOrder: seq<string>, found: nat): (s: ProvenanceStep)
    ensures s.operation == OpRetrieval && s.confidence == 0.9
    ensures s.outputs == map[KeyCandidatesFound := VInt(found)]
  {
    ProvenanceStep(
      OpRetrieval,
      map[KeyNeedType := VStr(need.kind.Value()),
          KeyNeedTags := VList(seq(|tagOrder|, i requires 0 <= i < |tagOrder| => VStr(tagOrder[i])))],
      map[KeyCandidatesFound := VInt(found)],
      RetrievalReasoningHead + NatToString(found) + RetrievalReasoningTail,
      0.9,
      [])
  }

  // ---------------------------------------------------------------------
  // Feasibility

  predicate TimezonesDiffer(a: UserProfile, b: UserProfile)
  {
    Present(a.timezone) && Present(b.timezone) && a.timezone.value != b.timezone.value
  }

  predicate BothAvailable(a: UserProfile, b: UserProfile)
  {
    |a.availability| > 0 && |b.availability| > 0
  }

  predicate HasBudget(need: Need)
  {
    TruthyAt(need.constraints, KeyBudget)
  }

  predicate IsUrgent(need: Need)
  {
    need.urgency > 0.8
  }

  function Penalty(fires: bool, factor: real): real
  {
    if fires then factor else 1.0
  }

  /** The smallest feasibility: every penalty applied. */
  const MinFeasibility: real := 0.8 * 0.9 * 0.95 * 0.9

  /** `_compute_feasibility`: a product of penalties, clamped to [0, 1]. */
  function Feasibility(needUser: UserProfile, capUser: UserProfile, need: Need): (f: real)
    ensures MinFeasibility <= f <= 1.0
    ensures f == 1.0 <==> !TimezonesDiffer(needUser, capUser) && !BothAvailable(needUser, capUser)
                          && !HasBudget(need) && !IsUrgent(need)
    ensures f == MinFeasibility <==> TimezonesDiffer(needUser, capUser) && BothAvailable(needUser, capUser)
                                     && HasBudget(need) && IsUrgent(need)
    ensures TimezonesDiffer(needUser, capUser) ==> f <= 0.8
    ensures IsUrgent(need) || BothAvailable(needUser, capUser) ==> f <= 0.9
  {
    var p := Penalty(TimezonesDiffer(needUser, capUser), 0.8)
           * Penalty(BothAvailable(needUser, capUser), 0.9)
           * Penalty(HasBudget(need), 0.95)
           * Penalty(IsUrgent(need), 0.9);
    Clamp(p, 0.0, 1.0)
  }

  // ---------------------------------------------------------------------
  // Historical learning

  /** Past matches between the same need type and capability type. */
  function Similar(history: seq<Match>, need: Need, cap: Capability): (r: seq<Match>)
    ensures |r| <= |history|
    ensures forall i :: 0 <= i < |r| ==>
              (r[i] in history && r[i].need.kind == need.kind && r[i].capability.kind == cap.kind)
    ensures forall m :: m in history && m.need.kind == need.kind && m.capability.kind == cap.kind ==> m in r
    ensures (forall i :: 0 <= i < |history| ==>
               history[i].need.kind != need.kind || history[i].capability.kind != cap.kind) ==> r == []
    decreases |history|
  {
    if |history| == 0 then []
    else
      var rest := Similar(history[1..], need, cap);
      assert forall i :: 0 <= i < |history[1..]| ==> history[1..][i] == history[i + 1];
      if history[0].need.kind == need.kind && history[0].capability.kind == cap.kind
      then [history[0]] + rest
      else rest
  }

  /** The similar matches keep history order and multiplicity: a match
      recorded later is filtered in after the earlier ones. */
  lemma {:induction false} SimilarAppend(history: seq<Match>, m: Match, need: Need, cap: Capability)
    ensures Similar(history + [m], need, cap)
            == Similar(history, need, cap)
               + (if m.need.kind == need.kind && m.capability.kind == cap.kind then [m] else [])
    decreases |history|
  {
    if |history| == 0 {
      assert [m][1..] == [];
    } else {
      assert (history + [m])[1..] == history[1..] + [m];
      SimilarAppend(history[1..], m, need, cap);
      ConcatAssoc(if history[0].need.kind == need.kind && history[0].capability.kind == cap.kind
                  then [history[0]] else [],
                  Similar(history[1..], need, cap),
                  if m.need.kind == need.kind && m.capability.kind == cap.kind then [m] else []);
    }
  }

  function SumScores(ms: seq<Match>): real
    decreases |ms|
  {
    if |ms| == 0 then 0.0 else ms[0].matchScore + SumScores(ms[1..])
  }

  lemma {:induction false} SumScoresBounds(ms: seq<Match>, lo: real, hi: real)
    requires forall i :: 0 <= i < |ms| ==> lo <= ms[i].matchScore <= hi
    ensures lo * (|ms| as real) <= SumScores(ms) <= hi * (|ms| as real)
    decreases |ms|
  {
    if |ms| > 0 {
      SumScoresBounds(ms[1..], lo, hi);
    }
  }

  /** `_apply_historical_learning`: (mean past score − 0.5)·0.2 over the
      similar past matches, 0 without any. */
  function HistoricalBoost(history: seq<Match>, need: Need, cap: Capability): (b: real)
    ensures Similar(history, need, cap) == [] ==> b == 0.0
    ensures Similar(history, need, cap) != [] ==>
              b == (SumScores(Similar(history, need, cap)) / (|Similar(history, need, cap)| as real) - 0.5) * 0.2
    ensures Similar(history, need, cap) != [] ==>
              (b > 0.0 <==> SumScores(Similar(history, need, cap)) > 0.5 * (|Similar(history, need, cap)| as real))
  {
    if |history| == 0 then 0.0
    else
      var s := Similar(history, need, cap);
      if |s| == 0 then 0.0
      else
        MeanAboveHalf(SumScores(s), |s| as real);
        (SumScores(s) / (|s| as real) - 0.5) * 0.2
  }

  lemma MeanAboveHalf(sum: real, n: real)
    requires n > 0.0
    ensures (sum / n - 0.5) * 0.2 > 0.0 <==> sum > 0.5 * n
  {
    assert (sum / n) * n == sum;
    if sum / n > 0.5 {
      assert sum > 0.5 * n;
    } else {
      assert sum <= 0.5 * n;
    }
  }

  /** The boost stays within ±0.1 when past scores lie in [0, 1]. */
  lemma HistoricalBoostBounded(history: seq<Match>, need: Need, cap: Capability)
    requires forall i :: 0 <= i < |history| ==> 0.0 <= history[i].matchScore <= 1.0
    ensures -0.1 <= HistoricalBoost(history, need, cap) <= 0.1
  {
    var s := Similar(history, need, cap);
    if |s| > 0 {
      forall i | 0 <= i < |s| ensures 0.0 <= s[i].matchScore <= 1.0 {
        var j :| 0 <= j < |history| && history[j] == s[i];
      }
      SumScoresBounds(s, 0.0, 1.0);
      MeanBoostBounded(SumScores(s), |s| as real);
    }
  }

  lemma MeanBoostBounded(sum: real, n: real)
    requires n > 0.0 && 0.0 <= sum <= n
    ensures -0.1 <= (sum / n - 0.5) * 0.2 <= 0.1
  {
    var avg := sum / n;
    assert avg * n == sum;
    assert 0.0 <= avg <= 1.0;
  }

  /** Past scores are themselves unclamped, so the ±0.1 bound is not a given:
      one similar past match scoring 1.3 boosts by 0.16. */
  lemma HistoricalBoostCanExceedTenth(past: Match, need: Need, cap: Capability)
    requires past.need.kind == need.kind && past.capability.kind == cap.kind
    requires past.matchScore == 1.3
    ensures HistoricalBoost([past], need, cap) == 0.16
  {
    assert Similar([past], need, cap) == [past];
    assert SumScores([past]) == 1.3;
  }

  // ---------------------------------------------------------------------
  // Evidence, uncertainty, confidence

  /** `_gather_evidence` */
  function GatherEvidence(need: Need, cap: Capability): (ev: seq<Evidence>)
    ensures |ev| <= 3
    ensures DescriptionsAligned in ev <==> |need.description| > 0 && |cap.description| > 0
    ensures SharedTags(need.tags * cap.tags) in ev <==> need.tags * cap.tags != {}
    ensures HighProficiency(cap.proficiency) in ev <==> cap.proficiency >= 0.7
    ensures forall i :: 0 <= i < |ev| ==>
              ev[i] == DescriptionsAligned || ev[i] == SharedTags(need.tags * cap.tags)
              || ev[i] == HighProficiency(cap.proficiency)
  {
    (if |need.description| > 0 && |cap.description| > 0 then [DescriptionsAligned] else [])
    + (if need.tags * cap.tags != {} then [SharedTags(need.tags * cap.tags)] else [])
    + (if cap.proficiency >= 0.7 then [HighProficiency(cap.proficiency)] else [])
  }

  const LimitedNeedUser: string := "Limited capability data for need user"
  const LimitedCapUser: string := "Limited capability data for capability user"
  const NoHistory: string := "No historical match data for calibration"
  const UnknownNeedTimezone: string := "Unknown timezone for need user"
  const UnknownCapTimezone: string := "Unknown timezone for capability user"

  /** `_identify_uncertainties` */
  function Uncertainties(history: seq<Match>, needUser: UserProfile, capUser: UserProfile): (u: seq<string>)
    ensures |u| <= 5
    ensures LimitedNeedUser in u <==> |needUser.capabilities| < 3
    ensures LimitedCapUser in u <==> |capUser.capabilities| < 3
    ensures NoHistory in u <==> |history| == 0
    ensures UnknownNeedTimezone in u <==> !Present(needUser.timezone)
    ensures UnknownCapTimezone in u <==> !Present(capUser.timezone)
  {
    (if |needUser.capabilities| < 3 then [LimitedNeedUser] else [])
    + (if |capUser.capabilities| < 3 then [LimitedCapUser] else [])
    + (if |history| == 0 then [NoHistory] else [])
    + (if !Present(needUser.timezone) then [UnknownNeedTimezone] else [])
    + (if !Present(capUser.timezone) then [UnknownCapTimezone] else [])
  }

  /** `_compute_confidence`: the mean of the score, an evidence factor, a
      fixed profile factor and a history factor. */
  function MatchConfidence(score: real, evidence: seq<Evidence>, history: seq<Match>): (c: real)
    ensures 0.0 <= score <= 1.0 ==> 0.45 <= c <= 0.875
    ensures |evidence| > 0 && |history| > 0 && score == 1.0 ==> c == 0.875
    ensures |evidence| == 0 && |history| == 0 && score == 0.0 ==> c == 0.45
  {
    var evidenceFactor := if |evidence| > 0 then 0.9 else 0.5;
    var historyFactor := if |history| > 0 then 0.8 else 0.5;
    (score + evidenceFactor + 0.8 + historyFactor) / 4.0
  }

  // ---------------------------------------------------------------------
  // Scoring one candidate

  /** The four sub-scores of one candidate. */
  datatype Parts = Parts(similarity: real, complementarity: real, feasibility: real, boost: real)

  function PartsOf(history: seq<Match>, need: Need, needUser: UserProfile, cap: Capability, capUser: UserProfile): Parts
  {
    Parts(KeywordSimilarity(need, cap), Complementarity(needUser, capUser),
          Feasibility(needUser, capUser, need), HistoricalBoost(history, need, cap))
  }

  /** The four steps `_score_match` records, in order. */
  function ScoringSteps(history: seq<Match>, need: Need, cap: Capability, parts: Parts): (steps: seq<ProvenanceStep>)
    ensures |steps| == 4
    ensures steps[0].operation == OpSimilarity && steps[0].outputs == map[KeyScore := VReal(parts.similarity)]
    ensures steps[1].operation == OpComplementarity && steps[1].outputs == map[KeyScore := VReal(parts.complementarity)]
    ensures steps[2].operation == OpFeasibility && steps[2].outputs == map[KeyScore := VReal(parts.feasibility)]
    ensures steps[3].operation == OpHistory && steps[3].outputs == map[KeyBoost := VReal(parts.boost)]
    ensures steps[3].confidence == (if |history| > 0 then 0.6 else 0.3)
  {
    [ ProvenanceStep(OpSimilarity,
                     map[KeyNeedName := VStr(need.name), KeyCapabilityName := VStr(cap.name)],
                     map[KeyScore := VReal(parts.similarity)],
                     SimilarityReasoning, 0.8, []),
      Step(OpComplementarity, map[KeyScore := VReal(parts.complementarity)],
           ComplementarityReasoning, 0.7),
      Step(OpFeasibility, map[KeyScore := VReal(parts.feasibility)],
           FeasibilityReasoning, 0.75),
      Step(OpHistory, map[KeyBoost := VReal(parts.boost)],
           HistoryReasoningHead + NatToString(|history|) + HistoryReasoningTail,
           if |history| > 0 then 0.6 else 0.3) ]
  }

  /** The weighted sum; nothing clamps it. */
  function CombinedScore(config: Config, parts: Parts, proficiency: real): real
  {
    parts.similarity * 0.3
    + parts.complementarity * config.weightComplementarity
    + proficiency * config.weightProficiency
    + parts.feasibility * config.weightFeasibility
    + parts.boost * 0.1
  }

  function VerificationMethods(capUser: UserProfile): seq<string>
  {
    [ CheckPastWorkHead + capUser.userId + CheckPastWorkTail,
      VerifyDescription,
      ConsiderConstraints ]
  }

  /** Fill in a fresh match from its sub-scores, in the order `_score_match`
      does: score, then confidence (while the evidence list is still empty),
      then evidence, verification methods and uncertainties. */
  function Assemble(config: Config, history: seq<Match>, need: Need, needUser: UserProfile,
                    cap: Capability, capUser: UserProfile, id: string, parts: Parts): (r: Match)
    ensures r.id == id && r.need == need && r.capability == cap
    ensures r.needUserId == needUser.userId && r.capabilityUserId == capUser.userId
    ensures r.provenance == ProvenanceGraph(ScoringGraph, ScoringSteps(history, need, cap, parts))
    ensures r.matchScore == CombinedScore(config, parts, cap.proficiency)
    ensures r.complementarityScore == parts.complementarity && r.feasibilityScore == parts.feasibility
    ensures r.confidence == MatchConfidence(r.matchScore, [], history)
    ensures r.evidence == GatherEvidence(need, cap)
    ensures r.uncertaintyFactors == Uncertainties(history, needUser, capUser)
    ensures r.verificationMethods == VerificationMethods(capUser)
    ensures r.similarPastMatches == []
  {
    var steps := ScoringSteps(history, need, cap, parts);
    AddStepsAppends(NewGraph(ScoringGraph), steps);
    var graph := AddSteps(NewGraph(ScoringGraph), steps);
    var score := CombinedScore(config, parts, cap.proficiency);
    var initial := NewMatch(id, need, needUser.userId, cap, capUser.userId, graph);
    var scored := initial.(matchScore := score,
                         complementarityScore := parts.complementarity,
                         feasibilityScore := parts.feasibility);
    scored.(confidence := MatchConfidence(score, scored.evidence, history),
            evidence := GatherEvidence(need, cap),
            verificationMethods := VerificationMethods(capUser),
            uncertaintyFactors := Uncertainties(history, needUser, capUser))
  }

  /** `_score_match`. `id` stands for the match's generated UUID. Scoring
      reads the configuration and the match history only; the success
      patterns are not an argument. */
  function ScoreMatch(config: Config, history: seq<Match>, need: Need, needUser: UserProfile,
                      cap: Capability, capUser: UserProfile, id: string): (r: Match)
    ensures r.id == id && r.need == need && r.capability == cap
    ensures r.needUserId == needUser.userId && r.capabilityUserId == capUser.userId
    ensures r.provenance.decisionType == ScoringGraph
    ensures |r.provenance.steps| == 4
    ensures r.provenance.steps[0].operation == OpSimilarity
    ensures r.provenance.steps[1].operation == OpComplementarity
    ensures r.provenance.steps[2].operation == OpFeasibility
    ensures r.provenance.steps[3].operation == OpHistory
  {
    Assemble(config, history, need, needUser, cap, capUser, id, PartsOf(history, need, needUser, cap, capUser))
  }

  /** What a scored match records: each sub-score both in its field and in
      the output of its provenance step, the evidence, the uncertainties, the
      verification methods, and a confidence computed from the score as if
      there were no evidence. */
  lemma ScoreMatchRecords(config: Config, history: seq<Match>, need: Need, needUser: UserProfile,
                          cap: Capability, capUser: UserProfile, id: string)
    ensures var r := ScoreMatch(config, history, need, needUser, cap, capUser, id);
            && r.provenance.steps[0].outputs == map[KeyScore := VReal(KeywordSimilarity(need, cap))]
            && r.provenance.steps[1].outputs == map[KeyScore := VReal(r.complementarityScore)]
            && r.provenance.steps[2].outputs == map[KeyScore := VReal(r.feasibilityScore)]
            && r.provenance.steps[3].outputs == map[KeyBoost := VReal(HistoricalBoost(history, need, cap))]
            && r.complementarityScore == Complementarity(needUser, capUser)
            && r.feasibilityScore == Feasibility(needUser, capUser, need)
            && r.evidence == GatherEvidence(need, cap)
            && r.uncertaintyFactors == Uncertainties(history, needUser, capUser)
            && r.verificationMethods == VerificationMethods(capUser)
            && r.similarPastMatches == []
            && r.confidence == MatchConfidence(r.matchScore, [], history)
  {
  }

  /** The score is the weighted sum of the sub-scores plus a tenth of the
      historical boost; nothing clamps it. */
  lemma ScoreMatchWeighs(config: Config, history: seq<Match>, need: Need, needUser: UserProfile,
                         cap: Capability, capUser: UserProfile, id: string)
    ensures var r := ScoreMatch(config, history, need, needUser, cap, capUser, id);
            r.matchScore == CombinedScore(config, Parts(KeywordSimilarity(need, cap), Complementarity(needUser, capUser),
                                                         Feasibility(needUser, capUser, need),
                                                         HistoricalBoost(history, need, cap)),
                                          cap.proficiency)
  {
  }

  /** With the default weights the score is not clamped to [0, 1]: for
      in-range proficiency and history it lies in [0.17468, 1.31]. */
  lemma ScoreMatchRange(history: seq<Match>, need: Need, needUser: UserProfile,
                        cap: Capability, capUser: UserProfile, id: string)
    requires 0.0 <= cap.proficiency <= 1.0
    requires forall i :: 0 <= i < |history| ==> 0.0 <= history[i].matchScore <= 1.0
    ensures 0.17468 <= ScoreMatch(DefaultConfig, history, need, needUser, cap, capUser, id).matchScore <= 1.31
  {
    HistoricalBoostBounded(history, need, cap);
    var parts := PartsOf(history, need, needUser, cap, capUser);
    assert CombinedScore(DefaultConfig, parts, cap.proficiency)
        == parts.similarity * 0.3 + parts.complementarity * 0.4 + cap.proficiency * 0.3
           + parts.feasibility * 0.3 + parts.boost * 0.1;
  }

  /** A perfect candidate scores above 1: identical terms, 20 % overlap of the
      two users' capabilities, no feasibility penalty, full proficiency and a
      similar past match that scored 1. */
  lemma ScoreCanExceedOne(history: seq<Match>, need: Need, needUser: UserProfile,
                          cap: Capability, capUser: UserProfile, id: string)
    requires KeywordSimilarity(need, cap) == 1.0
    requires Complementarity(needUser, capUser) == 1.0
    requires Feasibility(needUser, capUser, need) == 1.0
    requires cap.proficiency == 1.0
    requires |history| == 1 && history[0].matchScore == 1.0
    requires history[0].need.kind == need.kind && history[0].capability.kind == cap.kind
    ensures ScoreMatch(DefaultConfig, history, need, needUser, cap, capUser, id).matchScore == 1.31
  {
    assert history == [history[0]];
    assert Similar(history, need, cap) == [history[0]];
    assert SumScores([history[0]]) == 1.0;
    assert HistoricalBoost(history, need, cap) == 0.1;
  }

  /** Confidence ignores the evidence that is attached afterwards: it is
      `(score + 0.5 + 0.8 + h) / 4` with h = 0.8 exactly when there is
      history, even when the match ends up with evidence. */
  lemma ConfidenceIgnoresEvidence(config: Config, history: seq<Match>, need: Need, needUser: UserProfile,
                                  cap: Capability, capUser: UserProfile, id: string)
    ensures var r := ScoreMatch(config, history, need, needUser, cap, capUser, id);
            r.confidence == (r.matchScore + 0.5 + 0.8 + (if |history| > 0 then 0.8 else 0.5)) / 4.0
  {
  }

  // ---------------------------------------------------------------------
  // find_matches

  function Scores(ms: seq<Match>): (s: seq<real>)
    ensures |s| == |ms|
    ensures forall i :: 0 <= i < |ms| ==> s[i] == ms[i].matchScore
  {
    seq(|ms|, i requires 0 <= i < |ms| => ms[i].matchScore)
  }

  /** Score every candidate; `ids` supplies the generated match ids. */
  function ScoreAll(config: Config, history: seq<Match>, need: Need, needUser: UserProfile,
                    cands: seq<Entry>, ids: nat -> string): (r: seq<Match>)
    ensures |r| == |cands|
    ensures forall i :: 0 <= i < |r| ==>
              r[i] == ScoreMatch(config, history, need, needUser, cands[i].capability, cands[i].profile, ids(i))
  {
    seq(|cands|, i requires 0 <= i < |cands| =>
          ScoreMatch(config, history, need, needUser, cands[i].capability, cands[i].profile, ids(i)))
  }

  /** Steps 2 and 3 of `find_matches` on already scored matches. */
  function RankMatches(scored: seq<Match>, min: real, limit: int): (r: seq<Ranked<Match>>)
    ensures limit >= 0 ==> |r| <= limit
  {
    FilterRankTruncate(Enumerate(scored, Scores(scored)), min, limit)
  }

  /** The ranked matches are the best `limit` scored matches that reach the
      minimum, best first, equal scores in candidate order, each at most once. */
  lemma RankMatchesIsTop(scored: seq<Match>, min: real, limit: int)
    ensures var r := RankMatches(scored, min, limit);
            && SortedDesc(r)
            && (forall i :: 0 <= i < |r| ==>
                  r[i].pos < |scored| && r[i].item == scored[r[i].pos]
                  && r[i].score == r[i].item.matchScore && r[i].score >= min)
            && (forall i, j :: 0 <= i < j < |r| ==> r[i].pos != r[j].pos)
            && (forall k, i :: 0 <= k < |scored| && scored[k].matchScore >= min
                  && (forall i' :: 0 <= i' < |r| ==> r[i'].pos != k) && 0 <= i < |r|
                  ==> Precedes(r[i], Ranked(scored[k], scored[k].matchScore, k)))
  {
    var items := Enumerate(scored, Scores(scored));
    FilterRankTruncateIsTop(items, min, limit);
    var r := RankMatches(scored, min, limit);
    forall i | 0 <= i < |r| ensures r[i].pos < |scored| && r[i] == items[r[i].pos] {
      assert r[i] in items;
    }
    forall k, i | 0 <= k < |scored| && scored[k].matchScore >= min
                  && (forall i' :: 0 <= i' < |r| ==> r[i'].pos != k) && 0 <= i < |r|
      ensures Precedes(r[i], Ranked(scored[k], scored[k].matchScore, k))
    {
      assert items[k] == Ranked(scored[k], scored[k].matchScore, k);
      assert items[k] in items;
      assert items[k] !in r;
    }
  }

  /** Scoring keeps each candidate's owner and capability. */
  lemma ScoreAllKeepsCandidates(config: Config, history: seq<Match>, need: Need, needUser: UserProfile,
                                cands: seq<Entry>, ids: nat -> string)
    ensures var scored := ScoreAll(config, history, need, needUser, cands, ids);
            forall i :: 0 <= i < |scored| ==>
              && scored[i].needUserId == needUser.userId
              && scored[i].capabilityUserId == cands[i].profile.userId
              && scored[i].capability.id == cands[i].capability.id
  {
    var scored := ScoreAll(config, history, need, needUser, cands, ids);
    forall i | 0 <= i < |scored|
      ensures && scored[i].needUserId == needUser.userId
              && scored[i].capabilityUserId == cands[i].profile.userId
              && scored[i].capability.id == cands[i].capability.id
    {
      var r := ScoreMatch(config, history, need, needUser, cands[i].capability, cands[i].profile, ids(i));
      assert scored[i] == r;
    }
  }

  /** Steps 2 and 3 of `find_matches` on the scored candidates. */
  function TopMatches(scored: seq<Match>, min: real, limit: int): (top: seq<Match>)
    ensures limit >= 0 ==> |top| <= limit
  {
    Items(RankMatches(scored, min, limit))
  }

  /** The returned matches reach the minimum and come best first. */
  lemma TopMatchesRanked(scored: seq<Match>, min: real, limit: int)
    ensures var top := TopMatches(scored, min, limit);
            && (forall i :: 0 <= i < |top| ==> top[i].matchScore >= min)
            && (forall i, j :: 0 <= i < j < |top| ==> top[i].matchScore >= top[j].matchScore)
  {
    var r := RankMatches(scored, min, limit);
    RankMatchesIsTop(scored, min, limit);
    var top := Items(r);
    forall i, j | 0 <= i < j < |top| ensures top[i].matchScore >= top[j].matchScore {
      assert Precedes(r[i], r[j]);
    }
  }

  /** Nothing that qualifies is dropped while there is room: under a limit
      exactly min(limit, qualifying) matches come back, and a qualifying
      match left out scores no higher than any returned one. */
  lemma TopMatchesComplete(scored: seq<Match>, min: real, limit: int)
    ensures limit >= 0 ==>
              |TopMatches(scored, min, limit)| == Min(limit, |AtLeast(Enumerate(scored, Scores(scored)), min)|)
    ensures forall k, i :: 0 <= k < |scored| && scored[k].matchScore >= min && scored[k] !in TopMatches(scored, min, limit)
              && 0 <= i < |TopMatches(scored, min, limit)|
              ==> TopMatches(scored, min, limit)[i].matchScore >= scored[k].matchScore
  {
    var r := RankMatches(scored, min, limit);
    RankMatchesIsTop(scored, min, limit);
    var top := Items(r);
    forall k, i | 0 <= k < |scored| && scored[k].matchScore >= min && scored[k] !in top && 0 <= i < |top|
      ensures top[i].matchScore >= scored[k].matchScore
    {
      forall i' | 0 <= i' < |r| ensures r[i'].pos != k {
        assert top[i'] == r[i'].item;
      }
      assert Precedes(r[i], Ranked(scored[k], scored[k].matchScore, k));
    }
  }

  /** Each returned match is one of the scored ones, so it inherits what
      retrieval guaranteed about its candidate: another user's capability,
      and no (user, capability) pair twice. */
  lemma TopMatchesFromCandidates(scored: seq<Match>, cands: seq<Entry>, requesterId: string, min: real, limit: int)
    requires |scored| == |cands|
    requires DistinctKeys(cands)
    requires forall i :: 0 <= i < |cands| ==> cands[i].profile.userId != requesterId
    requires forall i :: 0 <= i < |scored| ==>
               && scored[i].needUserId == requesterId
               && scored[i].capabilityUserId == cands[i].profile.userId
               && scored[i].capability.id == cands[i].capability.id
    ensures var top := TopMatches(scored, min, limit);
            && (forall i :: 0 <= i < |top| ==>
                  top[i].needUserId == requesterId && top[i].capabilityUserId != requesterId)
            && (forall i, j :: 0 <= i < j < |top| ==>
                  (top[i].capabilityUserId, top[i].capability.id) != (top[j].capabilityUserId, top[j].capability.id))
  {
    var r := RankMatches(scored, min, limit);
    RankMatchesIsTop(scored, min, limit);
    var top := Items(r);
    forall i, j | 0 <= i < j < |top|
      ensures (top[i].capabilityUserId, top[i].capability.id) != (top[j].capabilityUserId, top[j].capability.id)
    {
      var a := r[i].pos;
      var b := r[j].pos;
      assert top[i] == scored[a] && top[j] == scored[b];
      if a < b {
        assert cands[a].Key() != cands[b].Key();
      } else {
        assert cands[b].Key() != cands[a].Key();
      }
    }
  }

  /** The `ranking` provenance step; `fmt` renders a score with two decimals. */
  function RankingStep(top: seq<Match>, fmt: real -> string): (s: ProvenanceStep)
    requires |top| > 0
    ensures s.operation == OpRanking && s.confidence == 0.85
    ensures s.inputs == map[KeyTotalMatches := VInt(|top|)]
  {
    ProvenanceStep(
      OpRanking,
      map[KeyTotalMatches := VInt(|top|)],
      map[KeyTopMatchScore := VReal(top[0].matchScore),
          KeyScoreRange := VStr(fmt(top[|top| - 1].matchScore) + RangeSeparator + fmt(top[0].matchScore))],
      RankingReasoningHead + NatToString(|top|) + RankingReasoningTail,
      0.85,
      [])
  }

  /** The matches `find_matches` returns for the retrieved candidates. */
  function FindTop(m: Matcher, cands: seq<Entry>, need: Need, needUser: UserProfile,
                   maxResults: Option<int>, ids: nat -> string): seq<Match>
  {
    TopMatches(ScoreAll(m.config, m.history, need, needUser, cands, ids), m.config.minMatchScore,
               EffectiveLimit(maxResults, m.config.maxMatchesPerNeed))
  }

  /** `find_matches` returns qualifying matches, best first, at most the
      effective limit of them, never the requester's own capabilities and
      never the same capability twice. */
  lemma FindTopSound(m: Matcher, cands: seq<Entry>, need: Need, needUser: UserProfile,
                     maxResults: Option<int>, ids: nat -> string)
    requires DistinctKeys(cands)
    requires forall i :: 0 <= i < |cands| ==> cands[i].profile.userId != needUser.userId
    ensures var top := FindTop(m, cands, need, needUser, maxResults, ids);
            && (forall i :: 0 <= i < |top| ==> top[i].matchScore >= m.config.minMatchScore)
            && (forall i, j :: 0 <= i < j < |top| ==> top[i].matchScore >= top[j].matchScore)
            && (EffectiveLimit(maxResults, m.config.maxMatchesPerNeed) >= 0 ==>
                  |top| <= EffectiveLimit(maxResults, m.config.maxMatchesPerNeed))
            && (forall i :: 0 <= i < |top| ==>
                  top[i].needUserId == needUser.userId && top[i].capabilityUserId != needUser.userId)
            && (forall i, j :: 0 <= i < j < |top| ==>
                  (top[i].capabilityUserId, top[i].capability.id) != (top[j].capabilityUserId, top[j].capability.id))
  {
    var scored := ScoreAll(m.config, m.history, need, needUser, cands, ids);
    var limit := EffectiveLimit(maxResults, m.config.maxMatchesPerNeed);
    TopMatchesRanked(scored, m.config.minMatchScore, limit);
    ScoreAllKeepsCandidates(m.config, m.history, need, needUser, cands, ids);
    TopMatchesFromCandidates(scored, cands, needUser.userId, m.config.minMatchScore, limit);
  }

  /** `find_matches`, returning the matches and the `capability_match`
      provenance graph the source builds alongside them: the retrieval step,
      then a ranking step exactly when some match is returned. */
  function FindMatches(m: Matcher, need: Need, needUser: UserProfile, maxResults: Option<int>,
                       tagOrder: seq<string>, ids: nat -> string, fmt: real -> string)
    : (r: (seq<Match>, ProvenanceGraph))
    requires Enumerates(tagOrder, need.tags)
    ensures r.0 == FindTop(m, Retrieve(m.index, need, needUser, tagOrder), need, needUser, maxResults, ids)
    ensures r.1.decisionType == MatchingGraph
    ensures |r.1.steps| == (if |r.0| > 0 then 2 else 1)
    ensures r.1.steps[0].operation == OpRetrieval
    ensures r.1.steps[0].outputs == map[KeyCandidatesFound := VInt(|Retrieve(m.index, need, needUser, tagOrder)|)]
    ensures |r.0| > 0 ==> r.1.steps[1].operation == OpRanking
  {
    var cands := Retrieve(m.index, need, needUser, tagOrder);
    var top := FindTop(m, cands, need, needUser, maxResults, ids);
    var g := NewGraph(MatchingGraph).AddStep(RetrievalStep(need, tagOrder, |cands|));
    (top, if |top| > 0 then g.AddStep(RankingStep(top, fmt)) else g)
  }

  /** What `find_matches` promises about the matches it returns. */
  lemma FindMatchesSound(m: Matcher, need: Need, needUser: UserProfile, maxResults: Option<int>,
                         tagOrder: seq<string>, ids: nat -> string, fmt: real -> string)
    requires Enumerates(tagOrder, need.tags)
    ensures var top := FindMatches(m, need, needUser, maxResults, tagOrder, ids, fmt).0;
            && (forall i :: 0 <= i < |top| ==> top[i].matchScore >= m.config.minMatchScore)
            && (forall i, j :: 0 <= i < j < |top| ==> top[i].matchScore >= top[j].matchScore)
            && (EffectiveLimit(maxResults, m.config.maxMatchesPerNeed) >= 0 ==>
                  |top| <= EffectiveLimit(maxResults, m.config.maxMatchesPerNeed))
            && (forall i :: 0 <= i < |top| ==>
                  top[i].needUserId == needUser.userId && top[i].capabilityUserId != needUser.userId)
            && (forall i, j :: 0 <= i < j < |top| ==>
                  (top[i].capabilityUserId, top[i].capability.id) != (top[j].capabilityUserId, top[j].capability.id))
  {
    FindTopSound(m, Retrieve(m.index, need, needUser, tagOrder), need, needUser, maxResults, ids);
  }

  // ---------------------------------------------------------------------
  // Learning from outcomes

  function PatternOf(outcome: Match): PatternKey
  {
    (outcome.need.kind, outcome.capability.kind)
  }

  /** `learn_from_outcome`: record the outcome, then seed or update the
      success pattern of its type pair with an exponential moving average
      (weight 0.3 on the new observation, which is 0 for a failure). */
  function LearnFromOutcome(m: Matcher, outcome: Match, success: bool): (r: Matcher)
    ensures r.history == m.history + [outcome]
    ensures r.config == m.config && r.index == m.index
    ensures r.patterns.Keys == m.patterns.Keys + {PatternOf(outcome)}
    ensures forall k :: k in m.patterns && k != PatternOf(outcome) ==> r.patterns[k] == m.patterns[k]
    ensures PatternOf(outcome) !in m.patterns ==>
              r.patterns[PatternOf(outcome)] == (if success then outcome.matchScore else 0.0)
  {
    var key := PatternOf(outcome);
    var observed := if success then outcome.matchScore else 0.0;
    var updated := if key !in m.patterns then observed else 0.3 * observed + 0.7 * m.patterns[key];
    m.(history := m.history + [outcome], patterns := m.patterns[key := updated])
  }

  /** A repeated observation moves the pattern 30 % of the way towards it:
      the new value lies between the old value and the observation. */
  lemma LearningMovesTowardObservation(m: Matcher, outcome: Match, success: bool)
    requires PatternOf(outcome) in m.patterns
    ensures var old_ := m.patterns[PatternOf(outcome)];
            var obs := if success then outcome.matchScore else 0.0;
            var new_ := LearnFromOutcome(m, outcome, success).patterns[PatternOf(outcome)];
            new_ - old_ == 0.3 * (obs - old_)
            && MinReal(old_, obs) <= new_ <= MaxReal(old_, obs)
  {
  }

  predicate PatternsInUnit(m: Matcher)
  {
    forall k :: k in m.patterns ==> 0.0 <= m.patterns[k] <= 1.0
  }

  /** Patterns stay in [0, 1] as long as the observed scores do. */
  lemma LearningKeepsPatternsInUnit(m: Matcher, outcome: Match, success: bool)
    requires PatternsInUnit(m)
    requires 0.0 <= outcome.matchScore <= 1.0
    ensures PatternsInUnit(LearnFromOutcome(m, outcome, success))
  {
  }

  /** A failure is remembered as history too, so it feeds the next boost. */
  lemma FailureStillCountsAsHistory(m: Matcher, outcome: Match)
    ensures |LearnFromOutcome(m, outcome, false).history| == |m.history| + 1
    ensures LearnFromOutcome(m, outcome, false).history[|m.history|] == outcome
  {
  }
}

=== FILE: models.dfy ===
/** The shared data model: the enumerations with their lowercase wire
    values, capabilities, needs, profiles, provenance graphs and matches, and
    the privacy-respecting projections that turn them into plain maps. */
module Models {

  import opened Base
  import opened Text

  // ---------------------------------------------------------------------
  // Enumerations and their string values

  predicate IsLowercase(s: string)
  {
    |s| > 0 && forall i :: 0 <= i < |s| ==> IsLowerLetter(s[i])
  }

  datatype PrivacyLevel = Public | Network | Private | Confidential
  {
    function Value(): string
    {
      match this
      case Public => "public"
      case Network => "network"
      case Private => "private"
      case Confidential => "confidential"
    }

    /** `PrivacyLevel(s)`: construction by value, rejecting unknown strings. */
    static function FromValue(s: string): (r: Option<PrivacyLevel>)
      ensures forall p: PrivacyLevel :: r == Some(p) <==> p.Value() == s
    {
      if s == "public" then Some(Public)
      else if s == "network" then Some(Network)
      else if s == "private" then Some(Private)
      else if s == "confidential" then Some(Confidential)
      else None
    }

    /** Only PUBLIC and NETWORK data may leave the device in shared form. */
    predicate Shareable()
    {
      this == Public || this == Network
    }
  }

  datatype CapabilityType = Skill | Resource | Knowledge | NetworkAccess | Time | Funding
  {
    function Value(): string
    {
      match this
      case Skill => "skill"
      case Resource => "resource"
      case Knowledge => "knowledge"
      case NetworkAccess => "network"
      case Time => "time"
      case Funding => "funding"
    }

    static function FromValue(s: string): (r: Option<CapabilityType>)
      ensures forall t: CapabilityType :: r == Some(t) <==> t.Value() == s
    {
      if s == "skill" then Some(Skill)
      else if s == "resource" then Some(Resource)
      else if s == "knowledge" then Some(Knowledge)
      else if s == "network" then Some(NetworkAccess)
      else if s == "time" then Some(Time)
      else if s == "funding" then Some(Funding)
      else None
    }
  }

  datatype ProblemDomain =
    | Robotics | Research | Software | Hardware | Biology
    | Climate | Health | Education | Manufacturing | Other
  {
    function Value(): string
    {
      match this
      case Robotics => "robotics"
      case Research => "research"
      case Software => "software"
      case Hardware => "hardware"
      case Biology => "biology"
      case Climate => "climate"
      case Health => "health"
      case Education => "education"
      case Manufacturing => "manufacturing"
      case Other => "other"
    }

    static function FromValue(s: string): (r: Option<ProblemDomain>)
      ensures forall d: ProblemDomain :: r == Some(d) <==> d.Value() == s
    {
      if s == "robotics" then Some(Robotics)
      else if s == "research" then Some(Research)
      else if s == "software" then Some(Software)
      else if s == "hardware" then Some(Hardware)
      else if s == "biology" then Some(Biology)
      else if s == "climate" then Some(Climate)
      else if s == "health" then Some(Health)
      else if s == "education" then Some(Education)
      else if s == "manufacturing" then Some(Manufacturing)
      else if s == "other" then Some(Other)
      else None
    }
  }

  /** Every enumeration value is a non-empty lowercase word, and distinct
      variants of one enumeration have distinct values. */
  lemma EnumValuesLowercaseAndDistinct()
    ensures forall p: PrivacyLevel :: IsLowercase(p.Value())
    ensures forall t: CapabilityType :: IsLowercase(t.Value())
    ensures forall d: ProblemDomain :: IsLowercase(d.Value())
    ensures forall p: PrivacyLevel, q: PrivacyLevel :: p.Value() == q.Value() ==> p == q
    ensures forall t: CapabilityType, u: CapabilityType :: t.Value() == u.Value() ==> t == u
    ensures forall d: ProblemDomain, e: ProblemDomain :: d.Value() == e.Value() ==> d == e
  {
    forall p: PrivacyLevel, q: PrivacyLevel | p.Value() == q.Value()
      ensures p == q
    {
      assert PrivacyLevel.FromValue(p.Value()) == Some(p);
    }
    forall t: CapabilityType, u: CapabilityType | t.Value() == u.Value()
      ensures t == u
    {
      assert CapabilityType.FromValue(t.Value()) == Some(t);
    }
    forall d: ProblemDomain, e: ProblemDomain | d.Value() == e.Value()
      ensures d == e
    {
      assert ProblemDomain.FromValue(d.Value()) == Some(d);
    }
  }

  // ---------------------------------------------------------------------
  // Entities

  datatype Capability = Capability(
    id: string,
    kind: CapabilityType,
    name: string,
    description: string,
    proficiency: real,
    confidence: real,
    evidence: seq<string>,
    privacy: PrivacyLevel,
    tags: set<string>,
    metadata: map<string, Value>)

  datatype Need = Need(
    id: string,
    kind: CapabilityType,
    name: string,
    description: string,
    urgency: real,
    importance: real,
    domain: ProblemDomain,
    context: string,
    constraints: map<string, Value>,
    tags: set<string>)

  /** A user profile; creation and update timestamps are not modelled. */
  datatype UserProfile = UserProfile(
    userId: string,
    capabilities: seq<Capability>,
    needs: seq<Need>,
    domains: set<ProblemDomain>,
    locationRegion: Option<string>,
    timezone: Option<string>,
    availability: map<string, Value>,
    preferences: map<string, Value>)

  /** One reasoning step; its generated id and timestamp are not modelled. */
  datatype ProvenanceStep = ProvenanceStep(
    operation: string,
    inputs: map<string, Value>,
    outputs: map<string, Value>,
    reasoning: string,
    confidence: real,
    alternatives: seq<map<string, Value>>)

  /** A step with no inputs and no alternatives, the way most steps are built. */
  function Step(operation: string, outputs: map<string, Value>, reasoning: string, confidence: real): ProvenanceStep
  {
    ProvenanceStep(operation, map[], outputs, reasoning, confidence, [])
  }

  /** The ordered record of reasoning steps behind one decision. */
  datatype ProvenanceGraph = ProvenanceGraph(decisionType: string, steps: seq<ProvenanceStep>)
  {
    /** `add_step`: the only way a graph grows. */
    function AddStep(step: ProvenanceStep): (g: ProvenanceGraph)
      ensures g.decisionType == decisionType
      ensures |g.steps| == |steps| + 1
      ensures g.steps[|steps|] == step
      ensures forall i :: 0 <= i < |steps| ==> g.steps[i] == steps[i]
    {
      this.(steps := steps + [step])
    }
  }

  /** `TransparencyEngine.create_provenance_graph`: an empty graph. */
  function NewGraph(decisionType: string): ProvenanceGraph
  {
    ProvenanceGraph(decisionType, [])
  }

  /** Adding steps one after another never disturbs the steps already recorded. */
  function AddSteps(g: ProvenanceGraph, steps: seq<ProvenanceStep>): ProvenanceGraph
    decreases |steps|
  {
    if |steps| == 0 then g else AddSteps(g.AddStep(steps[0]), steps[1..])
  }

  /** Append-only: after any sequence of `add_step` calls the graph is the
      old graph followed by exactly the added steps, in order. */
  lemma {:induction false} AddStepsAppends(g: ProvenanceGraph, steps: seq<ProvenanceStep>)
    ensures AddSteps(g, steps).decisionType == g.decisionType
    ensures AddSteps(g, steps).steps == g.steps + steps
    decreases |steps|
  {
    if |steps| > 0 {
      var g1 := g.AddStep(steps[0]);
      assert g1.steps == g.steps + [steps[0]];
      AddStepsAppends(g1, steps[1..]);
      assert g.steps + [steps[0]] + steps[1..] == g.steps + steps;
    }
  }

  /** A piece of evidence attached to a match. The source renders each as a
      sentence; the model keeps what the sentence says. */
  datatype Evidence =
    | DescriptionsAligned
    | SharedTags(tags: set<string>)
    | HighProficiency(level: real)
    | ScoreNote(topic: string, value: real)

  /** A scored pairing of a need with another user's capability. */
  datatype Match = Match(
    id: string,
    need: Need,
    needUserId: string,
    capability: Capability,
    capabilityUserId: string,
    matchScore: real,
    complementarityScore: real,
    feasibilityScore: real,
    provenance: ProvenanceGraph,
    confidence: real,
    uncertaintyFactors: seq<string>,
    evidence: seq<Evidence>,
    similarPastMatches: seq<string>,
    verificationMethods: seq<string>)

  /** A match as the dataclass constructor leaves it before scoring fills it in. */
  function NewMatch(id: string, need: Need, needUserId: string, capability: Capability,
                    capabilityUserId: string, provenance: ProvenanceGraph): Match
  {
    Match(id, need, needUserId, capability, capabilityUserId, 0.0, 0.0, 0.0, provenance, 0.0, [], [], [], [])
  }

  // ---------------------------------------------------------------------
  // Privacy-respecting projections

  /** `Capability.to_shareable_dict` */
  function ShareableDict(c: Capability): (d: map<string, Value>)
    ensures !c.privacy.Shareable() <==> d == map[]
    ensures c.privacy.Shareable() ==>
      && d.Keys == {"type", "name", "description", "proficiency", "tags"}
      && d["type"].VStr? && CapabilityType.FromValue(d["type"].s) == Some(c.kind)
      && d["name"] == VStr(c.name)
      && d["description"] == VStr(c.description)
      && d["proficiency"] == VReal(c.proficiency)
      && d["tags"] == VStrSet(c.tags)
  {
    if c.privacy == Private || c.privacy == Confidential then map[]
    else
      var d := map["type" := VStr(c.kind.Value()),
                   "name" := VStr(c.name),
                   "description" := VStr(c.description),
                   "proficiency" := VReal(c.proficiency),
                   "tags" := VStrSet(c.tags)];
      assert "type" in d;
      d
  }

  /** `Need.to_dict` */
  function NeedToDict(n: Need): (d: map<string, Value>)
    ensures d.Keys == {"need_id", "type", "name", "description", "urgency", "importance",
                       "domain", "context", "constraints", "tags"}
    ensures d["type"].VStr? && CapabilityType.FromValue(d["type"].s) == Some(n.kind)
    ensures d["domain"].VStr? && ProblemDomain.FromValue(d["domain"].s) == Some(n.domain)
    ensures d["need_id"] == VStr(n.id) && d["name"] == VStr(n.name)
    ensures d["description"] == VStr(n.description) && d["context"] == VStr(n.context)
    ensures d["urgency"] == VReal(n.urgency) && d["importance"] == VReal(n.importance)
    ensures d["constraints"] == VMap(n.constraints) && d["tags"] == VStrSet(n.tags)
  {
    map["need_id" := VStr(n.id),
        "type" := VStr(n.kind.Value()),
        "name" := VStr(n.name),
        "description" := VStr(n.description),
        "urgency" := VReal(n.urgency),
        "importance" := VReal(n.importance),
        "domain" := VStr(n.domain.Value()),
        "context" := VStr(n.context),
        "constraints" := VMap(n.constraints),
        "tags" := VStrSet(n.tags)]
  }

  /** The capabilities whose privacy level is not PRIVATE, in order. */
  function NonPrivate(caps: seq<Capability>): (r: seq<Capability>)
    ensures |r| <= |caps|
    ensures forall c :: c in r <==> c in caps && c.privacy != Private
  {
    if |caps| == 0 then []
    else if caps[0].privacy == Private then NonPrivate(caps[1..])
    else [caps[0]] + NonPrivate(caps[1..])
  }

  /** The number of capabilities at a given privacy level. */
  function CountAt(caps: seq<Capability>, level: PrivacyLevel): (n: nat)
    ensures n <= |caps|
  {
    if |caps| == 0 then 0
    else (if caps[0].privacy == level then 1 else 0) + CountAt(caps[1..], level)
  }

  /** `UserProfile.to_shareable_profile` */
  datatype SharedProfile = SharedProfile(
    userId: string,
    capabilities: seq<map<string, Value>>,
    needs: seq<map<string, Value>>,
    domains: set<string>,
    locationRegion: Option<string>,
    timezone: Option<string>)

  function ToShareableProfile(p: UserProfile): (s: SharedProfile)
    ensures s.userId == p.userId
    ensures |s.capabilities| == |NonPrivate(p.capabilities)|
    ensures forall i :: 0 <= i < |s.capabilities| ==>
              s.capabilities[i] == ShareableDict(NonPrivate(p.capabilities)[i])
    ensures |s.needs| == |p.needs|
    ensures forall i :: 0 <= i < |s.needs| ==> s.needs[i] == NeedToDict(p.needs[i])
    ensures forall v :: v in s.domains <==> exists d :: d in p.domains && d.Value() == v
    ensures s.locationRegion == p.locationRegion && s.timezone == p.timezone
  {
    var shared := NonPrivate(p.capabilities);
    SharedProfile(
      p.userId,
      seq(|shared|, i requires 0 <= i < |shared| => ShareableDict(shared[i])),
      seq(|p.needs|, i requires 0 <= i < |p.needs| => NeedToDict(p.needs[i])),
      set d | d in p.domains :: d.Value(),
      p.locationRegion,
      p.timezone)
  }

  lemma {:induction false} NonPrivateCounts(caps: seq<Capability>)
    ensures |NonPrivate(caps)| == |caps| - CountAt(caps, Private)
    ensures CountAt(NonPrivate(caps), Confidential) == CountAt(caps, Confidential)
    ensures CountAt(NonPrivate(caps), Private) == 0
  {
    if |caps| > 0 {
      NonPrivateCounts(caps[1..]);
      if caps[0].privacy != Private {
        assert NonPrivate(caps) == [caps[0]] + NonPrivate(caps[1..]);
        assert ([caps[0]] + NonPrivate(caps[1..]))[1..] == NonPrivate(caps[1..]);
      }
    }
  }

  /** Sharing a profile drops PRIVATE capabilities, keeps CONFIDENTIAL ones as
      empty maps, and lets no other data out: every non-empty shared entry is
      the projection of a PUBLIC or NETWORK capability of the profile. */
  lemma SharedProfileRespectsPrivacy(p: UserProfile)
    ensures |ToShareableProfile(p).capabilities| == |p.capabilities| - CountAt(p.capabilities, Private)
    ensures forall e :: e in ToShareableProfile(p).capabilities && e != map[] ==>
              exists c :: c in p.capabilities && c.privacy.Shareable() && e == ShareableDict(c)
  {
    NonPrivateCounts(p.capabilities);
    var s := ToShareableProfile(p);
    var shared := NonPrivate(p.capabilities);
    forall e | e in s.capabilities && e != map[]
      ensures exists c :: c in p.capabilities && c.privacy.Shareable() && e == ShareableDict(c)
    {
      var i :| 0 <= i < |s.capabilities| && s.capabilities[i] == e;
      var c := shared[i];
      assert c in shared;
      assert c in p.capabilities;
    }
  }

  // ---------------------------------------------------------------------
  // Human-readable provenance summary

  /** The lines the summary prints for step number `n` (counting from 1);
      `fmt` renders a confidence with two decimals. */
  function SummaryBlock(n: nat, step: ProvenanceStep, fmt: real -> string): seq<string>
  {
    [NatToString(n) + ". " + step.operation,
     "   Reasoning: " + step.reasoning,
     "   Confidence: " + fmt(step.confidence)]
    + (if |step.alternatives| > 0
       then ["   Alternatives considered: " + NatToString(|step.alternatives|)]
       else [])
    + [""]
  }

  /** The per-step blocks of `get_summary`, one per step, numbered from `first`. */
  function SummaryBlocks(steps: seq<ProvenanceStep>, first: nat, fmt: real -> string): (bs: seq<seq<string>>)
    ensures |bs| == |steps|
    ensures forall i :: 0 <= i < |steps| ==> bs[i] == SummaryBlock(first + i, steps[i], fmt)
    decreases |steps|
  {
    if |steps| == 0 then [] else [SummaryBlock(first, steps[0], fmt)] + SummaryBlocks(steps[1..], first + 1, fmt)
  }

  function Concat(bs: seq<seq<string>>): seq<string>
    decreases |bs|
  {
    if |bs| == 0 then [] else bs[0] + Concat(bs[1..])
  }

  /** How many steps record at least one alternative. */
  function StepsWithAlternatives(steps: seq<ProvenanceStep>): nat
    decreases |steps|
  {
    if |steps| == 0 then 0
    else (if |steps[0].alternatives| > 0 then 1 else 0) + StepsWithAlternatives(steps[1..])
  }

  /** Four lines per step, and a fifth for each step with alternatives. */
  lemma {:induction false} BlockLineCount(steps: seq<ProvenanceStep>, first: nat, fmt: real -> string)
    ensures |Concat(SummaryBlocks(steps, first, fmt))| == 4 * |steps| + StepsWithAlternatives(steps)
    decreases |steps|
  {
    if |steps| > 0 {
      var bs := SummaryBlocks(steps, first, fmt);
      BlockLineCount(steps[1..], first + 1, fmt);
      assert bs[1..] == SummaryBlocks(steps[1..], first + 1, fmt);
      assert Concat(bs) == bs[0] + Concat(bs[1..]);
    }
  }

  /** `ProvenanceGraph.get_summary`, as the list of lines it prints: the
      decision type, the step count and a blank line, then one block per
      step. */
  function SummaryLines(g: ProvenanceGraph, fmt: real -> string): (r: seq<string>)
    ensures |r| == 3 + 4 * |g.steps| + StepsWithAlternatives(g.steps)
    ensures r[0] == "Decision: " + g.decisionType
    ensures r[1] == "Steps taken: " + NatToString(|g.steps|)
    ensures r[2] == ""
  {
    BlockLineCount(g.steps, 1, fmt);
    ["Decision: " + g.decisionType, "Steps taken: " + NatToString(|g.steps|), ""]
    + Concat(SummaryBlocks(g.steps, 1, fmt))
  }

  /** Each step's block starts with its number and operation, then its reasoning
      and confidence, and has the "Alternatives considered" line exactly when
      that step has alternatives. */
  lemma SummaryBlockShape(g: ProvenanceGraph, fmt: real -> string, i: nat)
    requires i < |g.steps|
    ensures var b := SummaryBlocks(g.steps, 1, fmt)[i];
      && b[0] == NatToString(i + 1) + ". " + g.steps[i].operation
      && b[1] == "   Reasoning: " + g.steps[i].reasoning
      && b[2] == "   Confidence: " + fmt(g.steps[i].confidence)
      && (|b| == 5 <==> |g.steps[i].alternatives| > 0)
      && (|b| == 4 <==> |g.steps[i].alternatives| == 0)
      && b[|b| - 1] == ""
  {
  }

  /** `Match.get_explanation`, with the summary kept as its lines. */
  datatype MatchExplanation = MatchExplanation(
    matchId: string,
    matchScore: real,
    confidence: real,
    reasoning: seq<string>,
    evidence: seq<Evidence>,
    uncertaintyFactors: seq<string>,
    verificationMethods: seq<string>,
    complementarity: real,
    feasibility: real,
    similarPastMatches: seq<string>)

  function GetExplanation(m: Match, fmt: real -> string): (e: MatchExplanation)
    ensures e.matchId == m.id && e.matchScore == m.matchScore && e.confidence == m.confidence
    ensures e.evidence == m.evidence && e.uncertaintyFactors == m.uncertaintyFactors
    ensures e.verificationMethods == m.verificationMethods
    ensures e.complementarity == m.complementarityScore && e.feasibility == m.feasibilityScore
    ensures e.similarPastMatches == m.similarPastMatches
    ensures e.reasoning == SummaryLines(m.provenance, fmt)
    ensures |e.reasoning| >= 3 && e.reasoning[1] == "Steps taken: " + NatToString(|m.provenance.steps|)
  {
    MatchExplanation(m.id, m.matchScore, m.confidence, SummaryLines(m.provenance, fmt), m.evidence,
                     m.uncertaintyFactors, m.verificationMethods, m.complementarityScore,
                     m.feasibilityScore, m.similarPastMatches)
  }
}

=== FILE: ranking.dfy ===
/** Filter, rank and truncate, as both matchers' `find_matches` do it:
    drop candidates under the minimum score, stable-sort the rest by
    descending score (Python's `list.sort(key=..., reverse=True)` keeps equal
    scores in their original order), and keep `results[:limit]`. */
module Ranking {

  import opened Base

  /** An item with its score and its position in the original candidate list. */
  datatype Ranked<T> = Ranked(item: T, score: real, pos: nat)

  /** The order the stable descending sort produces: higher score first,
      earlier original position first among equal scores. */
  predicate Precedes<T>(x: Ranked<T>, y: Ranked<T>)
  {
    x.score > y.score || (x.score == y.score && x.pos < y.pos)
  }

  predicate SortedDesc<T>(s: seq<Ranked<T>>)
  {
    forall i, j :: 0 <= i < j < |s| ==> Precedes(s[i], s[j])
  }

  predicate IncreasingPositions<T>(s: seq<Ranked<T>>)
  {
    forall i, j :: 0 <= i < j < |s| ==> s[i].pos < s[j].pos
  }

  predicate DistinctPositions<T>(s: seq<Ranked<T>>)
  {
    forall i, j :: 0 <= i < j < |s| ==> s[i].pos != s[j].pos
  }

  /** The candidates whose score reaches `min`, in their original order. */
  function AtLeast<T>(s: seq<Ranked<T>>, min: real): (r: seq<Ranked<T>>)
    ensures |r| <= |s|
    ensures forall k :: 0 <= k < |r| ==> r[k].score >= min
  {
    if |s| == 0 then []
    else if s[0].score >= min then [s[0]] + AtLeast(s[1..], min)
    else AtLeast(s[1..], min)
  }

  /** Filtering keeps exactly the qualifying candidates and their order. */
  lemma {:induction false} AtLeastKeeps<T>(s: seq<Ranked<T>>, min: real)
    ensures forall y :: y in AtLeast(s, min) ==> y in s && y.score >= min
    ensures forall y :: y in s && y.score >= min ==> y in AtLeast(s, min)
    ensures IncreasingPositions(s) ==> IncreasingPositions(AtLeast(s, min))
    decreases |s|
  {
    AtLeastMembers(s, min);
    if IncreasingPositions(s) {
      AtLeastIncreasing(s, min);
    }
  }

  lemma {:induction false} AtLeastMembers<T>(s: seq<Ranked<T>>, min: real)
    ensures forall y :: y in AtLeast(s, min) ==> y in s && y.score >= min
    ensures forall y :: y in s && y.score >= min ==> y in AtLeast(s, min)
    decreases |s|
  {
    if |s| > 0 {
      AtLeastMembers(s[1..], min);
      assert s == [s[0]] + s[1..];
    }
  }

  /** Filtering keeps a lower bound on the positions. */
  lemma {:induction false} AtLeastAbove<T>(s: seq<Ranked<T>>, min: real, p: nat)
    requires forall k :: 0 <= k < |s| ==> s[k].pos > p
    ensures forall k :: 0 <= k < |AtLeast(s, min)| ==> AtLeast(s, min)[k].pos > p
    decreases |s|
  {
    if |s| > 0 {
      AtLeastAbove(s[1..], min, p);
    }
  }

  lemma {:induction false} AtLeastIncreasing<T>(s: seq<Ranked<T>>, min: real)
    requires IncreasingPositions(s)
    ensures IncreasingPositions(AtLeast(s, min))
    decreases |s|
  {
    if |s| > 0 {
      var tail := s[1..];
      assert forall k :: 0 <= k < |tail| ==> tail[k] == s[k + 1];
      AtLeastIncreasing(tail, min);
      if s[0].score >= min {
        AtLeastAbove(tail, min, s[0].pos);
        var rest := AtLeast(tail, min);
        var r := [s[0]] + rest;
        forall i, j | 0 <= i < j < |r| ensures r[i].pos < r[j].pos {
          if i > 0 {
            assert r[i] == rest[i - 1];
          }
          assert r[j] == rest[j - 1];
        }
      }
    }
  }

  /** Insert one item into a ranked list. */
  function Insert<T>(x: Ranked<T>, s: seq<Ranked<T>>): (r: seq<Ranked<T>>)
    ensures |r| == |s| + 1
  {
    if |s| == 0 then [x]
    else if Precedes(x, s[0]) then [x] + s
    else
      assert s == [s[0]] + s[1..];
      [s[0]] + Insert(x, s[1..])
  }

  lemma {:induction false} InsertMultiset<T>(x: Ranked<T>, s: seq<Ranked<T>>)
    ensures multiset(Insert(x, s)) == multiset(s) + multiset{x}
    decreases |s|
  {
    if |s| > 0 && !Precedes(x, s[0]) {
      InsertMultiset(x, s[1..]);
      assert s == [s[0]] + s[1..];
    }
  }

  /** An item ranked above a list and above `x` stays above it once `x` is inserted. */
  lemma {:induction false} InsertKeepsBelow<T>(y: Ranked<T>, x: Ranked<T>, s: seq<Ranked<T>>)
    requires Precedes(y, x)
    requires forall k :: 0 <= k < |s| ==> Precedes(y, s[k])
    ensures forall k :: 0 <= k < |Insert(x, s)| ==> Precedes(y, Insert(x, s)[k])
    decreases |s|
  {
    if |s| > 0 && !Precedes(x, s[0]) {
      InsertKeepsBelow(y, x, s[1..]);
    }
  }

  /** Inserting into a ranked list keeps it ranked. */
  lemma {:induction false} InsertSorted<T>(x: Ranked<T>, s: seq<Ranked<T>>)
    requires SortedDesc(s)
    requires forall k :: 0 <= k < |s| ==> s[k].pos != x.pos
    ensures SortedDesc(Insert(x, s))
    decreases |s|
  {
    if |s| > 0 && !Precedes(x, s[0]) {
      var tail := s[1..];
      assert forall k :: 0 <= k < |tail| ==> tail[k] == s[k + 1];
      InsertSorted(x, tail);
      InsertKeepsBelow(s[0], x, tail);
      var rest := Insert(x, tail);
      var r := [s[0]] + rest;
      forall i, j | 0 <= i < j < |r| ensures Precedes(r[i], r[j]) {
        if i > 0 {
          assert r[i] == rest[i - 1];
        }
        assert r[j] == rest[j - 1];
      }
    }
  }

  /** Stable descending sort by score (insertion sort). */
  function SortDesc<T>(s: seq<Ranked<T>>): (r: seq<Ranked<T>>)
    ensures |r| == |s|
  {
    if |s| == 0 then []
    else
      assert s == [s[0]] + s[1..];
      Insert(s[0], SortDesc(s[1..]))
  }

  lemma {:induction false} SortDescMultiset<T>(s: seq<Ranked<T>>)
    ensures multiset(SortDesc(s)) == multiset(s)
    decreases |s|
  {
    if |s| > 0 {
      var tail := s[1..];
      SortDescMultiset(tail);
      InsertMultiset(s[0], SortDesc(tail));
      assert SortDesc(s) == Insert(s[0], SortDesc(tail));
      calc {
        multiset(s);
        { assert s == [s[0]] + tail; }
        multiset([s[0]] + tail);
        multiset([s[0]]) + multiset(tail);
      }
    }
  }

  lemma TailDistinct<T>(s: seq<Ranked<T>>)
    requires |s| > 0 && DistinctPositions(s)
    ensures DistinctPositions(s[1..])
    ensures forall k :: 0 <= k < |s[1..]| ==> s[1..][k].pos != s[0].pos
  {
    assert forall k :: 0 <= k < |s[1..]| ==> s[1..][k] == s[k + 1];
  }

  /** A position absent from one list is absent from any permutation of it. */
  lemma PositionAvoided<T>(p: nat, a: seq<Ranked<T>>, b: seq<Ranked<T>>)
    requires multiset(a) == multiset(b)
    requires forall k :: 0 <= k < |a| ==> a[k].pos != p
    ensures forall k :: 0 <= k < |b| ==> b[k].pos != p
  {
    forall k | 0 <= k < |b| ensures b[k].pos != p {
      assert b[k] in multiset(b);
      var j :| 0 <= j < |a| && a[j] == b[k];
    }
  }

  /** The sort yields a permutation of its input, ranked, provided the
      positions are distinct. */
  lemma {:induction false} SortDescCorrect<T>(s: seq<Ranked<T>>)
    requires DistinctPositions(s)
    ensures SortedDesc(SortDesc(s))
    ensures multiset(SortDesc(s)) == multiset(s)
    decreases |s|
  {
    SortDescMultiset(s);
    if |s| > 0 {
      var tail := s[1..];
      TailDistinct(s);
      SortDescCorrect(tail);
      var rest := SortDesc(tail);
      PositionAvoided(s[0].pos, tail, rest);
      InsertSorted(s[0], rest);
    }
  }

  lemma IncreasingDistinct<T>(s: seq<Ranked<T>>)
    requires IncreasingPositions(s)
    ensures DistinctPositions(s)
  {
  }

  /** Python's `s[:n]`: a negative `n` counts back from the end. */
  function SliceTo<T>(s: seq<T>, n: int): (r: seq<T>)
    ensures n >= 0 ==> |r| == Min(n, |s|)
    ensures n < 0 ==> |r| == Max(0, |s| + n)
    ensures r == s[..|r|]
  {
    if n >= 0 then (if n <= |s| then s[..n] else s)
    else if |s| + n <= 0 then []
    else s[..|s| + n]
  }

  /** `max_results or default`: both `None` and 0 fall back to the default. */
  function EffectiveLimit(maxResults: Option<int>, default: int): (n: int)
    ensures maxResults.Some? && maxResults.value != 0 ==> n == maxResults.value
    ensures maxResults.None? || maxResults.value == 0 ==> n == default
  {
    if maxResults.None? || maxResults.value == 0 then default else maxResults.value
  }

  /** Filter by the minimum score, stable-sort descending, truncate to `limit`. */
  function FilterRankTruncate<T>(s: seq<Ranked<T>>, min: real, limit: int): (r: seq<Ranked<T>>)
    ensures limit >= 0 ==> |r| == Min(limit, |AtLeast(s, min)|)
    ensures limit > 0 ==> |r| <= limit
  {
    SliceTo(SortDesc(AtLeast(s, min)), limit)
  }

  /** In a ranked list, everything outside a prefix ranks below everything in it. */
  lemma PrefixRanksAbove<T>(sorted: seq<Ranked<T>>, n: nat, y: Ranked<T>)
    requires SortedDesc(sorted) && n <= |sorted|
    requires y in sorted && y !in sorted[..n]
    ensures forall i :: 0 <= i < n ==> Precedes(sorted[i], y)
  {
    assert forall k :: 0 <= k < n ==> sorted[k] == sorted[..n][k];
  }

  lemma SameElements<T>(a: seq<T>, b: seq<T>, y: T)
    requires multiset(a) == multiset(b)
    ensures y in a <==> y in b
  {
    assert y in a <==> y in multiset(a);
    assert y in b <==> y in multiset(b);
  }

  /** The result is the best `limit` qualifying candidates in ranking order:
      it is ranked, every kept candidate comes from the input and reaches
      `min`, and any qualifying candidate left out ranks below every kept one. */
  lemma FilterRankTruncateIsTop<T>(s: seq<Ranked<T>>, min: real, limit: int)
    requires IncreasingPositions(s)
    ensures SortedDesc(FilterRankTruncate(s, min, limit))
    ensures forall y :: y in FilterRankTruncate(s, min, limit) ==> y in s && y.score >= min
    ensures forall y, i ::
              (y in s && y.score >= min && y !in FilterRankTruncate(s, min, limit)
               && 0 <= i < |FilterRankTruncate(s, min, limit)|)
              ==> Precedes(FilterRankTruncate(s, min, limit)[i], y)
  {
    var kept := AtLeast(s, min);
    AtLeastKeeps(s, min);
    IncreasingDistinct(kept);
    var sorted := SortDesc(kept);
    SortDescCorrect(kept);
    var r := FilterRankTruncate(s, min, limit);
    var n := |r|;
    assert r == sorted[..n];
    forall y | y in r ensures y in s && y.score >= min {
      SameElements(kept, sorted, y);
    }
    forall y | y in s && y.score >= min && y !in r
      ensures forall i :: 0 <= i < n ==> Precedes(r[i], y)
    {
      SameElements(kept, sorted, y);
      PrefixRanksAbove(sorted, n, y);
    }
  }

  /** Ranking is stable: two kept candidates with the same score appear in
      their original order. */
  lemma TiesKeepOriginalOrder<T>(s: seq<Ranked<T>>, min: real, limit: int, i: nat, j: nat)
    requires IncreasingPositions(s)
    requires i < j < |FilterRankTruncate(s, min, limit)|
    requires FilterRankTruncate(s, min, limit)[i].score == FilterRankTruncate(s, min, limit)[j].score
    ensures FilterRankTruncate(s, min, limit)[i].pos < FilterRankTruncate(s, min, limit)[j].pos
  {
    FilterRankTruncateIsTop(s, min, limit);
  }

  /** Positions 0, 1, 2, ... attached to a list of scored items. */
  function Enumerate<T>(items: seq<T>, scores: seq<real>): (r: seq<Ranked<T>>)
    requires |scores| == |items|
    ensures |r| == |items|
    ensures forall i :: 0 <= i < |r| ==> r[i] == Ranked(items[i], scores[i], i)
    ensures IncreasingPositions(r)
  {
    seq(|items|, i requires 0 <= i < |items| => Ranked(items[i], scores[i], i))
  }

  function Items<T>(s: seq<Ranked<T>>): (r: seq<T>)
    ensures |r| == |s|
    ensures forall i :: 0 <= i < |s| ==> r[i] == s[i].item
  {
    seq(|s|, i requires 0 <= i < |s| => s[i].item)
  }
}

=== FILE: reasoning.dfy ===
/** The deterministic rules of the on-device reasoning engine
    (`LocalReasoningEngine`): keyword domain classification, concept
    extraction, capability-type inference, priority and constraint
    extraction, need naming, capability de-duplication, profile confidence
    and the recommendation bands. The language model the engine stands in
    for is not part of it. */
module Reasoning {

  import opened Base
  import opened Text
  import opened Models

  // ---------------------------------------------------------------------
  // First occurrences (`list(dict.fromkeys(s))`)

  /** The elements of `s` not in `seen`, each once, in first-occurrence order. */
  function UniqueFrom<T(==)>(s: seq<T>, seen: set<T>): (r: seq<T>)
    ensures |r| <= |s|
    ensures forall x :: x in r ==> x in s && x !in seen
    ensures forall i, j :: 0 <= i < j < |r| ==> r[i] != r[j]
    decreases |s|
  {
    if |s| == 0 then []
    else if s[0] in seen then UniqueFrom(s[1..], seen)
    else [s[0]] + UniqueFrom(s[1..], seen + {s[0]})
  }

  function Unique<T(==)>(s: seq<T>): seq<T>
  {
    UniqueFrom(s, {})
  }

  /** Nothing outside `seen` is dropped. */
  lemma {:induction false} UniqueFromComplete<T>(s: seq<T>, seen: set<T>)
    ensures forall x :: x in s && x !in seen ==> x in UniqueFrom(s, seen)
    decreases |s|
  {
    if |s| > 0 {
      if s[0] in seen {
        UniqueFromComplete(s[1..], seen);
      } else {
        UniqueFromComplete(s[1..], seen + {s[0]});
      }
      forall x | x in s && x !in seen ensures x in UniqueFrom(s, seen) {
        if x != s[0] {
          assert x in s[1..];
        }
      }
    }
  }

  /** The index of the first occurrence of `x` in `s`. */
  function FirstIndex<T(==)>(s: seq<T>, x: T): (i: nat)
    requires x in s
    ensures i < |s| && s[i] == x
    ensures forall j :: 0 <= j < i ==> s[j] != x
  {
    if s[0] == x then 0 else 1 + FirstIndex(s[1..], x)
  }

  lemma FirstIndexTail<T>(s: seq<T>, x: T)
    requires |s| > 0 && x in s[1..] && x != s[0]
    ensures FirstIndex(s, x) == 1 + FirstIndex(s[1..], x)
  {
  }

  /** Positions in `s[1..]` ordered by first occurrence stay ordered in `s`,
      and come after `s[0]`. */
  lemma ShiftOrdered<T>(s: seq<T>, rest: seq<T>)
    requires |s| > 0
    requires forall x :: x in rest ==> x in s && x in s[1..] && x != s[0]
    requires forall i, j :: 0 <= i < j < |rest| ==> FirstIndex(s[1..], rest[i]) < FirstIndex(s[1..], rest[j])
    ensures forall i, j :: 0 <= i < j < |rest| ==> FirstIndex(s, rest[i]) < FirstIndex(s, rest[j])
    ensures forall j :: 0 <= j < |rest| ==> 0 < FirstIndex(s, rest[j])
  {
    forall j | 0 <= j < |rest| ensures FirstIndex(s, rest[j]) == 1 + FirstIndex(s[1..], rest[j]) {
      FirstIndexTail(s, rest[j]);
    }
  }

  /** Putting `s[0]` in front keeps a list ordered by first occurrence in `s`. */
  lemma ConsOrdered<T>(s: seq<T>, rest: seq<T>)
    requires |s| > 0
    requires forall x :: x in rest ==> x in s
    requires forall i, j :: 0 <= i < j < |rest| ==> FirstIndex(s, rest[i]) < FirstIndex(s, rest[j])
    requires forall j :: 0 <= j < |rest| ==> 0 < FirstIndex(s, rest[j])
    ensures forall i, j :: 0 <= i < j < |[s[0]] + rest| ==>
              FirstIndex(s, ([s[0]] + rest)[i]) < FirstIndex(s, ([s[0]] + rest)[j])
  {
    var r := [s[0]] + rest;
    forall i, j | 0 <= i < j < |r| ensures FirstIndex(s, r[i]) < FirstIndex(s, r[j]) {
      assert r[j] == rest[j - 1];
      if i > 0 {
        assert r[i] == rest[i - 1];
      }
    }
  }

  /** The kept elements appear in the order of their first occurrences. */
  lemma {:induction false} UniqueFromOrdered<T>(s: seq<T>, seen: set<T>)
    ensures forall i, j :: 0 <= i < j < |UniqueFrom(s, seen)| ==>
              FirstIndex(s, UniqueFrom(s, seen)[i]) < FirstIndex(s, UniqueFrom(s, seen)[j])
    decreases |s|
  {
    if |s| > 0 {
      var seen' := if s[0] in seen then seen else seen + {s[0]};
      var rest := UniqueFrom(s[1..], seen');
      UniqueFromOrdered(s[1..], seen');
      assert forall x :: x in rest ==> x in s && x in s[1..] && x != s[0];
      ShiftOrdered(s, rest);
      if s[0] !in seen {
        ConsOrdered(s, rest);
      }
    }
  }

  /** `Unique` keeps every element once, in first-occurrence order. */
  lemma UniqueSpec<T>(s: seq<T>)
    ensures forall x :: x in Unique(s) <==> x in s
    ensures forall i, j :: 0 <= i < j < |Unique(s)| ==> Unique(s)[i] != Unique(s)[j]
    ensures forall i, j :: 0 <= i < j < |Unique(s)| ==> FirstIndex(s, Unique(s)[i]) < FirstIndex(s, Unique(s)[j])
  {
    UniqueFromComplete(s, {});
    UniqueFromOrdered(s, {});
  }

  // ---------------------------------------------------------------------
  // Domain classification

  const RoboticsWords: seq<string> := ["robot", "sensor", "motor", "actuator", "autonomous"]
  const SoftwareWords: seq<string> := ["code", "software", "app", "api", "algorithm"]
  const HardwareWords: seq<string> := ["circuit", "pcb", "electronic", "hardware"]
  const ResearchWords: seq<string> := ["research", "study", "experiment", "hypothesis"]
  const BiologyWords: seq<string> := ["protein", "cell", "genetic", "organism"]
  const ClimateWords: seq<string> := ["climate", "carbon", "renewable", "environment"]

  /** The keyword table, in the order the classifier walks it. */
  const DomainKeywords: seq<(ProblemDomain, seq<string>)> := [
    (Robotics, RoboticsWords), (Software, SoftwareWords), (Hardware, HardwareWords),
    (Research, ResearchWords), (Biology, BiologyWords), (Climate, ClimateWords)]

  const OpDomainClassification: string := "domain_classification"
  const KeyDescription: string := "description"
  const KeyDomain: string := "domain"
  const ClassifiedHead: string := "Classified based on keyword matching ("
  const ClassifiedTail: string := " matches)"

  /** How many of row `k`'s keywords occur in the lower-cased description. */
  function Hits(k: nat, description: string): nat
    requires k < |DomainKeywords|
  {
    HitCount(DomainKeywords[k].1, Lower(description))
  }

  /** Row `k` has the most hits, strictly more than every earlier row. */
  predicate FirstBest(k: nat, description: string)
    requires k < |DomainKeywords|
  {
    && Hits(k, description) > 0
    && (forall j :: 0 <= j < |DomainKeywords| ==> Hits(j, description) <= Hits(k, description))
    && (forall j :: 0 <= j < k ==> Hits(j, description) < Hits(k, description))
  }

  /** `_classify_domain`: the first domain with the most keyword hits, OTHER
      when no keyword occurs; the recorded step is surer (0.7 against 0.3)
      when some keyword matched. */
  method ClassifyDomain(description: string) returns (domain: ProblemDomain, step: ProvenanceStep)
    ensures domain == Other <==> forall k :: 0 <= k < |DomainKeywords| ==> Hits(k, description) == 0
    ensures domain != Other ==>
              exists k :: 0 <= k < |DomainKeywords| && DomainKeywords[k].0 == domain && FirstBest(k, description)
    ensures step.operation == OpDomainClassification
    ensures step.confidence == if domain == Other then 0.3 else 0.7
    ensures step.outputs == map[KeyDomain := VStr(domain.Value())]
  {
    var best, most := BestRow(description);
    domain := if best == -1 then Other else DomainKeywords[best].0;
    step := DomainStep(description, domain, most);
  }

  /** The loop of `_classify_domain`: the first row with the most hits, or
      -1 when no row has any. */
  method BestRow(description: string) returns (best: int, most: nat)
    ensures best == -1 <==> most == 0
    ensures best == -1 <==> forall k :: 0 <= k < |DomainKeywords| ==> Hits(k, description) == 0
    ensures best != -1 ==> 0 <= best < |DomainKeywords| && FirstBest(best, description) && Hits(best, description) == most
  {
    best := -1;
    most := 0;
    for k := 0 to |DomainKeywords|
      invariant best == -1 <==> most == 0
      invariant best != -1 ==> 0 <= best < k && Hits(best, description) == most
      invariant forall j :: 0 <= j < k ==> Hits(j, description) <= most
      invariant best != -1 ==> forall j :: 0 <= j < best ==> Hits(j, description) < most
    {
      var hits := Hits(k, description);
      if hits > most {
        best := k;
        most := hits;
      }
    }
  }

  function DomainStep(description: string, domain: ProblemDomain, most: nat): (step: ProvenanceStep)
    ensures step.operation == OpDomainClassification
    ensures step.confidence == if most > 0 then 0.7 else 0.3
    ensures step.outputs == map[KeyDomain := VStr(domain.Value())]
  {
    ProvenanceStep(OpDomainClassification,
                   map[KeyDescription := VStr(Prefix(description, 100))],
                   map[KeyDomain := VStr(domain.Value())],
                   ClassifiedHead + NatToString(most) + ClassifiedTail,
                   if most > 0 then 0.7 else 0.3, [])
  }

  // ---------------------------------------------------------------------
  // Concepts

  const Stopwords: set<string> := {"the", "a", "an", "and", "or", "but", "in", "on", "at", "to", "for"}

  predicate IsConcept(w: string)
  {
    |w| > 4 && w !in Stopwords
  }

  /** The lower-cased words that qualify as concepts, repetitions included. */
  function ConceptWords(ws: seq<string>): (r: seq<string>)
    ensures forall w :: w in r <==> w in ws && IsConcept(w)
  {
    if |ws| == 0 then []
    else (if IsConcept(ws[0]) then [ws[0]] else []) + ConceptWords(ws[1..])
  }

  /** `_extract_concepts`: distinct long words that are not stopwords, in
      first-occurrence order, at most ten. */
  function ExtractConcepts(text: string): (r: seq<string>)
    ensures |r| <= 10
    ensures forall i :: 0 <= i < |r| ==> r[i] in Words(text) && IsConcept(r[i])
    ensures forall i, j :: 0 <= i < j < |r| ==> r[i] != r[j]
  {
    var u := Unique(ConceptWords(Words(text)));
    if |u| <= 10 then u else u[..10]
  }

  /** Each concept word of the text is extracted, unless ten concepts that
      occur earlier were already taken. */
  lemma ConceptsAreTheFirstTen(text: string, w: string)
    requires w in Words(text) && IsConcept(w)
    ensures var r := ExtractConcepts(text);
            w !in r ==> |r| == 10 && forall i :: 0 <= i < 10 ==>
              FirstIndex(ConceptWords(Words(text)), r[i]) < FirstIndex(ConceptWords(Words(text)), w)
  {
    var c := ConceptWords(Words(text));
    var u := Unique(c);
    UniqueSpec(c);
    var r := ExtractConcepts(text);
    if w !in r {
      var k :| 0 <= k < |u| && u[k] == w;
      assert forall i :: 0 <= i < |r| ==> r[i] == u[i];
      assert k >= |r|;
      forall i | 0 <= i < 10 ensures FirstIndex(c, r[i]) < FirstIndex(c, w) {
        assert r[i] == u[i];
      }
    }
  }

  /** Every stopword is shorter than five characters, so the stopword test
      never removes a word the length test keeps. */
  lemma StopwordsAreShort()
    ensures forall w :: w in Stopwords ==> |w| <= 4
  {
  }

  // ---------------------------------------------------------------------
  // Required capability types, priority, constraints

  const BuildWords: seq<string> := ["build", "create", "make"]
  const ResourceWords: seq<string> := ["equipment", "lab", "tools"]
  const KnowledgeWords: seq<string> := ["know", "understand", "expertise"]
  const FundingWords: seq<string> := ["funding", "money", "budget"]

  /** The position of a capability type in the order the rules are tried;
      4 for the types no rule yields. */
  function RuleRank(t: CapabilityType): nat
  {
    match t
    case Skill => 0
    case Resource => 1
    case Knowledge => 2
    case Funding => 3
    case _ => 4
  }

  predicate RankOrdered(r: seq<CapabilityType>)
  {
    forall i, j :: 0 <= i < j < |r| ==> RuleRank(r[i]) < RuleRank(r[j])
  }

  predicate RanksBelow(r: seq<CapabilityType>, n: nat)
  {
    forall i :: 0 <= i < |r| ==> RuleRank(r[i]) < n
  }

  /** `[t]` when its rule fired, nothing otherwise. */
  function IfFired(fired: bool, t: CapabilityType): (r: seq<CapabilityType>)
    ensures forall x :: x in r <==> fired && x == t
  {
    if fired then [t] else []
  }

  /** Appending a type that ranks above everything so far keeps the order. */
  lemma AppendFired(a: seq<CapabilityType>, fired: bool, t: CapabilityType)
    requires RankOrdered(a) && RanksBelow(a, RuleRank(t))
    ensures RankOrdered(a + IfFired(fired, t)) && RanksBelow(a + IfFired(fired, t), RuleRank(t) + 1)
  {
    if fired {
      var r := a + [t];
      assert forall i :: 0 <= i < |a| ==> r[i] == a[i];
    } else {
      assert a + [] == a;
    }
  }

  /** The types whose rules fired, in rule order, and SKILL when none did. */
  function Collect(build: bool, resource: bool, knowledge: bool, funding: bool): (r: seq<CapabilityType>)
    ensures |r| > 0
    ensures Resource in r <==> resource
    ensures Knowledge in r <==> knowledge
    ensures Funding in r <==> funding
    ensures Skill in r <==> build || (!resource && !knowledge && !funding)
  {
    var found := IfFired(build, Skill) + IfFired(resource, Resource)
                 + IfFired(knowledge, Knowledge) + IfFired(funding, Funding);
    if |found| == 0 then [Skill] else found
  }

  /** The fired rules' types, concatenated in rule order, rank in that order. */
  lemma FiredInRuleOrder(build: bool, resource: bool, knowledge: bool, funding: bool)
    ensures var found := IfFired(build, Skill) + IfFired(resource, Resource)
                         + IfFired(knowledge, Knowledge) + IfFired(funding, Funding);
            RankOrdered(found) && RanksBelow(found, 4)
  {
    var e: seq<CapabilityType> := [];
    var s1 := IfFired(build, Skill);
    AppendFired(e, build, Skill);
    assert e + s1 == s1;
    AppendFired(s1, resource, Resource);
    var s2 := s1 + IfFired(resource, Resource);
    AppendFired(s2, knowledge, Knowledge);
    var s3 := s2 + IfFired(knowledge, Knowledge);
    AppendFired(s3, funding, Funding);
  }

  /** The collected types come in the order the rules are tried. */
  lemma CollectInRuleOrder(build: bool, resource: bool, knowledge: bool, funding: bool)
    ensures RanksBelow(Collect(build, resource, knowledge, funding), 4)
    ensures RankOrdered(Collect(build, resource, knowledge, funding))
  {
    FiredInRuleOrder(build, resource, knowledge, funding);
  }

  /** `_identify_required_capabilities`: one type per keyword group that
      occurs, in rule order, and SKILL when none does. */
  function RequiredCapabilities(description: string): (r: seq<CapabilityType>)
    ensures |r| > 0
    ensures RanksBelow(r, 4) && RankOrdered(r)
    ensures Resource in r <==> AnyIn(ResourceWords, description)
    ensures Knowledge in r <==> AnyIn(KnowledgeWords, description)
    ensures Funding in r <==> AnyIn(FundingWords, description)
    ensures Skill in r <==> (AnyIn(BuildWords, description)
                             || (!AnyIn(ResourceWords, description) && !AnyIn(KnowledgeWords, description)
                                 && !AnyIn(FundingWords, description)))
  {
    var build, resource := AnyIn(BuildWords, description), AnyIn(ResourceWords, description);
    var knowledge, funding := AnyIn(KnowledgeWords, description), AnyIn(FundingWords, description);
    CollectInRuleOrder(build, resource, knowledge, funding);
    Collect(build, resource, knowledge, funding)
  }

  const UrgentWords: seq<string> := ["urgent", "asap", "immediately", "critical", "deadline"]
  const ImportantWords: seq<string> := ["critical", "essential", "key", "vital", "crucial"]
  const Critical: string := "critical"

  /** `_assess_priority`: urgency and importance, each 0.9 when one of its
      keywords occurs and 0.5 otherwise. */
  function AssessPriority(description: string): (r: (real, real))
    ensures r.0 == 0.9 <==> AnyIn(UrgentWords, description)
    ensures r.0 != 0.9 ==> r.0 == 0.5
    ensures r.1 == 0.9 <==> AnyIn(ImportantWords, description)
    ensures r.1 != 0.9 ==> r.1 == 0.5
  {
    (if AnyIn(UrgentWords, description) then 0.9 else 0.5,
     if AnyIn(ImportantWords, description) then 0.9 else 0.5)
  }

  /** "critical" is both an urgency and an importance keyword. */
  lemma CriticalIsUrgentAndImportant(description: string)
    requires ContainsLower(description, Critical)
    ensures AssessPriority(description) == (0.9, 0.9)
  {
    assert UrgentWords[3] == Critical;
    assert ImportantWords[0] == Critical;
  }

  const KeyBudget: string := "budget"
  const KeyDeadline: string := "deadline"
  const KeyLocation: string := "location"
  const KeyLocationPreference: string := "location_preference"
  const Remote: string := "remote"

  /** `_extract_constraints`: budget and deadline copied from the context,
      location from the context's preference, overridden by "remote" when
      the description mentions it. */
  function ExtractConstraints(description: string, context: map<string, Value>): (r: map<string, Value>)
    ensures forall k :: k in r ==> k == KeyBudget || k == KeyDeadline || k == KeyLocation
    ensures KeyBudget in r <==> KeyBudget in context
    ensures KeyBudget in r ==> r[KeyBudget] == context[KeyBudget]
    ensures KeyDeadline in r <==> KeyDeadline in context
    ensures KeyDeadline in r ==> r[KeyDeadline] == context[KeyDeadline]
    ensures KeyLocation in r <==> KeyLocationPreference in context || ContainsLower(description, Remote)
    ensures ContainsLower(description, Remote) ==> KeyLocation in r && r[KeyLocation] == VStr(Remote)
    ensures !ContainsLower(description, Remote) && KeyLocationPreference in context ==>
              KeyLocation in r && r[KeyLocation] == context[KeyLocationPreference]
  {
    var withBudget: map<string, Value> := if KeyBudget in context then map[KeyBudget := context[KeyBudget]] else map[];
    var withDeadline := if KeyDeadline in context then withBudget[KeyDeadline := context[KeyDeadline]] else withBudget;
    var withLocation := if KeyLocationPreference in context
                        then withDeadline[KeyLocation := context[KeyLocationPreference]] else withDeadline;
    if ContainsLower(description, Remote) then withLocation[KeyLocation := VStr(Remote)] else withLocation
  }

  // ---------------------------------------------------------------------
  // Need name

  const Ellipsis: string := "..."
  const Space: string := " "

  /** Joining words with single spaces and splitting again gives the words
      back; text glued to the last word stays glued to it. */
  lemma ShortenedWords(ws: seq<string>)
    requires forall k :: 0 <= k < |ws| ==> IsWord(ws[k])
    ensures |ws| <= 5 ==> Split(Join(ws[..Min(5, |ws|)], Space) + "") == ws
    ensures |ws| > 5 ==> Split(Join(ws[..Min(5, |ws|)], Space) + Ellipsis) == ws[..4] + [ws[4] + Ellipsis]
  {
    if |ws| <= 5 {
      assert ws[..|ws|] == ws;
      assert Join(ws, Space) + "" == Join(ws, Space);
      SplitJoin(ws);
    } else {
      var first := ws[..5];
      JoinAppend(first, Ellipsis);
      var vs := ws[..4] + [ws[4] + Ellipsis];
      assert first[..4] == ws[..4];
      assert IsWord(ws[4] + Ellipsis) by {
        assert IsWord(ws[4]);
      }
      forall k | 0 <= k < |vs| ensures IsWord(vs[k]) {
        if k < 4 { assert vs[k] == ws[k]; }
      }
      SplitJoin(vs);
    }
  }

  /** `_generate_need_name`: the first five words (original case) joined by
      single spaces, with "..." when there were more. Splitting the name
      again gives the description's words back: all of them when there are
      at most five, otherwise the first five with "..." glued to the fifth. */
  function NeedName(description: string): (name: string)
    ensures var ws := Split(description);
            |ws| <= 5 ==> Split(name) == ws
    ensures var ws := Split(description);
            |ws| > 5 ==> Split(name) == ws[..4] + [ws[4] + Ellipsis]
  {
    var ws := Split(description);
    ShortenedWords(ws);
    Join(ws[..Min(5, |ws|)], Space) + (if |ws| > 5 then Ellipsis else "")
  }

  /** Appending text to a joined list appends it to the last word. */
  lemma {:induction false} JoinAppend(ws: seq<string>, t: string)
    requires |ws| > 0
    ensures Join(ws, Space) + t == Join(ws[..|ws| - 1] + [ws[|ws| - 1] + t], Space)
    decreases |ws|
  {
    if |ws| > 1 {
      var tail := ws[1..];
      JoinAppend(tail, t);
      var vs := ws[..|ws| - 1] + [ws[|ws| - 1] + t];
      assert vs[1..] == tail[..|tail| - 1] + [tail[|tail| - 1] + t];
      assert vs[0] == ws[0];
    }
  }

  // ---------------------------------------------------------------------
  // Capability de-duplication

  /** The grouping key: the lower-cased name. */
  function NameKey(c: Capability): string
  {
    Lower(c.name)
  }

  function NameKeys(caps: seq<Capability>): (r: seq<string>)
    ensures |r| == |caps|
    ensures forall i :: 0 <= i < |caps| ==> r[i] == NameKey(caps[i])
  {
    seq(|caps|, i requires 0 <= i < |caps| => NameKey(caps[i]))
  }

  /** The capabilities with one key, in input order. */
  function GroupOf(caps: seq<Capability>, key: string): (g: seq<Capability>)
    ensures forall i :: 0 <= i < |g| ==> NameKey(g[i]) == key && g[i] in caps
    ensures forall c :: c in caps && NameKey(c) == key ==> c in g
  {
    if |caps| == 0 then []
    else (if NameKey(caps[0]) == key then [caps[0]] else []) + GroupOf(caps[1..], key)
  }

  /** The first capability with the highest proficiency, as `max` with a key
      function picks it. */
  function Strongest(group: seq<Capability>): (k: nat)
    requires |group| > 0
    ensures k < |group|
    ensures forall j :: 0 <= j < |group| ==> group[j].proficiency <= group[k].proficiency
    ensures forall j :: 0 <= j < k ==> group[j].proficiency < group[k].proficiency
    decreases |group|
  {
    if |group| == 1 then 0
    else
      var init := group[..|group| - 1];
      var k := Strongest(init);
      assert forall j :: 0 <= j < |init| ==> init[j] == group[j];
      if group[|group| - 1].proficiency > group[k].proficiency then |group| - 1 else k
  }

  function AllEvidence(group: seq<Capability>): seq<string>
  {
    if |group| == 0 then [] else group[0].evidence + AllEvidence(group[1..])
  }

  /** Gathering evidence distributes over concatenation. */
  lemma {:induction false} AllEvidenceAppend(a: seq<Capability>, b: seq<Capability>)
    ensures AllEvidence(a + b) == AllEvidence(a) + AllEvidence(b)
    decreases |a|
  {
    if |a| > 0 {
      assert (a + b)[1..] == a[1..] + b;
      AllEvidenceAppend(a[1..], b);
      ConcatAssoc(a[0].evidence, AllEvidence(a[1..]), AllEvidence(b));
    } else {
      assert a + b == b;
    }
  }

  /** The evidence before position `k`, then member `k`'s, then the rest. */
  lemma AllEvidenceAround(group: seq<Capability>, k: nat)
    requires k < |group|
    ensures AllEvidence(group) == AllEvidence(group[..k]) + group[k].evidence + AllEvidence(group[k + 1..])
  {
    var tail := [group[k]] + group[k + 1..];
    SplitAround(group, k);
    AllEvidenceAppend(group[..k], tail);
    assert AllEvidence(tail) == group[k].evidence + AllEvidence(group[k + 1..]);
    ConcatAssoc(AllEvidence(group[..k]), group[k].evidence, AllEvidence(group[k + 1..]));
  }

  function SumConfidence(group: seq<Capability>): real
  {
    if |group| == 0 then 0.0 else group[0].confidence + SumConfidence(group[1..])
  }

  /** The mean of values that all lie in [lo, hi] lies there too. */
  lemma {:induction false} SumConfidenceBounds(group: seq<Capability>, lo: real, hi: real)
    requires forall i :: 0 <= i < |group| ==> lo <= group[i].confidence <= hi
    ensures lo * |group| as real <= SumConfidence(group) <= hi * |group| as real
    decreases |group|
  {
    if |group| > 0 {
      SumConfidenceBounds(group[1..], lo, hi);
    }
  }

  lemma MeanBetween(sum: real, n: real, lo: real, hi: real)
    requires n > 0.0 && lo * n <= sum <= hi * n
    ensures lo <= sum / n <= hi
  {
  }

  /** The merge as the code performs it. The winner's evidence list is
      replaced by an empty one and then extended with every member's
      evidence in turn; when the turn reaches the winner itself the list
      extends itself, so the evidence gathered so far is doubled and the
      winner's own evidence never enters. */
  function MergeGroupAsWritten(group: seq<Capability>): (c: Capability)
    requires |group| > 0
    ensures c == MergeGroup(group).(evidence := c.evidence)
    ensures |group| > 1 ==>
              var k := Strongest(group);
              && MergeGroup(group).evidence == AllEvidence(group[..k]) + group[k].evidence + AllEvidence(group[k + 1..])
              && c.evidence == AllEvidence(group[..k]) + AllEvidence(group[..k]) + AllEvidence(group[k + 1..])
  {
    if |group| == 1 then group[0]
    else
      var k := Strongest(group);
      AllEvidenceAround(group, k);
      var before := AllEvidence(group[..k]);
      group[k].(evidence := before + before + AllEvidence(group[k + 1..]),
                confidence := SumConfidence(group) / |group| as real)
  }

  /** The merge as intended: the strongest member, carrying every member's
      evidence in input order and the group's mean confidence. */
  function MergeGroup(group: seq<Capability>): (c: Capability)
    requires |group| > 0
    ensures c == group[Strongest(group)].(evidence := AllEvidence(group), confidence := c.confidence)
    ensures forall j :: 0 <= j < |group| ==> group[j].proficiency <= c.proficiency
    ensures |group| == 1 ==> c == group[0]
    ensures |group| > 1 ==> c.confidence == SumConfidence(group) / |group| as real
  {
    if |group| == 1 then
      assert AllEvidence(group) == group[0].evidence + [];
      group[0]
    else
      var k := Strongest(group);
      group[k].(evidence := AllEvidence(group),
                confidence := SumConfidence(group) / |group| as real)
  }

  /** Confidences in [0, 1] stay there after merging. */
  lemma MergedConfidenceInUnit(group: seq<Capability>)
    requires |group| > 0
    requires forall i :: 0 <= i < |group| ==> 0.0 <= group[i].confidence <= 1.0
    ensures 0.0 <= MergeGroup(group).confidence <= 1.0
  {
    if |group| > 1 {
      SumConfidenceBounds(group, 0.0, 1.0);
      MeanBetween(SumConfidence(group), |group| as real, 0.0, 1.0);
    }
  }

  /** The as-written merge loses evidence: "ROS" with evidence ["a"] at
      proficiency 0.5 and "ros" with ["b"] at 0.9 merge into ["a", "a"],
      where the intended merge keeps ["a", "b"]. */
  lemma MergeGroupAsWrittenLosesEvidence()
    ensures var weak := Capability("c1", Skill, "ROS", "", 0.5, 1.0, ["a"], Public, {}, map[]);
            var strong := Capability("c2", Skill, "ros", "", 0.9, 1.0, ["b"], Public, {}, map[]);
            && NameKey(weak) == NameKey(strong)
            && MergeGroupAsWritten([weak, strong]).evidence == ["a", "a"]
            && MergeGroup([weak, strong]).evidence == ["a", "b"]
  {
    var weak := Capability("c1", Skill, "ROS", "", 0.5, 1.0, ["a"], Public, {}, map[]);
    var strong := Capability("c2", Skill, "ros", "", 0.9, 1.0, ["b"], Public, {}, map[]);
    var g := [weak, strong];
    assert Lower("ROS") == "ros";
    assert Strongest(g) == 1 by {
      assert g[..1] == [weak];
    }
    assert g[..1] == [weak] && g[2..] == [];
    assert AllEvidence([weak]) == ["a"];
    assert AllEvidence(g) == ["a"] + AllEvidence([strong]);
  }

  /** The case-insensitive names, each once, in order of first occurrence. */
  function GroupKeys(caps: seq<Capability>): seq<string>
  {
    Unique(NameKeys(caps))
  }

  /** Every key names at least one capability. */
  lemma GroupsNonEmpty(caps: seq<Capability>)
    ensures forall i :: 0 <= i < |GroupKeys(caps)| ==> |GroupOf(caps, GroupKeys(caps)[i])| > 0
  {
    var keys := GroupKeys(caps);
    UniqueSpec(NameKeys(caps));
    forall i | 0 <= i < |keys| ensures |GroupOf(caps, keys[i])| > 0 {
      assert keys[i] in NameKeys(caps);
      var n :| 0 <= n < |caps| && NameKeys(caps)[n] == keys[i];
      assert caps[n] in GroupOf(caps, keys[i]);
    }
  }

  /** One merged capability per key of `GroupKeys`, position by position. */
  function MergeEach(caps: seq<Capability>): (r: seq<Capability>)
    ensures |r| == |GroupKeys(caps)|
    ensures forall i :: 0 <= i < |r| ==> |GroupOf(caps, GroupKeys(caps)[i])| > 0
    ensures forall i :: 0 <= i < |r| ==> r[i] == MergeGroup(GroupOf(caps, GroupKeys(caps)[i]))
  {
    var keys := GroupKeys(caps);
    GroupsNonEmpty(caps);
    seq(|keys|, i requires 0 <= i < |keys| => MergeGroup(GroupOf(caps, keys[i])))
  }

  /** The merged entries carry the keys they were merged under, so their
      names are the input's distinct names in order of first occurrence. */
  lemma MergeEachNames(caps: seq<Capability>)
    ensures NameKeys(MergeEach(caps)) == Unique(NameKeys(caps))
    ensures |MergeEach(caps)| <= |caps|
  {
    var keys := GroupKeys(caps);
    var r := MergeEach(caps);
    forall i | 0 <= i < |r| ensures NameKey(r[i]) == keys[i] {
      var g := GroupOf(caps, keys[i]);
      var k := Strongest(g);
      assert r[i].name == g[k].name;
    }
  }

  /** Each merged entry was merged under its own name. */
  lemma MergeEachGroups(caps: seq<Capability>)
    ensures forall i :: 0 <= i < |MergeEach(caps)| ==> NameKey(MergeEach(caps)[i]) == GroupKeys(caps)[i]
  {
    var r := MergeEach(caps);
    MergeEachNames(caps);
    forall i | 0 <= i < |r| ensures NameKey(r[i]) == GroupKeys(caps)[i] {
      assert NameKeys(r)[i] == NameKey(r[i]);
    }
  }

  /** Each merged entry dominates its group's proficiency. */
  lemma MergeEachDominates(caps: seq<Capability>)
    ensures forall i, c :: 0 <= i < |MergeEach(caps)| && c in GroupOf(caps, GroupKeys(caps)[i])
                           ==> c.proficiency <= MergeEach(caps)[i].proficiency
  {
    var r := MergeEach(caps);
    forall i, c | 0 <= i < |r| && c in GroupOf(caps, GroupKeys(caps)[i])
      ensures c.proficiency <= r[i].proficiency
    {
      var g := GroupOf(caps, GroupKeys(caps)[i]);
      var j :| 0 <= j < |g| && g[j] == c;
    }
  }

  /** `_deduplicate_capabilities` with the intended merge: one entry per
      case-insensitive name, in order of first occurrence; each entry is the
      most proficient capability of its group (the first such), carrying the
      evidence of the whole group and, for a real merge, the group's mean
      confidence. */
  function Deduplicate(caps: seq<Capability>): (r: seq<Capability>)
    ensures NameKeys(r) == Unique(NameKeys(caps))
    ensures |r| <= |caps|
    ensures forall i, c :: 0 <= i < |r| && c in caps && NameKey(c) == NameKey(r[i]) ==> c.proficiency <= r[i].proficiency
    ensures forall i :: 0 <= i < |r| ==> r[i].evidence == AllEvidence(GroupOf(caps, NameKey(r[i])))
    ensures forall i :: 0 <= i < |r| && |GroupOf(caps, NameKey(r[i]))| > 1 ==>
              r[i].confidence == SumConfidence(GroupOf(caps, NameKey(r[i]))) / |GroupOf(caps, NameKey(r[i]))| as real
    ensures forall i :: 0 <= i < |r| && |GroupOf(caps, NameKey(r[i]))| == 1 ==> r[i] in caps
    ensures forall i :: 0 <= i < |r| ==>
              |GroupOf(caps, NameKey(r[i]))| > 0 && r[i] == MergeGroup(GroupOf(caps, NameKey(r[i])))
  {
    MergeEachGroups(caps);
    MergeEachNames(caps);
    MergeEachDominates(caps);
    MergeEach(caps)
  }

  /** `_deduplicate_capabilities` as written: the same entries as the
      intended version except for their evidence lists. */
  function DeduplicateAsWritten(caps: seq<Capability>): (r: seq<Capability>)
    ensures |r| == |Deduplicate(caps)|
    ensures forall i :: 0 <= i < |r| ==> r[i] == Deduplicate(caps)[i].(evidence := r[i].evidence)
  {
    var keys := GroupKeys(caps);
    GroupsNonEmpty(caps);
    seq(|keys|, i requires 0 <= i < |keys| => MergeGroupAsWritten(GroupOf(caps, keys[i])))
  }

  // ---------------------------------------------------------------------
  // Problem analysis

  /** `analyze_problem`: the structured need built from the helpers above;
      the need's type is the first required type and its tags are the first
      five concepts. The id and the serialized context are parameters. */
  method AnalyzeProblem(id: string, description: string, context: map<string, Value>, contextText: string)
    returns (need: Need)
    ensures need.kind == RequiredCapabilities(description)[0]
    ensures need.description == description && need.name == NeedName(description)
    ensures |need.tags| <= 5
    ensures forall t :: t in need.tags ==> t in ExtractConcepts(description)
    ensures need.tags == Elements(ExtractConcepts(description)[..Min(5, |ExtractConcepts(description)|)])
    ensures need.domain == Other <==> forall k :: 0 <= k < |DomainKeywords| ==> Hits(k, description) == 0
    ensures need.domain != Other ==>
              exists k :: 0 <= k < |DomainKeywords| && DomainKeywords[k].0 == need.domain && FirstBest(k, description)
    ensures need.id == id && need.context == contextText
    ensures (need.urgency, need.importance) == AssessPriority(description)
    ensures need.constraints == ExtractConstraints(description, context)
  {
    var domain, _ := ClassifyDomain(description);
    var concepts := ExtractConcepts(description);
    var top := concepts[..Min(5, |concepts|)];
    var tags := Elements(top);
    assert |tags| <= 5 by {
      CardAtMostLength(top);
    }
    var priority := AssessPriority(description);
    need := Need(id, RequiredCapabilities(description)[0], NeedName(description), description,
                 priority.0, priority.1, domain, contextText, ExtractConstraints(description, context), tags);
  }

  /** A sequence has at least as many positions as distinct elements. */
  lemma {:induction false} CardAtMostLength(s: seq<string>)
    ensures |Elements(s)| <= |s|
    decreases |s|
  {
    if |s| > 0 {
      CardAtMostLength(s[1..]);
      assert Elements(s) == Elements(s[1..]) + {s[0]};
    }
  }

  // ---------------------------------------------------------------------
  // Profile confidence and recommendation

  /** How many of location, timezone, domains and capabilities are filled in. */
  function FilledFields(p: UserProfile): (n: nat)
    ensures n <= 4
  {
    (if Present(p.locationRegion) then 1 else 0) + (if Present(p.timezone) then 1 else 0)
    + (if p.domains != {} then 1 else 0) + (if |p.capabilities| > 0 then 1 else 0)
  }

  /** `_assess_profile_confidence`: the mean of the capability count over 10
      (capped at 1) and the fraction of filled fields. */
  function ProfileConfidence(p: UserProfile): (c: real)
    ensures 0.0 <= c <= 1.0
    ensures c == 1.0 <==> |p.capabilities| >= 10 && FilledFields(p) == 4
    ensures c == 0.0 <==> FilledFields(p) == 0
  {
    var coverage := MinReal(1.0, |p.capabilities| as real / 10.0);
    (coverage + FilledFields(p) as real / 4.0) / 2.0
  }

  const HighlyRecommended: string := "Highly recommended - strong alignment and feasibility"
  const Recommended: string := "Recommended - good potential, review concerns"
  const ConsiderCarefully: string := "Consider carefully - moderate match quality"
  const NotRecommended: string := "Not recommended - low alignment or feasibility"

  /** `_generate_recommendation`: bands on the mean of alignment and
      feasibility; the top band also demands that there be no concerns. */
  function Recommendation(alignment: real, feasibility: real, concerns: seq<string>): (s: string)
    ensures s == HighlyRecommended <==> (alignment + feasibility) / 2.0 >= 0.8 && |concerns| == 0
    ensures s == Recommended <==>
              (alignment + feasibility) / 2.0 >= 0.6 && !((alignment + feasibility) / 2.0 >= 0.8 && |concerns| == 0)
    ensures s == ConsiderCarefully <==> 0.4 <= (alignment + feasibility) / 2.0 < 0.6
    ensures s == NotRecommended <==> (alignment + feasibility) / 2.0 < 0.4
  {
    var overall := (alignment + feasibility) / 2.0;
    if overall >= 0.8 && |concerns| == 0 then HighlyRecommended
    else if overall >= 0.6 then Recommended
    else if overall >= 0.4 then ConsiderCarefully
    else NotRecommended
  }

  /** A concern costs at most one band: a strong match with concerns is
      still recommended. */
  lemma ConcernsCostOneBand(alignment: real, feasibility: real, concerns: seq<string>)
    requires (alignment + feasibility) / 2.0 >= 0.8 && |concerns| > 0
    ensures Recommendation(alignment, feasibility, concerns) == Recommended
  {
  }
}

=== FILE: scoring.dfy ===
/** The two sub-scores that the lexical and the semantic matcher compute the
    same way: the keyword Jaccard similarity of a need and a capability, and the
    complementarity of two users' capability sets around a 20 % overlap target. */
module Scoring {

  import opened Base
  import opened Text
  import opened Models

  // ---------------------------------------------------------------------
  // Set cardinality facts

  lemma SubsetCard<T>(a: set<T>, b: set<T>)
    requires a <= b
    ensures |a| <= |b|
    ensures |a| == |b| ==> a == b
  {
    SubsetCardStrict(a, b);
    if |a| == |b| && a != b {
      var x :| x in b && x !in a;
      assert a <= b - {x};
      SubsetCardStrict(a, b - {x});
    }
  }

  lemma SubsetCardStrict<T>(a: set<T>, b: set<T>)
    requires a <= b
    ensures |a| <= |b|
  {
    assert b == a + (b - a);
  }

  lemma CommonElement<T>(a: set<T>, b: set<T>)
    ensures (exists x :: x in a && x in b) <==> a * b != {}
  {
    if a * b != {} {
      var x :| x in a * b;
      assert x in a && x in b;
    } else {
      forall x | x in a
        ensures x !in b
      {
        assert x !in a * b;
      }
    }
  }

  // ---------------------------------------------------------------------
  // Jaccard similarity

  /** `|a ∩ b| / |a ∪ b|`, and 0 when either side is empty. */
  function Jaccard(a: set<string>, b: set<string>): (r: real)
    ensures 0.0 <= r <= 1.0
    ensures a == {} || b == {} ==> r == 0.0
    ensures r > 0.0 <==> a * b != {}
    ensures r == 1.0 <==> a != {} && a == b
  {
    if a == {} || b == {} then 0.0
    else
      JaccardCounts(a, b);
      (|a * b| as real) / (|a + b| as real)
  }

  lemma JaccardCounts<T>(a: set<T>, b: set<T>)
    requires a != {}
    ensures 0 < |a + b|
    ensures |a * b| <= |a + b|
    ensures |a * b| == |a + b| <==> a == b
  {
    SubsetCard(a, a + b);
    SubsetCard(a * b, a + b);
    if |a * b| == |a + b| {
      assert a == b by {
        assert forall x :: x in a ==> x in a * b;
        assert forall x :: x in b ==> x in a * b;
      }
    }
    if a == b {
      assert a * b == a + b;
    }
  }

  lemma JaccardSymmetric(a: set<string>, b: set<string>)
    ensures Jaccard(a, b) == Jaccard(b, a)
  {
    assert a * b == b * a;
    assert a + b == b + a;
  }

  /** The words of a name and description together with a tag set
      (`set(name.lower().split() + description.lower().split())` updated with the tags). */
  function TermSet(name: string, description: string, tags: set<string>): set<string>
  {
    Elements(Words(name) + Words(description)) + tags
  }

  function NeedTerms(n: Need): set<string> { TermSet(n.name, n.description, n.tags) }

  function CapabilityTerms(c: Capability): set<string> { TermSet(c.name, c.description, c.tags) }

  /** Keyword similarity of a need and a capability (the lexical matcher's
      `_compute_semantic_similarity` and the semantic matcher's `_keyword_similarity`). */
  function KeywordSimilarity(n: Need, c: Capability): (r: real)
    ensures 0.0 <= r <= 1.0
    ensures NeedTerms(n) == {} || CapabilityTerms(c) == {} ==> r == 0.0
    ensures r > 0.0 <==> exists w :: w in NeedTerms(n) && w in CapabilityTerms(c)
    ensures r == 1.0 <==> NeedTerms(n) != {} && NeedTerms(n) == CapabilityTerms(c)
  {
    CommonElement(NeedTerms(n), CapabilityTerms(c));
    Jaccard(NeedTerms(n), CapabilityTerms(c))
  }

  // ---------------------------------------------------------------------
  // Complementarity

  /** The `(type.value, name)` pairs that identify a user's capabilities. */
  function CapabilityKeys(p: UserProfile): set<(string, string)>
  {
    set i | 0 <= i < |p.capabilities| :: (p.capabilities[i].kind.Value(), p.capabilities[i].name)
  }

  /** The overlap target: 20 % shared capabilities. */
  const OptimalOverlap: real := 0.2

  /** `clamp(1 - 2·|ratio - 0.2|, 0, 1)` */
  function ComplementarityOfRatio(ratio: real): (r: real)
    ensures 0.0 <= r <= 1.0
    ensures r == 1.0 <==> ratio == OptimalOverlap
  {
    Clamp(1.0 - AbsReal(ratio - OptimalOverlap) * 2.0, 0.0, 1.0)
  }

  function OverlapRatio(a: set<(string, string)>, b: set<(string, string)>): (r: real)
    requires a + b != {}
    ensures 0.0 <= r <= 1.0
    ensures r == 0.0 <==> a * b == {}
  {
    SubsetCard(a * b, a + b);
    (|a * b| as real) / (|a + b| as real)
  }

  /** `_compute_complementarity` of both matchers: neutral 0.5 when neither
      user has a capability, otherwise the distance of the overlap ratio from 20 %. */
  function Complementarity(p1: UserProfile, p2: UserProfile): (r: real)
    ensures 0.0 <= r <= 1.0
    ensures CapabilityKeys(p1) + CapabilityKeys(p2) == {} ==> r == 0.5
    ensures r == 1.0 <==> CapabilityKeys(p1) + CapabilityKeys(p2) != {}
                          && OverlapRatio(CapabilityKeys(p1), CapabilityKeys(p2)) == OptimalOverlap
  {
    var a := CapabilityKeys(p1);
    var b := CapabilityKeys(p2);
    if a + b == {} then 0.5 else ComplementarityOfRatio(OverlapRatio(a, b))
  }

  /** Two users with no capability in common but at least one between them
      score 0.6, also when only one of them has any capabilities. */
  lemma DisjointComplementarity(p1: UserProfile, p2: UserProfile)
    requires CapabilityKeys(p1) + CapabilityKeys(p2) != {}
    requires CapabilityKeys(p1) * CapabilityKeys(p2) == {}
    ensures Complementarity(p1, p2) == 0.6
  {
  }

  /** The neutral value 0.5 is not reserved for empty profiles: an overlap
      ratio of 9/20 scores 0.5 as well. */
  lemma ComplementarityHalf(p1: UserProfile, p2: UserProfile)
    ensures Complementarity(p1, p2) == 0.5 <==>
      (CapabilityKeys(p1) + CapabilityKeys(p2) == {}
       || OverlapRatio(CapabilityKeys(p1), CapabilityKeys(p2)) == 0.45)
  {
  }

  /** Complementarity peaks at a 20 % overlap and does not increase as the
      ratio moves away from it in either direction. */
  lemma ComplementarityUnimodal(r1: real, r2: real)
    ensures r1 <= r2 <= OptimalOverlap ==> ComplementarityOfRatio(r1) <= ComplementarityOfRatio(r2)
    ensures OptimalOverlap <= r1 <= r2 ==> ComplementarityOfRatio(r1) >= ComplementarityOfRatio(r2)
    ensures ComplementarityOfRatio(r1) <= ComplementarityOfRatio(OptimalOverlap)
  {
  }
}

=== FILE: security.dfy ===
/** Access control with its audit trail, and the anonymization of shared
    capabilities: `AccessControl.can_access`, `AuditLogger.log_access` and
    `get_user_audit_log`, and `AnonymizationEngine`'s capability
    sanitization. The SHA-256 digest is a parameter (`sha`); identifiers are
    stored as its first 16 characters. */
module Security {

  import opened Base
  import opened Text

  const HashLength: nat := 16

  const Success: string := "success"
  const Denied: string := "denied"
  const ResourceMatch: string := "match"
  const OwnData: string := "User accessing own data"
  const PartyToMatch: string := "User is party to match"
  const NotAuthorized: string := "User not authorized for this resource"

  /** The stored form of an identifier: a truncated digest. */
  function Hashed(sha: string -> string, id: string): (h: string)
    ensures |h| <= HashLength
  {
    Prefix(sha(id), HashLength)
  }

  // ---------------------------------------------------------------------
  // Audit log

  /** One audit entry; the timestamp and log id are parameters of the call
      that makes it. */
  datatype LogEntry = LogEntry(
    timestamp: int,
    userIdHash: string,
    resourceType: string,
    resourceIdHash: string,
    operation: string,
    result: string,
    reason: string,
    ipHash: Option<string>,
    logId: string)

  /** The append-only log. */
  datatype AuditLogger = AuditLogger(logs: seq<LogEntry>)

  /** `log_access`: one entry appended, identifiers hashed, the IP hashed
      only when one was given. */
  function LogAccess(a: AuditLogger, sha: string -> string, userId: string, resourceType: string,
                     resourceId: string, operation: string, result: string, reason: string,
                     ipAddress: Option<string>, now: int, logId: string): (r: (AuditLogger, LogEntry))
    ensures r.0.logs == a.logs + [r.1]
    ensures r.1.userIdHash == Hashed(sha, userId) && r.1.resourceIdHash == Hashed(sha, resourceId)
    ensures r.1.resourceType == resourceType && r.1.operation == operation
    ensures r.1.result == result && r.1.reason == reason
    ensures r.1.ipHash.Some? <==> Present(ipAddress)
    ensures Present(ipAddress) ==> r.1.ipHash == Some(Hashed(sha, ipAddress.value))
    ensures r.1.timestamp == now && r.1.logId == logId
  {
    var entry := LogEntry(now, Hashed(sha, userId), resourceType, Hashed(sha, resourceId), operation,
                          result, reason, if Present(ipAddress) then Some(Hashed(sha, ipAddress.value)) else None,
                          logId);
    (AuditLogger(a.logs + [entry]), entry)
  }

  /** The entries carrying a given user hash, in append order. */
  function EntriesFor(logs: seq<LogEntry>, userHash: string): (r: seq<LogEntry>)
    ensures |r| <= |logs|
    ensures forall i :: 0 <= i < |r| ==> r[i].userIdHash == userHash && r[i] in logs
    ensures forall e :: e in logs && e.userIdHash == userHash ==> e in r
  {
    if |logs| == 0 then []
    else (if logs[0].userIdHash == userHash then [logs[0]] else []) + EntriesFor(logs[1..], userHash)
  }

  /** `get_user_audit_log`: every entry logged for the user, and only those. */
  function UserAuditLog(a: AuditLogger, sha: string -> string, userId: string): (r: seq<LogEntry>)
    ensures |r| <= |a.logs|
    ensures forall i :: 0 <= i < |r| ==> r[i].userIdHash == Hashed(sha, userId) && r[i] in a.logs
    ensures forall e :: e in a.logs && e.userIdHash == Hashed(sha, userId) ==> e in r
  {
    EntriesFor(a.logs, Hashed(sha, userId))
  }

  lemma {:induction false} EntriesForAppend(logs: seq<LogEntry>, e: LogEntry, userHash: string)
    ensures EntriesFor(logs + [e], userHash)
            == EntriesFor(logs, userHash) + (if e.userIdHash == userHash then [e] else [])
    decreases |logs|
  {
    if |logs| == 0 {
      assert [e][1..] == [];
    } else {
      assert (logs + [e])[1..] == logs[1..] + [e];
      EntriesForAppend(logs[1..], e, userHash);
    }
  }

  // ---------------------------------------------------------------------
  // Access control

  /** `can_access`: the owner may always act on their own data; any user
      may act on a resource of type "match"; everyone else is denied. Every
      call appends exactly one audit entry, whose result is "success" when
      access is allowed and "denied" otherwise. */
  function CanAccess(a: AuditLogger, sha: string -> string, requester: string, resourceType: string,
                     resourceId: string, owner: string, operation: string, now: int, logId: string)
    : (r: (AuditLogger, (bool, string)))
    ensures r.1.0 <==> requester == owner || resourceType == ResourceMatch
    ensures r.1.1 == (if requester == owner then OwnData
                      else if resourceType == ResourceMatch then PartyToMatch else NotAuthorized)
    ensures |r.0.logs| == |a.logs| + 1 && r.0.logs[..|a.logs|] == a.logs
    ensures var e := r.0.logs[|a.logs|];
            && (e.result == Success <==> r.1.0) && (e.result == Denied <==> !r.1.0)
            && e.reason == r.1.1 && e.userIdHash == Hashed(sha, requester)
            && e.resourceType == resourceType && e.operation == operation
  {
    var allowed := requester == owner || resourceType == ResourceMatch;
    var reason := if requester == owner then OwnData
                  else if resourceType == ResourceMatch then PartyToMatch else NotAuthorized;
    var logged := LogAccess(a, sha, requester, resourceType, resourceId, operation,
                            if allowed then Success else Denied, reason, None, now, logId);
    assert logged.0.logs[..|a.logs|] == a.logs;
    (logged.0, (allowed, reason))
  }

  /** A sequence of access checks, each with its own clock reading and log id. */
  datatype Request = Request(requester: string, resourceType: string, resourceId: string, owner: string,
                             operation: string, now: int, logId: string)

  function CanAccessAll(a: AuditLogger, sha: string -> string, reqs: seq<Request>): (r: AuditLogger)
    decreases |reqs|
  {
    if |reqs| == 0 then a
    else
      var q := reqs[0];
      CanAccessAll(CanAccess(a, sha, q.requester, q.resourceType, q.resourceId, q.owner, q.operation,
                             q.now, q.logId).0, sha, reqs[1..])
  }

  /** The log only grows, by exactly one entry per call, and what was
      there stays. */
  lemma {:induction false} AuditLogIsAppendOnly(a: AuditLogger, sha: string -> string, reqs: seq<Request>)
    ensures |CanAccessAll(a, sha, reqs).logs| == |a.logs| + |reqs|
    ensures CanAccessAll(a, sha, reqs).logs[..|a.logs|] == a.logs
    decreases |reqs|
  {
    if |reqs| > 0 {
      var q := reqs[0];
      var a' := CanAccess(a, sha, q.requester, q.resourceType, q.resourceId, q.owner, q.operation,
                          q.now, q.logId).0;
      AuditLogIsAppendOnly(a', sha, reqs[1..]);
      var final := CanAccessAll(a', sha, reqs[1..]).logs;
      assert final[..|a.logs|] == final[..|a'.logs|][..|a.logs|];
    }
  }

  /** A check appears in the requester's own audit view, at the end, and in
      no view of a user with a different hash. */
  lemma AccessShowsInOwnLog(a: AuditLogger, sha: string -> string, requester: string, resourceType: string,
                            resourceId: string, owner: string, operation: string, now: int, logId: string,
                            viewer: string)
    ensures var a' := CanAccess(a, sha, requester, resourceType, resourceId, owner, operation, now, logId).0;
            && |UserAuditLog(a', sha, requester)| == |UserAuditLog(a, sha, requester)| + 1
            && UserAuditLog(a', sha, requester)[..|UserAuditLog(a, sha, requester)|] == UserAuditLog(a, sha, requester)
            && (Hashed(sha, viewer) != Hashed(sha, requester) ==>
                  UserAuditLog(a', sha, viewer) == UserAuditLog(a, sha, viewer))
  {
    var a' := CanAccess(a, sha, requester, resourceType, resourceId, owner, operation, now, logId).0;
    var e := a'.logs[|a.logs|];
    assert a'.logs == a.logs + [e];
    EntriesForAppend(a.logs, e, Hashed(sha, requester));
    EntriesForAppend(a.logs, e, Hashed(sha, viewer));
  }

  /** Any user may read any match, whoever owns it. */
  lemma AnyoneMayAccessAMatch(a: AuditLogger, sha: string -> string, requester: string, resourceId: string,
                              owner: string, operation: string, now: int, logId: string)
    ensures CanAccess(a, sha, requester, ResourceMatch, resourceId, owner, operation, now, logId).1.0
  {
  }

  // ---------------------------------------------------------------------
  // Anonymization

  const KeyName: string := "name"
  const KeyOrganization: string := "organization"
  const KeyLocation: string := "location"
  const KeySpecificProjects: string := "specific_projects"
  const KeyDescription: string := "description"
  const GeneralizedHead: string := "[Generalized] "
  const GeneralizedTail: string := "..."
  const NotAString: string := "description is not a string"

  /** The fields the sanitizer removes. */
  predicate Identifying(k: string)
  {
    k == KeyName || k == KeyOrganization || k == KeyLocation || k == KeySpecificProjects
  }

  /** `_generalize_description`: a marker, the first 100 characters, an ellipsis. */
  function GeneralizeDescription(description: string): (r: string)
    ensures |r| == |GeneralizedHead| + Min(100, |description|) + |GeneralizedTail|
    ensures r[..|GeneralizedHead|] == GeneralizedHead
    ensures r[|GeneralizedHead|..|GeneralizedHead| + Min(100, |description|)] == description[..Min(100, |description|)]
    ensures r[|GeneralizedHead| + Min(100, |description|)..] == GeneralizedTail
  {
    GeneralizedHead + Prefix(description, 100) + GeneralizedTail
  }

  /** Short descriptions pass through whole: a description of at most 100
      characters is contained verbatim in its "generalized" form. */
  lemma ShortDescriptionsSurvive(description: string)
    requires |description| <= 100
    ensures Contains(GeneralizeDescription(description), description)
  {
    var r := GeneralizeDescription(description);
    var i := |GeneralizedHead|;
    assert OccursAt(r, description, i) by {
      assert r[i..i + |description|] == description;
    }
  }

  /** `sanitize_capability_for_anonymity` on a capability dictionary: the
      identifying fields are dropped, a string description is generalized,
      everything else is copied. A description that is not a string is
      rejected. */
  function SanitizeCapability(cap: map<string, Value>): (r: Result<map<string, Value>>)
    ensures r.Err? <==> KeyDescription in cap && !cap[KeyDescription].VStr?
    ensures r.Ok? ==> forall k :: Identifying(k) ==> k !in r.value
    ensures r.Ok? ==> forall k :: !Identifying(k) ==> (k in r.value <==> k in cap)
    ensures r.Ok? ==> forall k :: k in cap && !Identifying(k) && k != KeyDescription ==> r.value[k] == cap[k]
    ensures r.Ok? && KeyDescription in cap ==>
              KeyDescription in r.value && r.value[KeyDescription] == VStr(GeneralizeDescription(cap[KeyDescription].s))
  {
    var kept := map k | k in cap && !Identifying(k) :: cap[k];
    if KeyDescription !in cap then Ok(kept)
    else if !cap[KeyDescription].VStr? then Err(NotAString)
    else Ok(kept[KeyDescription := VStr(GeneralizeDescription(cap[KeyDescription].s))])
  }

  /** Sanitizing is not idempotent: a second pass generalizes the already
      generalized description again, so the marker appears twice. */
  lemma SanitizeTwiceStacksMarkers(cap: map<string, Value>)
    requires KeyDescription in cap && cap[KeyDescription].VStr?
    ensures SanitizeCapability(cap).Ok?
    ensures SanitizeCapability(SanitizeCapability(cap).value).Ok?
    ensures var d := SanitizeCapability(SanitizeCapability(cap).value).value[KeyDescription].s;
            d[..|GeneralizedHead|] == GeneralizedHead
            && d[|GeneralizedHead|..2 * |GeneralizedHead|] == GeneralizedHead
  {
    var once := SanitizeCapability(cap).value;
    var d1 := once[KeyDescription].s;
    assert |d1| >= |GeneralizedHead|;
    GeneralizedKeepsHead(d1);
  }

  /** A description at least as long as the marker keeps its first marker-length
      characters right after the new marker. */
  lemma GeneralizedKeepsHead(d: string)
    requires |d| >= |GeneralizedHead|
    ensures GeneralizeDescription(d)[|GeneralizedHead|..2 * |GeneralizedHead|] == d[..|GeneralizedHead|]
  {
  }
}

=== FILE: semantic.dfy ===
/** The semantic matcher (`SemanticMatcher`) with in-memory storage: what
    indexing stores, the keyword-fallback and embedding retrieval over that
    store, the four-part weighted score, confidence and uncertainty, and the
    filter/rank/truncate of `find_matches`. Embeddings are opaque: the need's
    vector and each capability's cosine similarity to it are parameters. */
module Semantic {

  import opened Base
  import opened Text
  import opened Models
  import opened Scoring
  import opened Ranking
  import Matching

  // ---------------------------------------------------------------------
  // Names and messages the matcher writes into provenance and matches

  const ScoringGraph: string := "semantic_match_scoring"
  const MatchingGraph: string := "semantic_capability_match"
  const OpEmbedding: string := "need_embedding_generation"
  const OpMemoryQuery: string := "memory_query"
  const OpSimilarity: string := "semantic_similarity"
  const OpRanking: string := "ranking"
  const KeyNeedDescription: string := "need_description"
  const KeyEmbeddingGenerated: string := "embedding_generated"
  const KeyCandidatesFound: string := "candidates_found"
  const KeySimilarity: string := "similarity"
  const KeyTotalMatches: string := "total_matches"
  const KeyTopMatchScore: string := "top_match_score"
  const KeyReturnedMatches: string := "returned_matches"
  const EmbeddingReasoning: string := "Generated semantic embedding to capture meaning of the need"
  const MemoryReasoningHead: string := "Searched in-memory storage, found "
  const MemoryReasoningTail: string := " candidates"
  const SimilarityReasoning: string := "Computed deep semantic similarity using embeddings (not just keywords)"
  const RankingReasoning: string := "Ranked by semantic similarity + complementarity + proficiency + feasibility"
  const TopicSemantic: string := "Semantic similarity"
  const TopicComplementarity: string := "Complementarity"
  const TopicProficiency: string := "Proficiency"
  const TopicFeasibility: string := "Feasibility"
  const ReviewDescription: string := "Review the capability description for alignment"
  const CheckSimilarity: string := "Check if semantic similarity score makes sense"
  const VerifyProficiency: string := "Verify proficiency level is adequate"
  const NoEmbeddings: string := "No embeddings available (keyword fallback)"
  const LimitedHistory: string := "Limited historical data for calibration"
  const AmbiguousTruth: string := "The truth value of an array with more than one element is ambiguous"

  // ---------------------------------------------------------------------
  // Configuration and state

  datatype SemanticConfig = SemanticConfig(
    minMatchScore: real,
    maxMatchesPerNeed: int,
    similarityThreshold: real,
    weightSemantic: real,
    weightComplementarity: real,
    weightProficiency: real,
    weightFeasibility: real)

  /** `SemanticMatchingConfig()` */
  const DefaultSemanticConfig: SemanticConfig := SemanticConfig(0.4, 10, 0.3, 0.4, 0.3, 0.2, 0.1)

  /** An embedding vector, as the sentence encoder returns it. */
  type Embedding = seq<real>

  /** `embeddingsAvailable` says whether the sentence-embedding model loaded;
      `memory` is `memory_capabilities` without the stored vectors. */
  datatype SemanticMatcher = SemanticMatcher(
    config: SemanticConfig,
    embeddingsAvailable: bool,
    memory: seq<Matching.Entry>,
    history: seq<Match>)

  function NewMatcher(config: Option<SemanticConfig>, embeddingsAvailable: bool): (m: SemanticMatcher)
    ensures config.Some? ==> m.config == config.value
    ensures config.None? ==> m.config == DefaultSemanticConfig
    ensures m.embeddingsAvailable == embeddingsAvailable && m.memory == [] && m.history == []
  {
    SemanticMatcher(if config.Some? then config.value else DefaultSemanticConfig, embeddingsAvailable, [], [])
  }

  /** The entries `index_user_profile` files for a profile, one per capability. */
  function EntriesOf(p: UserProfile): (es: seq<Matching.Entry>)
    ensures |es| == |p.capabilities|
    ensures forall i :: 0 <= i < |es| ==> es[i] == Matching.Entry(p, p.capabilities[i])
  {
    seq(|p.capabilities|, i requires 0 <= i < |p.capabilities| => Matching.Entry(p, p.capabilities[i]))
  }

  /** `index_user_profile`: a capability is stored only when an embedding was
      generated for it, that is, only when the embedding model is loaded. */
  function IndexProfile(m: SemanticMatcher, p: UserProfile): (r: SemanticMatcher)
    ensures r.config == m.config && r.embeddingsAvailable == m.embeddingsAvailable && r.history == m.history
    ensures !m.embeddingsAvailable ==> r.memory == m.memory
    ensures m.embeddingsAvailable ==>
              && |r.memory| == |m.memory| + |p.capabilities|
              && r.memory[..|m.memory|] == m.memory
              && forall i :: 0 <= i < |p.capabilities| ==>
                   r.memory[|m.memory| + i] == Matching.Entry(p, p.capabilities[i])
  {
    m.(memory := m.memory + (if m.embeddingsAvailable then EntriesOf(p) else []))
  }

  /** `learn_from_outcome`: the outcome is appended to the history and
      nothing else is updated, whatever `success` says. */
  function LearnFromOutcome(m: SemanticMatcher, outcome: Match, success: bool): (r: SemanticMatcher)
    ensures |r.history| == |m.history| + 1 && r.history[|m.history|] == outcome
    ensures r.history[..|m.history|] == m.history
    ensures r.config == m.config && r.embeddingsAvailable == m.embeddingsAvailable && r.memory == m.memory
  {
    m.(history := m.history + [outcome])
  }

  /** Without an embedding model nothing is ever stored. */
  predicate StorageConsistent(m: SemanticMatcher)
  {
    !m.embeddingsAvailable ==> m.memory == []
  }

  /** Every operation keeps the store empty when the model is missing. */
  lemma StorageStaysEmptyWithoutEmbeddings(m: SemanticMatcher, config: Option<SemanticConfig>,
                                           available: bool, p: UserProfile, outcome: Match, success: bool)
    requires StorageConsistent(m)
    ensures StorageConsistent(NewMatcher(config, available))
    ensures StorageConsistent(IndexProfile(m, p))
    ensures StorageConsistent(LearnFromOutcome(m, outcome, success))
  {
  }

  // ---------------------------------------------------------------------
  // Retrieval from the in-memory store

  /** The stored entries that `keep` accepts, in store order. */
  function Select(es: seq<Matching.Entry>, keep: Matching.Entry -> bool): (r: seq<Matching.Entry>)
    ensures |r| <= |es|
    ensures forall i :: 0 <= i < |r| ==> keep(r[i]) && r[i] in es
    decreases |es|
  {
    if |es| == 0 then []
    else (if keep(es[0]) then [es[0]] else []) + Select(es[1..], keep)
  }

  /** Selection misses no accepted entry. */
  lemma {:induction false} SelectKeepsAccepted(es: seq<Matching.Entry>, keep: Matching.Entry -> bool)
    ensures forall e :: e in es && keep(e) ==> e in Select(es, keep)
    decreases |es|
  {
    if |es| > 0 {
      SelectKeepsAccepted(es[1..], keep);
      assert es == [es[0]] + es[1..];
    }
  }

  /** The keyword fallback's test: another user's capability of the need's
      type, or one sharing at least one tag with the need. */
  predicate KeywordCandidate(e: Matching.Entry, need: Need, requester: UserProfile)
  {
    e.profile.userId != requester.userId
    && (e.capability.kind == need.kind || need.tags * e.capability.tags != {})
  }

  /** The keyword branch of `_query_memory`. */
  function KeywordQuery(memory: seq<Matching.Entry>, need: Need, requester: UserProfile): (r: seq<Matching.Entry>)
    ensures forall i :: 0 <= i < |r| ==> r[i] in memory && r[i].profile.userId != requester.userId
    ensures forall i :: 0 <= i < |r| ==>
              r[i].capability.kind == need.kind || need.tags * r[i].capability.tags != {}
  {
    Select(memory, e => KeywordCandidate(e, need, requester))
  }

  /** The fallback retrieves a stored entry exactly when it belongs to
      another user and matches the need's type or shares one of its tags. */
  lemma KeywordQueryExact(memory: seq<Matching.Entry>, need: Need, requester: UserProfile, e: Matching.Entry)
    ensures e in KeywordQuery(memory, need, requester) <==> e in memory && KeywordCandidate(e, need, requester)
  {
    SelectKeepsAccepted(memory, e => KeywordCandidate(e, need, requester));
  }

  /** The embedding branch of `_query_memory`: another user's capability
      whose cosine similarity to the need reaches the threshold. */
  function EmbeddingQuery(memory: seq<Matching.Entry>, requester: UserProfile, cosine: Capability -> real,
                          threshold: real): (r: seq<Matching.Entry>)
    ensures forall i :: 0 <= i < |r| ==>
              r[i] in memory && r[i].profile.userId != requester.userId && cosine(r[i].capability) >= threshold
  {
    Select(memory, (e: Matching.Entry) => e.profile.userId != requester.userId && cosine(e.capability) >= threshold)
  }

  /** `_query_memory` without its provenance step. */
  function QueryMemory(m: SemanticMatcher, needEmbedding: Option<Embedding>, need: Need, requester: UserProfile,
                       cosine: Capability -> real): (r: seq<Matching.Entry>)
    ensures forall i :: 0 <= i < |r| ==> r[i] in m.memory && r[i].profile.userId != requester.userId
    ensures m.memory == [] ==> r == []
  {
    if needEmbedding.Some? then EmbeddingQuery(m.memory, requester, cosine, m.config.similarityThreshold)
    else KeywordQuery(m.memory, need, requester)
  }

  // ---------------------------------------------------------------------
  // Sub-scores

  /** `_compute_feasibility`: only differing timezones and urgency cost
      anything, 10 % each. */
  function Feasibility(needUser: UserProfile, capUser: UserProfile, need: Need): (f: real)
    ensures f == 1.0 || f == 0.9 || f == 0.81
    ensures f == 1.0 <==> !Matching.TimezonesDiffer(needUser, capUser) && !Matching.IsUrgent(need)
    ensures f == 0.81 <==> Matching.TimezonesDiffer(needUser, capUser) && Matching.IsUrgent(need)
  {
    Matching.Penalty(Matching.TimezonesDiffer(needUser, capUser), 0.9) * Matching.Penalty(Matching.IsUrgent(need), 0.9)
  }

  /** Availability and budget play no part, unlike in the lexical matcher. */
  lemma FeasibilityIgnoresAvailabilityAndBudget(needUser: UserProfile, capUser: UserProfile, need: Need,
                                                a1: map<string, Value>, a2: map<string, Value>,
                                                constraints: map<string, Value>)
    ensures Feasibility(needUser.(availability := a1), capUser.(availability := a2), need.(constraints := constraints))
         == Feasibility(needUser, capUser, need)
  {
  }

  /** The lexical matcher's feasibility never exceeds the semantic one: it
      penalises the same conditions at least as hard and adds two more. */
  lemma LexicalFeasibilityNoHigher(needUser: UserProfile, capUser: UserProfile, need: Need)
    ensures Matching.Feasibility(needUser, capUser, need) <= Feasibility(needUser, capUser, need)
  {
    var a := Matching.Penalty(Matching.TimezonesDiffer(needUser, capUser), 0.8);
    var b := Matching.Penalty(Matching.BothAvailable(needUser, capUser), 0.9);
    var c := Matching.Penalty(Matching.HasBudget(need), 0.95);
    var d := Matching.Penalty(Matching.IsUrgent(need), 0.9);
    var a' := Matching.Penalty(Matching.TimezonesDiffer(needUser, capUser), 0.9);
    assert 0.0 < a <= a' <= 1.0 && 0.0 < b <= 1.0 && 0.0 < c <= 1.0 && 0.0 < d <= 1.0;
    ProductMonotone(a, a', b * c * d);
    assert a * b * c * d == a * (b * c * d);
    assert b * c * d <= 1.0 by {
      ProductMonotone(b, 1.0, c * d);
      ProductMonotone(c, 1.0, d);
    }
    ProductMonotone(b * c * d, 1.0, d);
  }

  lemma ProductMonotone(x: real, y: real, z: real)
    requires 0.0 <= x <= y && 0.0 <= z
    ensures x * z <= y * z
  {
  }

  /** The three scored parts besides proficiency. */
  datatype Parts = Parts(similarity: real, complementarity: real, feasibility: real)

  /** The similarity: cosine similarity when the need has an embedding,
      keyword Jaccard similarity otherwise. */
  function Similarity(needEmbedding: Option<Embedding>, cosine: Capability -> real, need: Need, cap: Capability): real
  {
    if needEmbedding.Some? then cosine(cap) else KeywordSimilarity(need, cap)
  }

  function PartsOf(needEmbedding: Option<Embedding>, cosine: Capability -> real, need: Need, needUser: UserProfile,
                   cap: Capability, capUser: UserProfile): Parts
  {
    Parts(Similarity(needEmbedding, cosine, need, cap), Complementarity(needUser, capUser),
          Feasibility(needUser, capUser, need))
  }

  predicate WeightsAreConvex(config: SemanticConfig)
  {
    && config.weightSemantic >= 0.0 && config.weightComplementarity >= 0.0
    && config.weightProficiency >= 0.0 && config.weightFeasibility >= 0.0
    && config.weightSemantic + config.weightComplementarity + config.weightProficiency + config.weightFeasibility == 1.0
  }

  /** The weighted sum of the four parts. With non-negative weights summing
      to 1 (the defaults 0.4, 0.3, 0.2 and 0.1 do), parts in [0, 1] give a
      score in [0, 1]. */
  function WeightedScore(config: SemanticConfig, parts: Parts, proficiency: real): (s: real)
    ensures WeightsAreConvex(config)
            && 0.0 <= parts.similarity <= 1.0 && 0.0 <= parts.complementarity <= 1.0
            && 0.0 <= parts.feasibility <= 1.0 && 0.0 <= proficiency <= 1.0
            ==> 0.0 <= s <= 1.0
  {
    if WeightsAreConvex(config)
       && 0.0 <= parts.similarity <= 1.0 && 0.0 <= parts.complementarity <= 1.0
       && 0.0 <= parts.feasibility <= 1.0 && 0.0 <= proficiency <= 1.0
    then
      ConvexCombination(parts.similarity, parts.complementarity, proficiency, parts.feasibility,
                        config.weightSemantic, config.weightComplementarity,
                        config.weightProficiency, config.weightFeasibility);
      WeightedSum(config, parts, proficiency)
    else WeightedSum(config, parts, proficiency)
  }

  function WeightedSum(config: SemanticConfig, parts: Parts, proficiency: real): real
  {
    parts.similarity * config.weightSemantic
    + parts.complementarity * config.weightComplementarity
    + proficiency * config.weightProficiency
    + parts.feasibility * config.weightFeasibility
  }

  /** A fraction of a non-negative weight lies between 0 and the weight. */
  lemma Scaled(x: real, w: real)
    requires 0.0 <= x <= 1.0 && 0.0 <= w
    ensures 0.0 <= x * w <= w
  {
    ProductMonotone(x, 1.0, w);
    ProductMonotone(0.0, x, w);
  }

  /** Four fractions of non-negative weights sum to at most the weights' sum. */
  lemma ConvexCombination(x1: real, x2: real, x3: real, x4: real, w1: real, w2: real, w3: real, w4: real)
    requires 0.0 <= x1 <= 1.0 && 0.0 <= x2 <= 1.0 && 0.0 <= x3 <= 1.0 && 0.0 <= x4 <= 1.0
    requires 0.0 <= w1 && 0.0 <= w2 && 0.0 <= w3 && 0.0 <= w4
    ensures 0.0 <= x1 * w1 + x2 * w2 + x3 * w3 + x4 * w4 <= w1 + w2 + w3 + w4
  {
    var p1, p2, p3, p4 := x1 * w1, x2 * w2, x3 * w3, x4 * w4;
    Scaled(x1, w1);
    Scaled(x2, w2);
    Scaled(x3, w3);
    Scaled(x4, w4);
    AddFour(p1, p2, p3, p4, w1, w2, w3, w4);
    AddFour(0.0, 0.0, 0.0, 0.0, p1, p2, p3, p4);
  }

  /** Termwise bounds add up (stated apart so that the products stay opaque terms). */
  lemma AddFour(a: real, b: real, c: real, d: real, a': real, b': real, c': real, d': real)
    requires a <= a' && b <= b' && c <= c' && d <= d'
    ensures a + b + c + d <= a' + b' + c' + d'
  {
  }

  lemma DefaultWeightsAreConvex()
    ensures WeightsAreConvex(DefaultSemanticConfig)
  {
  }

  /** `_compute_confidence`: the mean of an embedding factor, the score, an
      evidence factor and a history factor (0.8 only with more than ten past
      matches). */
  function Confidence(usedEmbedding: bool, score: real, evidence: seq<Evidence>, history: seq<Match>): (c: real)
    ensures 0.0 <= score <= 1.0 ==> 0.4 <= c <= 0.875
    ensures usedEmbedding && |evidence| > 0 && |history| > 10 && score == 1.0 ==> c == 0.875
    ensures !usedEmbedding && |evidence| == 0 && |history| <= 10 && score == 0.0 ==> c == 0.4
  {
    var embeddingFactor := if usedEmbedding then 0.9 else 0.6;
    var evidenceFactor := if |evidence| > 0 then 0.8 else 0.5;
    var historyFactor := if |history| > 10 then 0.8 else 0.5;
    (embeddingFactor + score + evidenceFactor + historyFactor) / 4.0
  }

  /** The uncertainty factors: the fallback note and the short-history note. */
  function Uncertainties(noEmbeddingNote: bool, history: seq<Match>): (u: seq<string>)
    ensures |u| <= 2
    ensures NoEmbeddings in u <==> noEmbeddingNote
    ensures LimitedHistory in u <==> |history| < 10
  {
    (if noEmbeddingNote then [NoEmbeddings] else [])
    + (if |history| < 10 then [LimitedHistory] else [])
  }

  // ---------------------------------------------------------------------
  // Scoring one candidate

  function SimilarityStep(similarity: real, usedEmbedding: bool): ProvenanceStep
  {
    Step(OpSimilarity, map[KeySimilarity := VReal(similarity)], SimilarityReasoning,
         if usedEmbedding then 0.9 else 0.6)
  }

  function ScoreNotes(parts: Parts, proficiency: real): seq<Evidence>
  {
    [ ScoreNote(TopicSemantic, parts.similarity),
      ScoreNote(TopicComplementarity, parts.complementarity),
      ScoreNote(TopicProficiency, proficiency),
      ScoreNote(TopicFeasibility, parts.feasibility) ]
  }

  const VerificationMethods: seq<string> := [ReviewDescription, CheckSimilarity, VerifyProficiency]

  /** Fill in a fresh match the way `_score_match` does: score, then
      confidence while the evidence list is still empty, then evidence,
      verification methods and uncertainties. */
  function Assemble(config: SemanticConfig, history: seq<Match>, need: Need, needUser: UserProfile,
                    cap: Capability, capUser: UserProfile, id: string, usedEmbedding: bool,
                    parts: Parts, noEmbeddingNote: bool): (r: Match)
    ensures r.id == id && r.need == need && r.capability == cap
    ensures r.needUserId == needUser.userId && r.capabilityUserId == capUser.userId
  {
    var graph := NewGraph(ScoringGraph).AddStep(SimilarityStep(parts.similarity, usedEmbedding));
    var initial := NewMatch(id, need, needUser.userId, cap, capUser.userId, graph);
    var scored := initial.(complementarityScore := parts.complementarity,
                           feasibilityScore := parts.feasibility,
                           matchScore := WeightedScore(config, parts, cap.proficiency));
    scored.(confidence := Confidence(usedEmbedding, scored.matchScore, scored.evidence, history),
            evidence := ScoreNotes(parts, cap.proficiency),
            verificationMethods := VerificationMethods,
            uncertaintyFactors := Uncertainties(noEmbeddingNote, history))
  }

  /** `_score_match` with the fallback note keyed on whether the need has an
      embedding (`need_embedding is None`). `id` stands for the generated
      match id. */
  function ScoreMatch(config: SemanticConfig, history: seq<Match>, need: Need, needUser: UserProfile,
                      cap: Capability, capUser: UserProfile, id: string,
                      needEmbedding: Option<Embedding>, cosine: Capability -> real): (r: Match)
    ensures r.id == id && r.need == need && r.capability == cap
    ensures r.needUserId == needUser.userId && r.capabilityUserId == capUser.userId
  {
    Assemble(config, history, need, needUser, cap, capUser, id, needEmbedding.Some?,
             PartsOf(needEmbedding, cosine, need, needUser, cap, capUser), needEmbedding.None?)
  }

  /** A scored match carries one `semantic_similarity` step, whose output
      is the similarity: cosine similarity with an embedding, keyword
      similarity without. */
  lemma ScoreMatchProvenance(config: SemanticConfig, history: seq<Match>, need: Need, needUser: UserProfile,
                             cap: Capability, capUser: UserProfile, id: string,
                             needEmbedding: Option<Embedding>, cosine: Capability -> real)
    ensures var r := ScoreMatch(config, history, need, needUser, cap, capUser, id, needEmbedding, cosine);
            && r.provenance.decisionType == ScoringGraph
            && |r.provenance.steps| == 1
            && r.provenance.steps[0].operation == OpSimilarity
            && r.provenance.steps[0].outputs
               == map[KeySimilarity := VReal(if needEmbedding.Some? then cosine(cap) else KeywordSimilarity(need, cap))]
            && r.provenance.steps[0].confidence == (if needEmbedding.Some? then 0.9 else 0.6)
  {
    var parts := PartsOf(needEmbedding, cosine, need, needUser, cap, capUser);
    assert ScoreMatch(config, history, need, needUser, cap, capUser, id, needEmbedding, cosine)
        == Assemble(config, history, need, needUser, cap, capUser, id, needEmbedding.Some?, parts, needEmbedding.None?);
  }

  /** The score is the configured weighting of similarity, complementarity,
      proficiency and feasibility, and the latter two are recorded as they are. */
  lemma ScoreMatchScore(config: SemanticConfig, history: seq<Match>, need: Need, needUser: UserProfile,
                        cap: Capability, capUser: UserProfile, id: string,
                        needEmbedding: Option<Embedding>, cosine: Capability -> real)
    ensures var r := ScoreMatch(config, history, need, needUser, cap, capUser, id, needEmbedding, cosine);
            var sim := if needEmbedding.Some? then cosine(cap) else KeywordSimilarity(need, cap);
            && r.complementarityScore == Complementarity(needUser, capUser)
            && r.feasibilityScore == Feasibility(needUser, capUser, need)
            && r.matchScore == WeightedScore(config, Parts(sim, r.complementarityScore, r.feasibilityScore),
                                             cap.proficiency)
  {
    var parts := PartsOf(needEmbedding, cosine, need, needUser, cap, capUser);
    assert ScoreMatch(config, history, need, needUser, cap, capUser, id, needEmbedding, cosine)
        == Assemble(config, history, need, needUser, cap, capUser, id, needEmbedding.Some?, parts, needEmbedding.None?);
  }

  /** What a scored match records besides its scores: a confidence that
      counts the evidence as missing, four score notes, the three fixed
      verification methods, and the uncertainty notes. */
  lemma ScoreMatchNotes(config: SemanticConfig, history: seq<Match>, need: Need, needUser: UserProfile,
                        cap: Capability, capUser: UserProfile, id: string,
                        needEmbedding: Option<Embedding>, cosine: Capability -> real)
    ensures var r := ScoreMatch(config, history, need, needUser, cap, capUser, id, needEmbedding, cosine);
            && r.confidence == ((if needEmbedding.Some? then 0.9 else 0.6) + r.matchScore + 0.5
                                + (if |history| > 10 then 0.8 else 0.5)) / 4.0
            && |r.evidence| == 4
            && r.evidence[0] == ScoreNote(TopicSemantic, Similarity(needEmbedding, cosine, need, cap))
            && r.evidence[1] == ScoreNote(TopicComplementarity, r.complementarityScore)
            && r.evidence[2] == ScoreNote(TopicProficiency, cap.proficiency)
            && r.evidence[3] == ScoreNote(TopicFeasibility, r.feasibilityScore)
            && r.verificationMethods == VerificationMethods
            && (NoEmbeddings in r.uncertaintyFactors <==> needEmbedding.None?)
            && (LimitedHistory in r.uncertaintyFactors <==> |history| < 10)
  {
    var parts := PartsOf(needEmbedding, cosine, need, needUser, cap, capUser);
    assert ScoreMatch(config, history, need, needUser, cap, capUser, id, needEmbedding, cosine)
        == Assemble(config, history, need, needUser, cap, capUser, id, needEmbedding.Some?, parts, needEmbedding.None?);
  }

  /** With the default weights and a similarity and proficiency in [0, 1],
      the score lies in [0, 1]; the keyword similarity always does. */
  lemma ScoreMatchInUnit(history: seq<Match>, need: Need, needUser: UserProfile,
                         cap: Capability, capUser: UserProfile, id: string,
                         needEmbedding: Option<Embedding>, cosine: Capability -> real)
    requires 0.0 <= cap.proficiency <= 1.0
    requires needEmbedding.Some? ==> 0.0 <= cosine(cap) <= 1.0
    ensures 0.0 <= ScoreMatch(DefaultSemanticConfig, history, need, needUser, cap, capUser, id,
                              needEmbedding, cosine).matchScore <= 1.0
  {
    var parts := PartsOf(needEmbedding, cosine, need, needUser, cap, capUser);
    assert 0.0 <= WeightedScore(DefaultSemanticConfig, parts, cap.proficiency) <= 1.0;
  }

  /** The two history thresholds disagree at exactly ten past matches: the
      match is not flagged for limited history, yet the history factor of
      its confidence is the low one. */
  lemma TenPastMatchesFallBetweenThresholds(config: SemanticConfig, history: seq<Match>, need: Need,
                                            needUser: UserProfile, cap: Capability, capUser: UserProfile,
                                            id: string, needEmbedding: Option<Embedding>,
                                            cosine: Capability -> real)
    requires |history| == 10
    ensures var r := ScoreMatch(config, history, need, needUser, cap, capUser, id, needEmbedding, cosine);
            LimitedHistory !in r.uncertaintyFactors
            && r.confidence == ((if needEmbedding.Some? then 0.9 else 0.6) + r.matchScore + 0.5 + 0.5) / 4.0
  {
    ScoreMatchNotes(config, history, need, needUser, cap, capUser, id, needEmbedding, cosine);
  }

  // ---------------------------------------------------------------------
  // The fallback test as written

  /** Python's truth value of a one-dimensional NumPy array: an empty array
      is false (in NumPy before 2.2, which raises instead), a one-element array has its element's truth value, and a
      longer array raises `ValueError`. */
  function ArrayTruth(v: Embedding): (r: Result<bool>)
    ensures r.Err? <==> |v| > 1
    ensures |v| == 0 ==> r == Ok(false)
  {
    if |v| == 0 then Ok(false)
    else if |v| == 1 then Ok(v[0] != 0.0)
    else Err(AmbiguousTruth)
  }

  /** `not need_embedding` on an `Optional[np.ndarray]`. */
  function NotEmbedding(needEmbedding: Option<Embedding>): Result<bool>
  {
    if needEmbedding.None? then Ok(true)
    else
      var t := ArrayTruth(needEmbedding.value);
      if t.Err? then Err(t.message) else Ok(!t.value)
  }

  /** `_score_match` exactly as written: the uncertainty test applies `not`
      to the need's embedding itself. */
  function ScoreMatchAsWritten(config: SemanticConfig, history: seq<Match>, need: Need, needUser: UserProfile,
                               cap: Capability, capUser: UserProfile, id: string,
                               needEmbedding: Option<Embedding>, cosine: Capability -> real): (r: Result<Match>)
    ensures needEmbedding.None? ==> r.Ok?
  {
    var note := NotEmbedding(needEmbedding);
    if note.Err? then Err(note.message)
    else Ok(Assemble(config, history, need, needUser, cap, capUser, id, needEmbedding.Some?,
                     PartsOf(needEmbedding, cosine, need, needUser, cap, capUser), note.value))
  }

  /** As written, scoring raises for every real embedding (the encoder's
      vectors have hundreds of components), and agrees with the corrected
      scoring only in the keyword fallback. */
  lemma ScoreMatchAsWrittenRaises(config: SemanticConfig, history: seq<Match>, need: Need, needUser: UserProfile,
                                  cap: Capability, capUser: UserProfile, id: string,
                                  needEmbedding: Option<Embedding>, cosine: Capability -> real)
    ensures needEmbedding.Some? && |needEmbedding.value| > 1 ==>
              ScoreMatchAsWritten(config, history, need, needUser, cap, capUser, id, needEmbedding, cosine).Err?
    ensures needEmbedding.None? ==>
              ScoreMatchAsWritten(config, history, need, needUser, cap, capUser, id, needEmbedding, cosine)
              == Ok(ScoreMatch(config, history, need, needUser, cap, capUser, id, needEmbedding, cosine))
  {
  }

  // ---------------------------------------------------------------------
  // find_matches

  /** The need's embedding: the encoder's vector when the model is loaded. */
  function NeedEmbedding(m: SemanticMatcher, vector: Embedding): (e: Option<Embedding>)
    ensures e.Some? <==> m.embeddingsAvailable
  {
    if m.embeddingsAvailable then Some(vector) else None
  }

  function ScoreAll(m: SemanticMatcher, need: Need, needUser: UserProfile, cands: seq<Matching.Entry>,
                    needEmbedding: Option<Embedding>, cosine: Capability -> real, ids: nat -> string)
    : (r: seq<Match>)
    ensures |r| == |cands|
    ensures forall i :: 0 <= i < |r| ==>
              r[i] == ScoreMatch(m.config, m.history, need, needUser, cands[i].capability, cands[i].profile, ids(i),
                                 needEmbedding, cosine)
  {
    seq(|cands|, i requires 0 <= i < |cands| =>
          ScoreMatch(m.config, m.history, need, needUser, cands[i].capability, cands[i].profile, ids(i),
                     needEmbedding, cosine))
  }

  /** The candidates that reach the minimum score (`len(scored_matches)`). */
  function Qualifying(scored: seq<Match>, min: real): nat
  {
    |AtLeast(Enumerate(scored, Matching.Scores(scored)), min)|
  }

  function EmbeddingStep(need: Need, generated: bool): ProvenanceStep
  {
    ProvenanceStep(OpEmbedding, map[KeyNeedDescription := VStr(Prefix(need.description, 100))],
                   map[KeyEmbeddingGenerated := VBool(generated)], EmbeddingReasoning,
                   if generated then 0.95 else 0.3, [])
  }

  function MemoryQueryStep(found: nat): ProvenanceStep
  {
    Step(OpMemoryQuery, map[KeyCandidatesFound := VInt(found)],
         MemoryReasoningHead + NatToString(found) + MemoryReasoningTail, 0.7)
  }

  function RankingStep(total: nat, top: seq<Match>): ProvenanceStep
    requires |top| > 0
  {
    ProvenanceStep(OpRanking, map[KeyTotalMatches := VInt(total)],
                   map[KeyTopMatchScore := VReal(top[0].matchScore), KeyReturnedMatches := VInt(|top|)],
                   RankingReasoning, 0.9, [])
  }

  /** The matches `find_matches` returns for the retrieved candidates. */
  function FindTop(m: SemanticMatcher, cands: seq<Matching.Entry>, need: Need, needUser: UserProfile,
                   maxResults: Option<int>, needEmbedding: Option<Embedding>, cosine: Capability -> real,
                   ids: nat -> string): seq<Match>
  {
    Matching.TopMatches(ScoreAll(m, need, needUser, cands, needEmbedding, cosine, ids), m.config.minMatchScore,
                        EffectiveLimit(maxResults, m.config.maxMatchesPerNeed))
  }

  /** `find_matches` with in-memory storage, returning the matches and the
      `semantic_capability_match` graph built alongside them: the embedding
      step, the memory query step, and a ranking step exactly when some match
      is returned. `vector` is the encoder's output for the need and `cosine`
      gives each capability's cosine similarity to it. */
  function FindMatches(m: SemanticMatcher, need: Need, needUser: UserProfile, maxResults: Option<int>,
                       vector: Embedding, cosine: Capability -> real, ids: nat -> string)
    : (r: (seq<Match>, ProvenanceGraph))
    ensures r.0 == FindTop(m, QueryMemory(m, NeedEmbedding(m, vector), need, needUser, cosine), need, needUser,
                           maxResults, NeedEmbedding(m, vector), cosine, ids)
    ensures r.1.decisionType == MatchingGraph
    ensures |r.1.steps| == (if |r.0| > 0 then 3 else 2)
    ensures r.1.steps[0].operation == OpEmbedding
    ensures r.1.steps[0].confidence == (if m.embeddingsAvailable then 0.95 else 0.3)
    ensures r.1.steps[1].operation == OpMemoryQuery
    ensures |r.0| > 0 ==> r.1.steps[2].operation == OpRanking
                          && KeyReturnedMatches in r.1.steps[2].outputs
                          && r.1.steps[2].outputs[KeyReturnedMatches] == VInt(|r.0|)
  {
    var needEmbedding := NeedEmbedding(m, vector);
    var cands := QueryMemory(m, needEmbedding, need, needUser, cosine);
    var top := FindTop(m, cands, need, needUser, maxResults, needEmbedding, cosine, ids);
    var g := NewGraph(MatchingGraph).AddStep(EmbeddingStep(need, needEmbedding.Some?))
                                    .AddStep(MemoryQueryStep(|cands|));
    var total := Qualifying(ScoreAll(m, need, needUser, cands, needEmbedding, cosine, ids), m.config.minMatchScore);
    (top, if |top| > 0 then g.AddStep(RankingStep(total, top)) else g)
  }

  /** Each returned match is one of the scored ones. */
  lemma TopFromScored(scored: seq<Match>, min: real, limit: int)
    ensures forall i :: 0 <= i < |Matching.TopMatches(scored, min, limit)| ==>
              exists k :: 0 <= k < |scored| && Matching.TopMatches(scored, min, limit)[i] == scored[k]
  {
    Matching.RankMatchesIsTop(scored, min, limit);
    var r := Matching.RankMatches(scored, min, limit);
    forall i | 0 <= i < |Matching.TopMatches(scored, min, limit)|
      ensures exists k :: 0 <= k < |scored| && Matching.TopMatches(scored, min, limit)[i] == scored[k]
    {
      assert Matching.TopMatches(scored, min, limit)[i] == scored[r[i].pos];
    }
  }

  /** `find_matches` returns qualifying matches, best first, at most the
      effective limit of them, and never one of the requester's own
      capabilities. */
  lemma FindMatchesSound(m: SemanticMatcher, need: Need, needUser: UserProfile, maxResults: Option<int>,
                         vector: Embedding, cosine: Capability -> real, ids: nat -> string)
    ensures var top := FindMatches(m, need, needUser, maxResults, vector, cosine, ids).0;
            && (forall i :: 0 <= i < |top| ==> top[i].matchScore >= m.config.minMatchScore)
            && (forall i, j :: 0 <= i < j < |top| ==> top[i].matchScore >= top[j].matchScore)
            && (EffectiveLimit(maxResults, m.config.maxMatchesPerNeed) >= 0 ==>
                  |top| <= EffectiveLimit(maxResults, m.config.maxMatchesPerNeed))
            && (forall i :: 0 <= i < |top| ==>
                  top[i].needUserId == needUser.userId && top[i].capabilityUserId != needUser.userId)
  {
    var needEmbedding := NeedEmbedding(m, vector);
    var cands := QueryMemory(m, needEmbedding, need, needUser, cosine);
    var scored := ScoreAll(m, need, needUser, cands, needEmbedding, cosine, ids);
    var limit := EffectiveLimit(maxResults, m.config.maxMatchesPerNeed);
    Matching.TopMatchesRanked(scored, m.config.minMatchScore, limit);
    TopFromScored(scored, m.config.minMatchScore, limit);
    forall k | 0 <= k < |scored|
      ensures scored[k].needUserId == needUser.userId && scored[k].capabilityUserId != needUser.userId
    {
      assert cands[k] in cands;
    }
  }

  /** `find_matches` drops nothing that qualifies while there is room: under a
      limit it returns min(limit, qualifying) matches, and a qualifying scored
      candidate left out scores no higher than any returned match. */
  lemma FindMatchesComplete(m: SemanticMatcher, need: Need, needUser: UserProfile, maxResults: Option<int>,
                            vector: Embedding, cosine: Capability -> real, ids: nat -> string)
    ensures var needEmbedding := NeedEmbedding(m, vector);
            var scored := ScoreAll(m, need, needUser, QueryMemory(m, needEmbedding, need, needUser, cosine),
                                   needEmbedding, cosine, ids);
            var top := FindMatches(m, need, needUser, maxResults, vector, cosine, ids).0;
            var limit := EffectiveLimit(maxResults, m.config.maxMatchesPerNeed);
            && (limit >= 0 ==> |top| == Min(limit, Qualifying(scored, m.config.minMatchScore)))
            && (forall k, i :: 0 <= k < |scored| && scored[k].matchScore >= m.config.minMatchScore
                  && scored[k] !in top && 0 <= i < |top|
                  ==> top[i].matchScore >= scored[k].matchScore)
  {
    var needEmbedding := NeedEmbedding(m, vector);
    var scored := ScoreAll(m, need, needUser, QueryMemory(m, needEmbedding, need, needUser, cosine),
                           needEmbedding, cosine, ids);
    Matching.TopMatchesComplete(scored, m.config.minMatchScore, EffectiveLimit(maxResults, m.config.maxMatchesPerNeed));
  }

  /** Without the embedding model the store stays empty, so `find_matches`
      returns nothing and records only the embedding and query steps. */
  lemma NoEmbeddingsNoMatches(m: SemanticMatcher, need: Need, needUser: UserProfile, maxResults: Option<int>,
                              vector: Embedding, cosine: Capability -> real, ids: nat -> string)
    requires StorageConsistent(m) && !m.embeddingsAvailable
    ensures FindMatches(m, need, needUser, maxResults, vector, cosine, ids).0 == []
    ensures |FindMatches(m, need, needUser, maxResults, vector, cosine, ids).1.steps| == 2
  {
    var cands := QueryMemory(m, None, need, needUser, cosine);
    assert cands == [];
    var scored := ScoreAll(m, need, needUser, cands, None, cosine, ids);
    assert scored == [];
    assert Enumerate(scored, Matching.Scores(scored)) == [];
  }
}

=== FILE: text.dfy ===
/** The string operations the source leans on: `str.lower()`, `str.split()`,
    `" ".join(...)`, the substring test `kw in text`, `str.isdigit()` and
    integer formatting. Characters are treated as ASCII (see README). */
module Text {

  import opened Base

  /** The ASCII characters `str.split()` treats as whitespace: space, tab,
      line feed, vertical tab, form feed, carriage return, and the file,
      group, record and unit separators. */
  predicate IsSpace(c: char)
  {
    c == ' ' || ('\t' <= c <= '\r') || ('\U{1C}' <= c <= '\U{1F}')
  }

  predicate IsDigit(c: char)
  {
    '0' <= c <= '9'
  }

  predicate IsLowerLetter(c: char)
  {
    'a' <= c <= 'z'
  }

  function LowerChar(c: char): (d: char)
    ensures !('A' <= d <= 'Z')
    ensures IsSpace(d) <==> IsSpace(c)
  {
    if 'A' <= c <= 'Z' then (c as int + 32) as char else c
  }

  /** `s.lower()` */
  function Lower(s: string): (r: string)
    ensures |r| == |s|
    ensures forall i :: 0 <= i < |s| ==> r[i] == LowerChar(s[i])
  {
    seq(|s|, i requires 0 <= i < |s| => LowerChar(s[i]))
  }

  /** A word as `str.split()` produces it: non-empty, with no whitespace. */
  predicate IsWord(w: string)
  {
    |w| > 0 && forall i :: 0 <= i < |w| ==> !IsSpace(w[i])
  }

  /** Length of the run of non-whitespace characters at the front of `s`. */
  function WordLength(s: string): (n: nat)
    ensures n <= |s|
    ensures forall i :: 0 <= i < n ==> !IsSpace(s[i])
    ensures n < |s| ==> IsSpace(s[n])
  {
    if |s| == 0 || IsSpace(s[0]) then 0 else 1 + WordLength(s[1..])
  }

  /** `s.split()` with no separator: maximal runs of non-whitespace, in order. */
  function Split(s: string): (ws: seq<string>)
    ensures forall k :: 0 <= k < |ws| ==> IsWord(ws[k])
    decreases |s|
  {
    if |s| == 0 then []
    else if IsSpace(s[0]) then Split(s[1..])
    else
      var n := WordLength(s);
      [s[..n]] + Split(s[n..])
  }

  /** `s.lower().split()` */
  function Words(s: string): seq<string>
  {
    Split(Lower(s))
  }

  /** `sep.join(ws)` */
  function Join(ws: seq<string>, sep: string): string
  {
    if |ws| == 0 then ""
    else if |ws| == 1 then ws[0]
    else ws[0] + sep + Join(ws[1..], sep)
  }

  /** `sub` occurs in `s` starting at index `i`. */
  predicate OccursAt(s: string, sub: string, i: nat)
  {
    i + |sub| <= |s| && s[i..i + |sub|] == sub
  }

  /** `sub in s` for strings: `sub` occurs as a contiguous substring. */
  predicate Contains(s: string, sub: string)
  {
    exists i: nat :: i <= |s| - |sub| && OccursAt(s, sub, i)
  }

  /** `sub in s.lower()` */
  predicate ContainsLower(s: string, sub: string)
  {
    Contains(Lower(s), sub)
  }

  /** True when some keyword occurs in the lower-cased text
      (`any(word in text.lower() for word in keywords)`). */
  predicate AnyIn(keywords: seq<string>, s: string)
  {
    exists k :: 0 <= k < |keywords| && ContainsLower(s, keywords[k])
  }

  /** The number of keywords that occur in the text (`sum(1 for kw in keywords if kw in text)`). */
  function HitCount(keywords: seq<string>, s: string): (n: nat)
    ensures n <= |keywords|
    ensures n == 0 <==> forall k :: 0 <= k < |keywords| ==> !Contains(s, keywords[k])
  {
    if |keywords| == 0 then 0
    else (if Contains(s, keywords[0]) then 1 else 0) + HitCount(keywords[1..], s)
  }

  function DigitChar(d: nat): (c: char)
    requires d < 10
    ensures IsDigit(c)
  {
    "0123456789"[d]
  }

  /** Decimal rendering of a natural number, as an f-string prints it. */
  function NatToString(n: nat): (s: string)
    ensures |s| > 0
    ensures forall i :: 0 <= i < |s| ==> IsDigit(s[i])
  {
    if n < 10 then [DigitChar(n)] else NatToString(n / 10) + [DigitChar(n % 10)]
  }

  /** The first `n` characters of `s` (`s[:n]` for `n >= 0`). */
  function Prefix(s: string, n: nat): (r: string)
    ensures |r| == Min(n, |s|)
    ensures r == s[..|r|]
  {
    if n <= |s| then s[..n] else s
  }

  // ---------------------------------------------------------------------
  // Splitting undoes joining with single spaces.

  lemma {:induction false} WordLengthOfWord(w: string, t: string)
    requires IsWord(w)
    requires |t| == 0 || IsSpace(t[0])
    ensures WordLength(w + t) == |w|
    decreases |w|
  {
    var s := w + t;
    assert s[0] == w[0];
    if |w| == 1 {
      assert s[1..] == t;
    } else {
      assert s[1..] == w[1..] + t;
      WordLengthOfWord(w[1..], t);
    }
  }

  /** Joining words with single spaces and splitting again gives the words back. */
  lemma {:induction false} SplitJoin(ws: seq<string>)
    requires forall k :: 0 <= k < |ws| ==> IsWord(ws[k])
    ensures Split(Join(ws, " ")) == ws
    decreases |ws|
  {
    if |ws| == 0 {
    } else if |ws| == 1 {
      var w := ws[0];
      WordLengthOfWord(w, "");
      assert w + "" == w;
      assert w[..|w|] == w;
      assert w[|w|..] == "";
    } else {
      var w := ws[0];
      var rest := Join(ws[1..], " ");
      var s := w + " " + rest;
      assert Join(ws, " ") == s;
      assert s == w + (" " + rest);
      WordLengthOfWord(w, " " + rest);
      assert s[0] == w[0];
      assert s[..|w|] == w;
      assert s[|w|..] == " " + rest;
      assert (" " + rest)[1..] == rest;
      SplitJoin(ws[1..]);
      assert ws == [w] + ws[1..];
    }
  }
}

=== FILE: transparency.dfy ===
/** The transparency engine (`TransparencyEngine`): it turns a match and its
    provenance graph into a structured explanation (score bands, the steps
    listed verbatim, the key factors, the alternatives considered, a
    confidence interval) and hands out fixed verification protocols. */
module Transparency {

  import opened Base
  import opened Text
  import opened Models

  // ---------------------------------------------------------------------
  // Fixed texts

  const ExcellentMatch: string := "Excellent match"
  const GoodMatch: string := "Good match"
  const ModerateMatch: string := "Moderate match"
  const WeakMatch: string := "Weak match"

  const VeryHighConfidence: string := "Very high confidence - strong evidence and clear reasoning"
  const HighConfidence: string := "High confidence - good evidence, some uncertainty remains"
  const ModerateConfidence: string := "Moderate confidence - reasonable evidence, notable uncertainty"
  const LowConfidence: string := "Low confidence - limited evidence, significant uncertainty"
  const VeryLowConfidence: string := "Very low confidence - weak evidence, high uncertainty"
  const ConfidenceMeaning: string :=
    "Confidence represents how certain the system is about this decision. Higher confidence means more evidence and clearer reasoning."

  const WordData: string := "data"
  const WordEvidence: string := "evidence"
  const WordPast: string := "past"
  const GatherData: string := "Gather more relevant data"
  const SeekEvidence: string := "Seek additional evidence or validation"
  const LookForPastCases: string := "Look for similar past cases"
  const GatherInformation: string := "Gather more information"
  const SeekExpertValidation: string := "Seek expert validation"

  const FactorSeparator: string := ": "
  const HighestScoring: string := "This was the highest-scoring option"
  const KeyName: string := "name"
  const KeyScore: string := "score"
  const KeyReasonNotChosen: string := "reason_not_chosen"
  const DefaultOption: string := "Alternative option"
  const DefaultWhyNot: string := "Lower score"

  const CheckEvidenceHead: string := "Check evidence: "
  const ReviewPastMatchHead: string := "Review similar past match: "
  const CompareDescriptions: string := "Compare need and capability descriptions manually"
  const ConsiderDomain: string := "Consider if this collaboration makes sense in your domain"
  const ExternalValidation: seq<string> := [
    "Consult with domain experts",
    "Review relevant literature or case studies",
    "Check if similar collaborations have succeeded before"]
  const Sensitivities: seq<string> := [
    "More detailed capability description could improve accuracy",
    "Additional context about constraints could affect feasibility",
    "Past collaboration outcomes would improve confidence"]
  const ComplementarityMeaning: string := "How well the capabilities complement the need"
  const FeasibilityMeaning: string := "How practical is this collaboration"
  const SummaryScoreHead: string := "Match score: "
  const SummaryConfidenceHead: string := " | Confidence: "
  const SummaryComplementarityHead: string := " | Complementarity: "

  // ---------------------------------------------------------------------
  // Score and confidence bands

  /** `_interpret_score` */
  function InterpretScore(score: real): (s: string)
    ensures s == ExcellentMatch <==> score >= 0.8
    ensures s == GoodMatch <==> 0.6 <= score < 0.8
    ensures s == ModerateMatch <==> 0.4 <= score < 0.6
    ensures s == WeakMatch <==> score < 0.4
  {
    if score >= 0.8 then ExcellentMatch
    else if score >= 0.6 then GoodMatch
    else if score >= 0.4 then ModerateMatch
    else WeakMatch
  }

  /** The position of a score band, best first. */
  function ScoreBand(interpretation: string): nat
  {
    if interpretation == ExcellentMatch then 0
    else if interpretation == GoodMatch then 1
    else if interpretation == ModerateMatch then 2
    else 3
  }

  /** A higher score never gets a worse interpretation. */
  lemma InterpretScoreMonotone(a: real, b: real)
    requires a <= b
    ensures ScoreBand(InterpretScore(b)) <= ScoreBand(InterpretScore(a))
  {
  }

  /** The interpretation `explain_confidence` gives a confidence. */
  function InterpretConfidence(confidence: real): (s: string)
    ensures s == VeryHighConfidence <==> confidence >= 0.9
    ensures s == HighConfidence <==> 0.7 <= confidence < 0.9
    ensures s == ModerateConfidence <==> 0.5 <= confidence < 0.7
    ensures s == LowConfidence <==> 0.3 <= confidence < 0.5
    ensures s == VeryLowConfidence <==> confidence < 0.3
  {
    if confidence >= 0.9 then VeryHighConfidence
    else if confidence >= 0.7 then HighConfidence
    else if confidence >= 0.5 then ModerateConfidence
    else if confidence >= 0.3 then LowConfidence
    else VeryLowConfidence
  }

  /** The advice for one uncertainty factor, by the first keyword it mentions. */
  function Suggestion(factor: string): Option<string>
  {
    if ContainsLower(factor, WordData) then Some(GatherData)
    else if ContainsLower(factor, WordEvidence) then Some(SeekEvidence)
    else if ContainsLower(factor, WordPast) then Some(LookForPastCases)
    else None
  }

  function Suggestions(factors: seq<string>): (r: seq<string>)
    ensures |r| <= |factors|
    ensures |r| == 0 <==> forall i :: 0 <= i < |factors| ==> Suggestion(factors[i]).None?
    decreases |factors|
  {
    if |factors| == 0 then []
    else
      var rest := Suggestions(factors[1..]);
      assert forall i :: 0 <= i < |factors[1..]| ==> factors[1..][i] == factors[i + 1];
      var s := Suggestion(factors[0]);
      if s.Some? then [s.value] + rest else rest
  }

  /** `_suggest_confidence_improvements`: one piece of advice per factor
      that mentions data, evidence or the past, and two generic ones when
      none does. */
  function ConfidenceImprovements(factors: seq<string>): (r: seq<string>)
    ensures |r| > 0
    ensures |r| <= if |factors| > 2 then |factors| else 2
    ensures r == [GatherInformation, SeekExpertValidation]
            <==> forall i :: 0 <= i < |factors| ==> Suggestion(factors[i]).None?
    ensures (exists i :: 0 <= i < |factors| && Suggestion(factors[i]).Some?) ==> r == Suggestions(factors)
  {
    var s := Suggestions(factors);
    if |s| == 0 then [GatherInformation, SeekExpertValidation]
    else
      SuggestionsAreSpecific(factors);
      assert s[0] != GatherInformation;
      s
  }

  /** Every piece of advice is one of the three specific ones and answers
      some factor of the list. */
  lemma {:induction false} SuggestionsAreSpecific(factors: seq<string>)
    ensures forall k :: 0 <= k < |Suggestions(factors)| ==>
              Suggestions(factors)[k] in [GatherData, SeekEvidence, LookForPastCases]
    ensures forall k :: 0 <= k < |Suggestions(factors)| ==>
              exists i :: 0 <= i < |factors| && Suggestion(factors[i]) == Some(Suggestions(factors)[k])
    decreases |factors|
  {
    if |factors| > 0 {
      SuggestionsAreSpecific(factors[1..]);
      var rest := Suggestions(factors[1..]);
      var s := Suggestion(factors[0]);
      forall k | 0 <= k < |Suggestions(factors)|
        ensures exists i :: 0 <= i < |factors| && Suggestion(factors[i]) == Some(Suggestions(factors)[k])
      {
        if s.Some? && k == 0 {
          assert Suggestion(factors[0]) == Some(Suggestions(factors)[0]);
        } else {
          var k' := if s.Some? then k - 1 else k;
          assert Suggestions(factors)[k] == rest[k'];
          var i :| 0 <= i < |factors[1..]| && Suggestion(factors[1..][i]) == Some(rest[k']);
          assert factors[1..][i] == factors[i + 1];
        }
      }
    } else {
      assert |Suggestions(factors)| == 0;
    }
  }

  /** The advice for a list is the advice for its prefix followed by the
      advice for the last factor, if it has any: one piece per matching
      factor, in factor order. */
  lemma {:induction false} SuggestionsAppend(factors: seq<string>, x: string)
    ensures Suggestions(factors + [x])
            == Suggestions(factors) + (if Suggestion(x).Some? then [Suggestion(x).value] else [])
    decreases |factors|
  {
    if |factors| == 0 {
      assert factors + [x] == [x];
      assert [x][1..] == [];
    } else {
      assert (factors + [x])[0] == factors[0];
      assert (factors + [x])[1..] == factors[1..] + [x];
      SuggestionsAppend(factors[1..], x);
    }
  }

  /** A single factor yields its own advice, or nothing. */
  lemma SuggestionsOfOne(x: string)
    ensures Suggestions([x]) == if Suggestion(x).Some? then [Suggestion(x).value] else []
  {
    assert [x][1..] == [];
  }

  /** `explain_confidence` */
  datatype ConfidenceExplanation = ConfidenceExplanation(
    confidenceScore: real,
    interpretation: string,
    whatAffectsConfidence: seq<string>,
    howToIncrease: seq<string>,
    meaning: string)

  function ExplainConfidence(confidence: real, factors: seq<string>): (e: ConfidenceExplanation)
    ensures e.confidenceScore == confidence && e.whatAffectsConfidence == factors
    ensures e.interpretation == InterpretConfidence(confidence)
    ensures e.howToIncrease == ConfidenceImprovements(factors)
    ensures |e.howToIncrease| > 0
  {
    ConfidenceExplanation(confidence, InterpretConfidence(confidence), factors,
                          ConfidenceImprovements(factors), ConfidenceMeaning)
  }

  // ---------------------------------------------------------------------
  // Reading a provenance graph

  /** One entry of `_format_provenance`. */
  datatype FormattedStep = FormattedStep(number: nat, operation: string, reasoning: string, confidence: real)

  function FormatFrom(steps: seq<ProvenanceStep>, first: nat): (r: seq<FormattedStep>)
    ensures |r| == |steps|
    ensures forall i :: 0 <= i < |steps| ==>
              r[i] == FormattedStep(first + i, steps[i].operation, steps[i].reasoning, steps[i].confidence)
    decreases |steps|
  {
    if |steps| == 0 then []
    else
      [FormattedStep(first, steps[0].operation, steps[0].reasoning, steps[0].confidence)]
      + FormatFrom(steps[1..], first + 1)
  }

  /** `_format_provenance`: one entry per step, numbered from 1 in order,
      with operation, reasoning and confidence copied. */
  function FormatProvenance(g: ProvenanceGraph): (r: seq<FormattedStep>)
    ensures |r| == |g.steps|
    ensures forall i :: 0 <= i < |r| ==>
              r[i].number == i + 1 && r[i].operation == g.steps[i].operation
              && r[i].reasoning == g.steps[i].reasoning && r[i].confidence == g.steps[i].confidence
  {
    FormatFrom(g.steps, 1)
  }

  /** A step is a key factor when its confidence is at least 0.8. */
  predicate IsKey(s: ProvenanceStep)
  {
    s.confidence >= 0.8
  }

  function KeyFactor(s: ProvenanceStep): string
  {
    s.operation + FactorSeparator + s.reasoning
  }

  function KeyFactorsOf(steps: seq<ProvenanceStep>): (r: seq<string>)
    ensures |r| <= |steps|
    decreases |steps|
  {
    if |steps| == 0 then []
    else (if IsKey(steps[0]) then [KeyFactor(steps[0])] else []) + KeyFactorsOf(steps[1..])
  }

  /** `x` is the factor of one of the key steps. */
  predicate FactorOfKeyStep(x: string, steps: seq<ProvenanceStep>)
  {
    exists i :: 0 <= i < |steps| && IsKey(steps[i]) && x == KeyFactor(steps[i])
  }

  /** Every key factor comes from a key step. */
  lemma {:induction false} KeyFactorsSound(steps: seq<ProvenanceStep>)
    ensures forall k :: 0 <= k < |KeyFactorsOf(steps)| ==> FactorOfKeyStep(KeyFactorsOf(steps)[k], steps)
    decreases |steps|
  {
    if |steps| > 0 {
      var tail := steps[1..];
      KeyFactorsSound(tail);
      var head := if IsKey(steps[0]) then [KeyFactor(steps[0])] else [];
      var rest := KeyFactorsOf(tail);
      assert KeyFactorsOf(steps) == head + rest;
      forall k | 0 <= k < |KeyFactorsOf(steps)|
        ensures FactorOfKeyStep(KeyFactorsOf(steps)[k], steps)
      {
        if k < |head| {
          assert IsKey(steps[0]) && KeyFactorsOf(steps)[k] == KeyFactor(steps[0]);
        } else {
          assert FactorOfKeyStep(rest[k - |head|], tail);
          var i :| 0 <= i < |tail| && IsKey(tail[i]) && rest[k - |head|] == KeyFactor(tail[i]);
          assert tail[i] == steps[i + 1];
          assert KeyFactorsOf(steps)[k] == rest[k - |head|];
        }
      }
    }
  }

  /** `_extract_key_factors`: the factors of exactly the steps held with
      confidence 0.8 or more. */
  function ExtractKeyFactors(g: ProvenanceGraph): (r: seq<string>)
    ensures |r| <= |g.steps|
    ensures forall k :: 0 <= k < |r| ==> FactorOfKeyStep(r[k], g.steps)
    ensures forall i :: 0 <= i < |g.steps| && IsKey(g.steps[i]) ==> KeyFactor(g.steps[i]) in r
  {
    KeyFactorsSound(g.steps);
    forall i | 0 <= i < |g.steps| && IsKey(g.steps[i]) ensures KeyFactor(g.steps[i]) in KeyFactorsOf(g.steps) {
      KeyFactorsComplete(g.steps, i);
    }
    KeyFactorsOf(g.steps)
  }

  /** Key factors distribute over concatenation, so they keep step order. */
  lemma {:induction false} KeyFactorsAppend(a: seq<ProvenanceStep>, b: seq<ProvenanceStep>)
    ensures KeyFactorsOf(a + b) == KeyFactorsOf(a) + KeyFactorsOf(b)
    decreases |a|
  {
    if |a| > 0 {
      assert (a + b)[1..] == a[1..] + b;
      KeyFactorsAppend(a[1..], b);
    } else {
      assert a + b == b;
    }
  }

  /** Every key step yields its factor. */
  lemma {:induction false} KeyFactorsComplete(steps: seq<ProvenanceStep>, i: nat)
    requires i < |steps| && IsKey(steps[i])
    ensures KeyFactor(steps[i]) in KeyFactorsOf(steps)
    decreases |steps|
  {
    if i > 0 {
      KeyFactorsComplete(steps[1..], i - 1);
    }
  }

  /** Adding a step to a graph adds its factor at the end exactly when it is
      a key step, and leaves the earlier factors alone. */
  lemma KeyFactorsAfterAddStep(g: ProvenanceGraph, s: ProvenanceStep)
    ensures ExtractKeyFactors(g.AddStep(s)) == ExtractKeyFactors(g) + (if IsKey(s) then [KeyFactor(s)] else [])
  {
    KeyFactorsAppend(g.steps, [s]);
  }

  /** The number of alternatives a step records. */
  function Alts(s: ProvenanceStep): nat
  {
    |s.alternatives|
  }

  function SumAlternatives(steps: seq<ProvenanceStep>): nat
    decreases |steps|
  {
    if |steps| == 0 then 0 else Alts(steps[0]) + SumAlternatives(steps[1..])
  }

  /** `_count_alternatives`: zero exactly when no step records an alternative. */
  function CountAlternatives(g: ProvenanceGraph): (n: nat)
    ensures n == 0 <==> forall i :: 0 <= i < |g.steps| ==> |g.steps[i].alternatives| == 0
  {
    NoAlternativesCounted(g.steps);
    SumAlternatives(g.steps)
  }

  /** The count adds up over concatenated step lists. */
  lemma {:induction false} SumAlternativesAppend(a: seq<ProvenanceStep>, b: seq<ProvenanceStep>)
    ensures SumAlternatives(a + b) == SumAlternatives(a) + SumAlternatives(b)
    decreases |a|
  {
    if |a| > 0 {
      assert (a + b)[1..] == a[1..] + b;
      SumAlternativesAppend(a[1..], b);
    } else {
      assert a + b == b;
    }
  }

  /** The count is zero exactly when no step records an alternative. */
  lemma {:induction false} NoAlternativesCounted(steps: seq<ProvenanceStep>)
    ensures SumAlternatives(steps) == 0 <==> forall i :: 0 <= i < |steps| ==> Alts(steps[i]) == 0
    decreases |steps|
  {
    if |steps| > 0 {
      NoAlternativesCounted(steps[1..]);
      assert forall i :: 0 <= i < |steps[1..]| ==> steps[1..][i] == steps[i + 1];
    }
  }

  /** The index of the first step with the most alternatives, as `max` with
      a key function finds it. */
  function MostAlternatives(steps: seq<ProvenanceStep>): (k: nat)
    requires |steps| > 0
    ensures k < |steps|
    ensures forall j :: 0 <= j < |steps| ==> Alts(steps[j]) <= Alts(steps[k])
    ensures forall j :: 0 <= j < k ==> Alts(steps[j]) < Alts(steps[k])
    decreases |steps|
  {
    if |steps| == 1 then 0
    else
      var init := steps[..|steps| - 1];
      var k := MostAlternatives(init);
      assert forall j :: 0 <= j < |init| ==> init[j] == steps[j];
      if Alts(steps[|steps| - 1]) > Alts(steps[k]) then |steps| - 1 else k
  }

  /** `_explain_choice`: the reasoning of the first step with the most
      alternatives. A step object is always truthy, so the fixed fallback is
      used only for a graph without steps. */
  function ExplainChoice(g: ProvenanceGraph): (r: string)
    ensures |g.steps| == 0 ==> r == HighestScoring
    ensures |g.steps| > 0 ==>
              (exists k :: 0 <= k < |g.steps| && r == g.steps[k].reasoning
                 && (forall j :: 0 <= j < |g.steps| ==> Alts(g.steps[j]) <= Alts(g.steps[k]))
                 && (forall j :: 0 <= j < k ==> Alts(g.steps[j]) < Alts(g.steps[k])))
  {
    if |g.steps| == 0 then HighestScoring
    else g.steps[MostAlternatives(g.steps)].reasoning
  }

  /** One entry of `_get_alternative_summaries`, with the defaults filled in. */
  datatype AltSummary = AltSummary(option: Value, score: Value, whyNot: Value)

  function Summarize(alt: map<string, Value>): AltSummary
  {
    AltSummary(GetOr(alt, KeyName, VStr(DefaultOption)),
               GetOr(alt, KeyScore, VInt(0)),
               GetOr(alt, KeyReasonNotChosen, VStr(DefaultWhyNot)))
  }

  /** The summaries of a step's first three alternatives. */
  function StepSummaries(s: ProvenanceStep): (r: seq<AltSummary>)
    ensures |r| == Min(3, Alts(s))
    ensures forall j :: 0 <= j < |r| ==> r[j] == Summarize(s.alternatives[j])
  {
    var n := Min(3, Alts(s));
    seq(n, j requires 0 <= j < n => Summarize(s.alternatives[j]))
  }

  /** The number of alternatives kept before the overall cap. */
  function CappedCount(steps: seq<ProvenanceStep>): nat
    decreases |steps|
  {
    if |steps| == 0 then 0 else Min(3, Alts(steps[0])) + CappedCount(steps[1..])
  }

  /** Every step's summaries, in step order. */
  function AllSummaries(steps: seq<ProvenanceStep>): (r: seq<AltSummary>)
    ensures |r| == CappedCount(steps)
    decreases |steps|
  {
    if |steps| == 0 then [] else StepSummaries(steps[0]) + AllSummaries(steps[1..])
  }

  /** `_get_alternative_summaries`: at most three per step, at most five in all. */
  function GetAlternativeSummaries(g: ProvenanceGraph): (r: seq<AltSummary>)
    ensures |r| == Min(5, CappedCount(g.steps))
    ensures r == AllSummaries(g.steps)[..|r|]
  {
    var all := AllSummaries(g.steps);
    if |all| <= 5 then all else all[..5]
  }

  /** `x` summarizes one of the first three alternatives of some step. */
  predicate SummaryOfStep(x: AltSummary, steps: seq<ProvenanceStep>)
  {
    exists i, j :: 0 <= i < |steps| && 0 <= j < Min(3, Alts(steps[i])) && x == Summarize(steps[i].alternatives[j])
  }

  /** Each summary is one of the first three alternatives of some step. */
  lemma {:induction false} AllSummariesSound(steps: seq<ProvenanceStep>)
    ensures forall k :: 0 <= k < |AllSummaries(steps)| ==> SummaryOfStep(AllSummaries(steps)[k], steps)
    decreases |steps|
  {
    if |steps| > 0 {
      var tail := steps[1..];
      AllSummariesSound(tail);
      var head := StepSummaries(steps[0]);
      var rest := AllSummaries(tail);
      assert AllSummaries(steps) == head + rest;
      forall k | 0 <= k < |AllSummaries(steps)|
        ensures SummaryOfStep(AllSummaries(steps)[k], steps)
      {
        if k < |head| {
          assert AllSummaries(steps)[k] == head[k] == Summarize(steps[0].alternatives[k]);
        } else {
          assert SummaryOfStep(rest[k - |head|], tail);
          var i, j :| 0 <= i < |tail| && 0 <= j < Min(3, Alts(tail[i]))
                      && rest[k - |head|] == Summarize(tail[i].alternatives[j]);
          assert tail[i] == steps[i + 1];
          assert AllSummaries(steps)[k] == rest[k - |head|];
        }
      }
    }
  }

  /** The per-step cap never adds alternatives. */
  lemma {:induction false} CappedCountBound(steps: seq<ProvenanceStep>)
    ensures CappedCount(steps) <= SumAlternatives(steps)
    decreases |steps|
  {
    if |steps| > 0 {
      CappedCountBound(steps[1..]);
    }
  }

  /** The returned summaries are drawn from the alternatives, never more of
      them than were counted. */
  lemma AlternativeSummariesSound(g: ProvenanceGraph)
    ensures |GetAlternativeSummaries(g)| <= 5
    ensures |GetAlternativeSummaries(g)| <= CountAlternatives(g)
    ensures forall k :: 0 <= k < |GetAlternativeSummaries(g)| ==>
              SummaryOfStep(GetAlternativeSummaries(g)[k], g.steps)
  {
    AllSummariesSound(g.steps);
    CappedCountBound(g.steps);
    var r := GetAlternativeSummaries(g);
    forall k | 0 <= k < |r| ensures SummaryOfStep(r[k], g.steps) {
      assert r[k] == AllSummaries(g.steps)[k];
    }
  }

  // ---------------------------------------------------------------------
  // Confidence interval

  /** `_estimate_confidence_interval`: a margin of 30 % of the score scaled
      by the lack of confidence, clipped to [0, 1]. */
  function ConfidenceInterval(score: real, confidence: real): (r: (real, real))
    ensures r.0 >= 0.0 && r.1 <= 1.0
  {
    var margin := score * (1.0 - confidence) * 0.3;
    (MaxReal(0.0, score - margin), MinReal(1.0, score + margin))
  }

  lemma MarginNonNegative(score: real, confidence: real)
    requires 0.0 <= score && confidence <= 1.0
    ensures score * (1.0 - confidence) * 0.3 >= 0.0
  {
    ProductMonotoneReal(0.0, score, 1.0 - confidence);
  }

  lemma ProductMonotoneReal(x: real, y: real, z: real)
    requires 0.0 <= x <= y && 0.0 <= z
    ensures x * z <= y * z
  {
  }

  /** For a score in [0, 1] and a confidence of at most 1 the interval
      brackets the score. */
  lemma IntervalBracketsScore(score: real, confidence: real)
    requires 0.0 <= score <= 1.0 && confidence <= 1.0
    ensures ConfidenceInterval(score, confidence).0 <= score <= ConfidenceInterval(score, confidence).1
  {
    MarginNonNegative(score, confidence);
  }

  /** A score above 1, which the lexical matcher can produce, is not
      bracketed: its perfect candidate scores 1.31 and, having history, gets
      confidence (1.31 + 0.5 + 0.8 + 0.8) / 4 = 0.8525, whose interval has a
      lower end above its upper end. */
  lemma IntervalInvertsAboveOne()
    ensures ConfidenceInterval(1.31, 0.8525).1 == 1.0
    ensures ConfidenceInterval(1.31, 0.8525).0 > ConfidenceInterval(1.31, 0.8525).1
  {
    assert 1.31 * (1.0 - 0.8525) * 0.3 == 0.0579675;
  }

  /** Away from the clips the interval is symmetric about the score, each
      side 30 % of the score times the lack of confidence; a clipped end sits
      at 0 or 1. */
  lemma IntervalMargin(score: real, confidence: real)
    ensures var r := ConfidenceInterval(score, confidence);
            var margin := score * (1.0 - confidence) * 0.3;
            && (score - margin >= 0.0 ==> score - r.0 == margin)
            && (score + margin <= 1.0 ==> r.1 - score == margin)
            && (score - margin < 0.0 ==> r.0 == 0.0)
            && (score + margin > 1.0 ==> r.1 == 1.0)
  {
  }

  /** For a non-negative score, less confidence never narrows the interval. */
  lemma LowerConfidenceWidens(score: real, c1: real, c2: real)
    requires 0.0 <= score && c1 <= c2
    ensures ConfidenceInterval(score, c1).0 <= ConfidenceInterval(score, c2).0
    ensures ConfidenceInterval(score, c2).1 <= ConfidenceInterval(score, c1).1
  {
    var m1 := score * (1.0 - c1) * 0.3;
    var m2 := score * (1.0 - c2) * 0.3;
    MarginShrinks(score, c1, c2);
    ClipsKeepOrder(score, m1, m2);
  }

  /** A wider margin gives a lower clipped lower end and a higher clipped
      upper end. */
  lemma ClipsKeepOrder(score: real, m1: real, m2: real)
    requires m2 <= m1
    ensures MaxReal(0.0, score - m1) <= MaxReal(0.0, score - m2)
    ensures MinReal(1.0, score + m2) <= MinReal(1.0, score + m1)
  {
  }

  lemma MarginShrinks(score: real, c1: real, c2: real)
    requires 0.0 <= score && c1 <= c2
    ensures score * (1.0 - c2) * 0.3 <= score * (1.0 - c1) * 0.3
  {
    ProductMonotoneReal(0.0, score, c2 - c1);
    assert score * (1.0 - c1) - score * (1.0 - c2) == score * (c2 - c1);
  }

  // ---------------------------------------------------------------------
  // Verification protocols

  datatype ProtocolStep = ProtocolStep(step: nat, action: string, how: string, whatToLookFor: string,
                                       redFlags: seq<string>)

  const DecisionMatch: string := "match"
  const DecisionTeam: string := "team"

  const MatchProtocol: seq<ProtocolStep> := [
    ProtocolStep(1, "Check capability alignment",
                 "Compare the need description with the capability description",
                 "Do they address the same problem domain?",
                 ["Mismatched domains", "Vague descriptions"]),
    ProtocolStep(2, "Verify evidence", "Check the cited sources and references",
                 "Are the sources credible and relevant?",
                 ["Broken links", "Outdated info", "Weak sources"]),
    ProtocolStep(3, "Assess complementarity", "Consider if this collaboration makes sense",
                 "Do the skills truly complement each other?",
                 ["Too much overlap", "Missing critical skills"]),
    ProtocolStep(4, "Check feasibility", "Consider practical constraints (location, time, resources)",
                 "Can this actually work in practice?",
                 ["Incompatible timezones", "Resource conflicts"]),
    ProtocolStep(5, "Trust your judgment", "Does this feel right based on your expertise?",
                 "Your domain knowledge is valuable",
                 ["Something feels off", "Too good to be true"])]

  const TeamProtocol: seq<ProtocolStep> := [
    ProtocolStep(1, "Review team composition", "Look at each member's role and capabilities",
                 "Are all necessary roles covered?",
                 ["Missing critical skills", "Unclear roles"]),
    ProtocolStep(2, "Assess synergies", "Consider how team members would work together",
                 "Complementary skills, collaborative potential",
                 ["Conflicting approaches", "Communication barriers"]),
    ProtocolStep(3, "Evaluate feasibility", "Check timeline, cost, resource estimates",
                 "Are estimates realistic?",
                 ["Too optimistic", "Missing dependencies"]),
    ProtocolStep(4, "Review risk factors", "Consider what could go wrong",
                 "Are risks identified and addressable?",
                 ["Unmanaged risks", "No contingency plans"])]

  /** Steps numbered 1, 2, ... in order. */
  predicate NumberedFromOne(p: seq<ProtocolStep>)
  {
    forall i :: 0 <= i < |p| ==> p[i].step == i + 1
  }

  /** `generate_verification_protocol`: five steps for a match, four for a
      team, none for any other kind; the decision itself is never read. */
  function VerificationProtocol<D>(decision: D, decisionType: string): (r: seq<ProtocolStep>)
    ensures |r| == 5 <==> decisionType == DecisionMatch
    ensures |r| == 4 <==> decisionType == DecisionTeam
    ensures r == [] <==> decisionType != DecisionMatch && decisionType != DecisionTeam
    ensures NumberedFromOne(r)
  {
    if decisionType == DecisionMatch then MatchProtocol
    else if decisionType == DecisionTeam then TeamProtocol
    else []
  }

  /** Two decisions of the same kind get the same protocol. */
  lemma ProtocolIgnoresDecision<D>(d1: D, d2: D, decisionType: string)
    ensures VerificationProtocol(d1, decisionType) == VerificationProtocol(d2, decisionType)
  {
  }

  // ---------------------------------------------------------------------
  // explain_match

  datatype OverallScore = OverallScore(value: real, interpretation: string, confidence: real)
  datatype ScoreExplanation = ScoreExplanation(value: real, explanation: string)
  datatype Scores = Scores(overallMatch: OverallScore, complementarity: ScoreExplanation,
                           feasibility: ScoreExplanation)
  datatype Reasoning = Reasoning(stepByStep: seq<FormattedStep>, keyFactors: seq<string>, evidence: seq<Evidence>)
  datatype Alternatives = Alternatives(totalConsidered: nat, whyThisOne: string, otherOptions: seq<AltSummary>)
  datatype Verification = Verification(methods: seq<string>, howToCheck: seq<string>, externalSources: seq<string>)
  datatype Uncertainty = Uncertainty(factors: seq<string>, confidenceInterval: (real, real),
                                     whatCouldChange: seq<string>)

  /** The dictionary `explain_match` returns: summary, scores and
      uncertainty always, the other three sections on request. */
  datatype Explanation = Explanation(
    summary: string,
    scores: Scores,
    reasoning: Option<Reasoning>,
    alternatives: Option<Alternatives>,
    verification: Option<Verification>,
    uncertainty: Uncertainty)

  /** `_generate_verification_steps`; `show` renders a piece of evidence. */
  function VerificationSteps(m: Match, show: Evidence -> string): (r: seq<string>)
    ensures 2 <= |r| <= 4
    ensures r[|r| - 2] == CompareDescriptions && r[|r| - 1] == ConsiderDomain
    ensures |r| == 2 + (if |m.evidence| > 0 then 1 else 0) + (if |m.similarPastMatches| > 0 then 1 else 0)
    ensures |m.evidence| > 0 ==> r[0] == CheckEvidenceHead + show(m.evidence[0])
  {
    (if |m.evidence| > 0 then [CheckEvidenceHead + show(m.evidence[0])] else [])
    + (if |m.similarPastMatches| > 0 then [ReviewPastMatchHead + m.similarPastMatches[0]] else [])
    + [CompareDescriptions, ConsiderDomain]
  }

  /** `_generate_match_summary`; `fmt` renders a number with two decimals. */
  function MatchSummary(m: Match, fmt: real -> string): (r: string)
    ensures OccursAt(r, SummaryScoreHead, 0)
    ensures OccursAt(r, fmt(m.matchScore), |SummaryScoreHead|)
    ensures OccursAt(r, SummaryConfidenceHead + fmt(m.confidence), |SummaryScoreHead| + |fmt(m.matchScore)|)
    ensures OccursAt(r, SummaryComplementarityHead + fmt(m.complementarityScore),
                     |SummaryScoreHead| + |fmt(m.matchScore)| + |SummaryConfidenceHead| + |fmt(m.confidence)|)
    ensures |r| == |SummaryScoreHead| + |fmt(m.matchScore)| + |SummaryConfidenceHead| + |fmt(m.confidence)|
                   + |SummaryComplementarityHead| + |fmt(m.complementarityScore)|
  {
    SummaryScoreHead + fmt(m.matchScore) + SummaryConfidenceHead + fmt(m.confidence)
    + SummaryComplementarityHead + fmt(m.complementarityScore)
  }

  function ScoresOf(m: Match): Scores
  {
    Scores(OverallScore(m.matchScore, InterpretScore(m.matchScore), m.confidence),
           ScoreExplanation(m.complementarityScore, ComplementarityMeaning),
           ScoreExplanation(m.feasibilityScore, FeasibilityMeaning))
  }

  function ReasoningOf(m: Match): Reasoning
  {
    Reasoning(FormatProvenance(m.provenance), ExtractKeyFactors(m.provenance), m.evidence)
  }

  function AlternativesOf(m: Match): Alternatives
  {
    Alternatives(CountAlternatives(m.provenance), ExplainChoice(m.provenance), GetAlternativeSummaries(m.provenance))
  }

  /** `explain_match` */
  function ExplainMatch(m: Match, includeReasoning: bool, includeAlternatives: bool, includeVerification: bool,
                        fmt: real -> string, show: Evidence -> string): (e: Explanation)
    ensures e.reasoning.Some? <==> includeReasoning
    ensures e.alternatives.Some? <==> includeAlternatives
    ensures e.verification.Some? <==> includeVerification
    ensures e.scores.overallMatch == OverallScore(m.matchScore, InterpretScore(m.matchScore), m.confidence)
    ensures e.scores.complementarity.value == m.complementarityScore
    ensures e.scores.feasibility.value == m.feasibilityScore
    ensures e.uncertainty.factors == m.uncertaintyFactors
    ensures e.uncertainty.confidenceInterval == ConfidenceInterval(m.matchScore, m.confidence)
  {
    Explanation(
      MatchSummary(m, fmt),
      ScoresOf(m),
      if includeReasoning then Some(ReasoningOf(m)) else None,
      if includeAlternatives then Some(AlternativesOf(m)) else None,
      if includeVerification
        then Some(Verification(m.verificationMethods, VerificationSteps(m, show), ExternalValidation))
        else None,
      Uncertainty(m.uncertaintyFactors, ConfidenceInterval(m.matchScore, m.confidence), Sensitivities))
  }

  /** The optional sections carry the match's own data: its steps verbatim,
      its key factors and evidence, its alternatives, its verification
      methods. */
  lemma ExplainMatchSections(m: Match, fmt: real -> string, show: Evidence -> string)
    ensures var e := ExplainMatch(m, true, true, true, fmt, show);
            && |e.reasoning.value.stepByStep| == |m.provenance.steps|
            && e.reasoning.value.keyFactors == ExtractKeyFactors(m.provenance)
            && e.reasoning.value.evidence == m.evidence
            && e.alternatives.value.totalConsidered == CountAlternatives(m.provenance)
            && e.alternatives.value.whyThisOne == ExplainChoice(m.provenance)
            && |e.alternatives.value.otherOptions| <= 5
            && e.verification.value.methods == m.verificationMethods
            && |e.verification.value.howToCheck| >= 2
  {
  }
}
